=== FILE: README.md ===
# Streamline-based linear registration (SLR), modelled in Dafny

This project models the core of DIPY's streamline-based linear
registration (`dipy/align/streamlinear.py`), together with the output-path
logic DIPY's command-line workflows use (`dipy/workflows/multi_io.py`).

**Registration core**

- **Parameter codec.** Vectors of 3, 6, 7, 9 or 12 parameters are turned
  into 4x4 affines: translation, rotation in degrees, scaling, shearing.
  Translations are clipped to ±1e10. The inverse pulls a vector of a
  chosen size back out of a decomposed affine.
- **`StreamlineLinearRegistration`.**
  - Validates `x0` and the optimizer name.
  - Checks that every streamline has the same number of points.
  - Centres both bundles, or applies a given start matrix.
  - Fills in the default optimizer options, runs the optimizer, and builds
    a plain or a joint (halfway) registration map.
- **Cost functions.**
  - The BMD cost `0.25 (mean column minima + mean row minima)^2` of an MDF
    distance matrix.
  - The SUM and asymmetric variants.
  - The halfway cost, which moves both bundles half-way toward each other.
- **Wrappers around the registration.**
  - Cluster-size and length filters.
  - `progressive_slr`, a chain of translation → rigid → similarity →
    scaling → affine stages, each seeded with the previous optimum.
  - `slr_with_qbx`.
- **Groupwise registration.**
  - `groupwise_slr`: repeated halfway registration of disjoint pairs of
    bundles until the mean group distance stops improving.
  - `get_unique_pairs`, the random pairing it draws from.

**Workflow output paths**

- `common_start`, `slash_to_under` and `concatenate_inputs`.
- `connect_output_paths`, as a function from its arguments to the returned
  inputs and output paths: broadcasting single-entry input lists, mixing
  input stems into a prefix, and placing outputs under the `absolute`,
  `append` or `prepend` strategy.
- The fragment of POSIX `pathlib` these use.

**How collaborators appear in the model**

- Collaborators the core calls but does not define are fields of one
  `External.Env` value. The core's contracts quantify over every such
  environment. These collaborators are:
  - `compose_matrix` / `decompose_matrix` (trigonometry);
  - `compose_transformations`, `transform_streamlines` and
    `center_streamlines`;
  - the MDF distance kernels and the scipy optimizer.
- QuickBundles clustering, `length` and `set_number_of_points` are fields of
  `Qbx.Tools`.
- Random draws are explicit inputs (`Pairing.Draws`).
- The current directory is a parameter of `MultiIo.OutputDir`.
- Python exceptions become `Wrappers.Result` errors. Each error carries the
  exception class (`ValueError`, `TypeError`, `IndexError`, `ImportError`,
  `AttributeError`) and the message where the source fixes one.

Modules follow the source's structure:

| Module | Models |
|---|---|
| `Codec` | `compose_matrix44`, `decompose_matrix44` |
| `Engine` | `StreamlineLinearRegistration` and its maps |
| `Halfway` | the two halfway splits of a parameter vector |
| `Metrics` | the cost functions and metric classes |
| `Progressive` | `progressive_slr` |
| `Qbx` | `remove_clusters_by_size`, `slr_with_qbx` |
| `Pairing` | `get_unique_pairs` |
| `Groupwise` | `groupwise_slr` |
| `Paths` | the pathlib fragment |
| `MultiIo` | the workflow helpers |

`Wrappers`, `Seqs`, `Numeric` and `External` hold shared definitions.

## Model

| member | source | states |
|---|---|---|
| Codec.Threshold | dipy/align/streamlinear.py:1431-1432 | `_threshold` clamps into [-th, th]: the value itself inside, the nearer bound outside, and `-th` for a negative threshold (numpy's max-of-min order) |
| Codec.ClipTranslation | dipy/align/streamlinear.py:1468 | every translation entry lies within ±MAX_DIST: an entry above MAX_DIST becomes MAX_DIST, one below -MAX_DIST becomes -MAX_DIST, and an entry is unchanged exactly when it already was in range |
| Codec.ComposeArgs | dipy/align/streamlinear.py:1459-1477 | only sizes 3, 6, 7, 9, 12 are accepted (ValueError otherwise); which of angles/scale/shear are passed depends on the size; size 7 gives isotropic scale `t[6]` three times |
| Codec.ComposeMatrix44 | dipy/align/streamlinear.py:1436-1477 | the matrix is `compose_matrix` of exactly those keyword arguments, and it fails iff the size is invalid |
| Codec.DecomposeParams | dipy/align/streamlinear.py:1498-1518 | the vector has the requested size and carries translation, angles, mean scale (size 7), scale and shear in their slots; other sizes raise ValueError |
| Codec.DecomposeMatrix44 | dipy/align/streamlinear.py:1481-1518 | decompose succeeds iff the size is one of the five, with a vector of that size |
| Codec.IdentityParamsDenoteIdentity | dipy/align/streamlinear.py:532-561 | the default parameter vector of each size composes to the identity transform |
| Codec.ComposeThenDecompose | dipy/align/streamlinear.py:1436-1518 | decomposing a composed vector gives the vector back, with its translation clipped |
| Codec.DecomposeThenCompose | dipy/align/streamlinear.py:1436-1518 | for sizes 3, 6, 9, 12, composing the decomposed vector gives the transform restricted to the components that size keeps |
| Codec.SimilarityRoundTripIsLossy | dipy/align/streamlinear.py:1507-1508 | size 7 replaces the scale by its mean and drops shear, so it is lossless iff the scale was isotropic |
| Engine.Lower | dipy/align/streamlinear.py:532 | `str.lower` maps each letter A-Z to a-z and keeps every other character |
| Engine.ArrayX0 | dipy/align/streamlinear.py:523-529 | an array `x0` is accepted iff it is one-dimensional with 3, 6, 7, 9 or 12 entries, and is returned unchanged; a 0-d array raises TypeError |
| Engine.SetX0 | dipy/align/streamlinear.py:520-563 | per kind of `x0` (array, string, int, other), when it is accepted and which error class is raised; every accepted name or int gives the identity vector of its size |
| Engine.NameAndSizeAgree | dipy/align/streamlinear.py:531-561 | a transform name and the parameter count it stands for give the same `x0`, which denotes the identity |
| Engine.NameCaseInsensitive | dipy/align/streamlinear.py:531-545 | names that agree after `lower()` give the same `x0` |
| Engine.NewRegistration | dipy/align/streamlinear.py:392-404 | an `x0` error is passed on; otherwise construction succeeds iff the method is Powell or L-BFGS-B; the metric defaults to BundleMin and the other settings are kept |
| Engine.CheckPointCounts | dipy/align/streamlinear.py:427-437 | it succeeds iff all static and moving streamlines have the static's first point count; an empty bundle gives IndexError; the first failing check gives ValueError with its own message: "Static streamlines …", "Moving streamlines …", then "Static and moving streamlines …" |
| Engine.CentredStartTranslates | dipy/align/streamlinear.py:439-448 | with no `mat`, both bundles are centred, and the start matrices are pure translations by the static shift and by minus the moving shift (no rotation, scale or shear) |
| Engine.GivenStartCarriesBack | dipy/align/streamlinear.py:449-492 | with a given `mat`, static is kept and moving is moved by `mat`, and an optimum `x` maps back to `compose_transformations(mat, compose_matrix44(x), eye(4))` |
| Engine.DefaultOptions | dipy/align/streamlinear.py:459-479 | the default option keys for Powell and for L-BFGS-B, with their `maxiter` values |
| Engine.History | dipy/align/streamlinear.py:496-504 | one matrix per evolution vector, each mapped back to the original space; it fails iff some vector has an invalid size |
| Engine.NewJointMap | dipy/align/streamlinear.py:619-659 | the joint map's two halves are complementary splits of `xopt`, of its length, and its matrices compose them; an infinite scale split is an error |
| Engine.Optimize | dipy/align/streamlinear.py:407-518 | a point-count error is returned before anything runs; otherwise fopt, funcs, iterations and history length come from the optimizer, and the map is joint iff the metric is the joint one |
| Engine.OptimizeUnpacks | dipy/align/streamlinear.py:489-516 | a plain map's matrix is the optimum carried back through both start matrices; a joint map is built from the optimizer's `xopt`, `fopt`, `nfev` and `nit`; the history is the evolution carried back; and with matching point counts, valid sizes and a finite split the call succeeds |
| Engine.PointCountErrorIgnoresEnv | dipy/align/streamlinear.py:427-437 | the point-count check happens before any collaborator is called |
| Engine.JointIdentityMapsIdentity | dipy/align/streamlinear.py:650-655 | the identity vector splits into two identity halves |
| Halfway.MapSplit | dipy/align/streamlinear.py:650-653 | the two halves halve translation, angles and shear with opposite signs; scale `s` becomes `(1+s)/2` and `2/(1+s)` |
| Halfway.MetricSplit | dipy/align/streamlinear.py:289-292 | the metric's split has the same entries, truncated to 12 |
| Halfway.SplitsAgree | dipy/align/streamlinear.py:289-292 | for vectors of at most 12 entries, the metric's split and the map's split coincide |
| Halfway.ScaleHalvesInverse | dipy/align/streamlinear.py:652-653 | the two scale halves multiply to 1 |
| Halfway.UnsplitRecovers | dipy/align/streamlinear.py:652 | the first half determines the full vector |
| Halfway.IdentitySplitsIntoIdentities | dipy/align/streamlinear.py:650-653 | the identity vector splits into itself twice |
| Metrics.Transpose | dipy/align/streamlinear.py:763-764 | `np.min(axis=0)` reads columns: the transpose swaps indices |
| Metrics.MinCostOf | dipy/align/streamlinear.py:759-767 | the BMD cost is defined iff the distance matrix has rows and columns, and is then non-negative |
| Metrics.MinCostTranspose | dipy/align/streamlinear.py:759-767 | swapping static and moving does not change the BMD cost |
| Metrics.MinCostRowPermutation | dipy/align/streamlinear.py:759-767 | reordering the static streamlines does not change the BMD cost |
| Metrics.MinCostColumnPermutation | dipy/align/streamlinear.py:759-767 | reordering the moving streamlines does not change the BMD cost |
| Metrics.MeanMinimaZeroIffAligned | dipy/align/streamlinear.py:760-767 | with non-negative distances, the summed mean minima vanish iff every row and every column contains a zero |
| Metrics.AlignedCostsNothing | dipy/align/streamlinear.py:760-767 | a perfectly aligned pair of bundles costs 0 |
| Metrics.SumCostTranspose | dipy/align/streamlinear.py:723-724 | the SUM cost does not depend on which bundle is static |
| Metrics.SumCostRowPermutation | dipy/align/streamlinear.py:723-724 | the SUM cost ignores the order of static streamlines |
| Metrics.SumCostColumnPermutation | dipy/align/streamlinear.py:723-724 | the SUM cost ignores the order of moving streamlines |
| Metrics.SumCostNonNegative | dipy/align/streamlinear.py:723-724 | the SUM cost is non-negative for non-negative distances |
| Metrics.BundleMinDistance | dipy/align/streamlinear.py:727-767 | the value is the BMD cost of the MDF matrix between static and `moving` moved by `compose_matrix44(t)`; an invalid size or an empty matrix is a ValueError; the value is non-negative |
| Metrics.MovedAlignedCostsNothing | dipy/align/streamlinear.py:727-767 | when the moved bundle is perfectly aligned with static, the BMD cost is exactly 0 |
| Metrics.BundleSumDistance | dipy/align/streamlinear.py:688-724 | the value is the SUM cost of the MDF matrix between static and the moved bundle, and it is defined iff the parameter size is valid |
| Metrics.SumDistanceNonNegative | dipy/align/streamlinear.py:688-724 | with non-negative distances and a valid size, the SUM cost is defined and non-negative |
| Metrics.AsymmetricDistance | dipy/align/streamlinear.py:835-878 | the value is the asymmetric minimum-distance cost between static and the moved bundle, defined iff the parameter size is valid |
| Metrics.JointDistance | dipy/align/streamlinear.py:278-299 | the halfway cost is the cost of the metric's split; infinite scale halves and invalid split sizes are errors; the result is non-negative |
| Metrics.JointDistanceUsesMapHalves | dipy/align/streamlinear.py:289-292 | the metric scores exactly the halves the joint map later applies |
| Metrics.MetricDistance | dipy/align/streamlinear.py:121-236 | each metric class dispatches to its own cost: BundleMin and BundleMinMatrix to the BMD cost, the asymmetric class to the asymmetric cost, BundleSumMatrix to the SUM cost and the joint class to the halfway cost |
| Progressive.StageNamed | dipy/align/streamlinear.py:948-1017 | each progressive stage name is a transform name whose parameter count is that stage's size |
| Progressive.StagesGrow | dipy/align/streamlinear.py:948-1004 | each stage has more parameters than the one before |
| Progressive.Seed | dipy/align/streamlinear.py:957-997 | the next stage's start vector has that stage's size, copies the previous optimum's translation and rotation, and pads with identity scale and zero shear |
| Progressive.SeedDenotesSameTransform | dipy/align/streamlinear.py:957-997 | the seed denotes the same transform as the previous optimum |
| Progressive.RunStage | dipy/align/streamlinear.py:951-1004 | a stage registers with its own size's bounds and the caller's metric (BundleMin by default) |
| Progressive.NextRun | dipy/align/streamlinear.py:957-1004 | a later stage starts from the previous stage's optimum; the joint metric fails with AttributeError, because its map has no `xopt` |
| Progressive.Chain | dipy/align/streamlinear.py:948-1004 | the run of stages up to the target has one run per stage, in order, each linked to the last |
| Progressive.ProgressiveSlr | dipy/align/streamlinear.py:892-1019 | an unknown `x0` is a ValueError; otherwise the result is the target stage's map |
| Progressive.ChainContinues | dipy/align/streamlinear.py:957-997 | each stage starts at the transform the previous stage ended at |
| Progressive.TranslationStageIsPlainRegistration | dipy/align/streamlinear.py:948-955 | the translation target is a single registration with `x0="translation"` and the first three bounds |
| Qbx.RemoveClustersBySizeSelects | dipy/align/streamlinear.py:881-888 | the kept centroids are exactly those of the clusters with at least `min_size` members, in order |
| Qbx.NoMinimumKeepsAll | dipy/align/streamlinear.py:881 | the default `min_size=0` keeps every cluster |
| Qbx.LengthFilterSelects | dipy/align/streamlinear.py:1115-1122 | the kept streamlines are those strictly between the length bounds, in order |
| Qbx.RegisterCentroids | dipy/align/streamlinear.py:1167-1182 | centroids are registered plainly, or progressively with the default bounds; a progressive `x0` that names no stage is a ValueError |
| Qbx.RegisterAndMove | dipy/align/streamlinear.py:1167-1194 | the returned matrix is the registration's, and the moved bundle is `moving` under it |
| Qbx.SlrWithQbx | dipy/align/streamlinear.py:1023-1194 | no static or no moving centroids is a ValueError; otherwise the centroids, the matrix and the moved bundle are related as above |
| Qbx.SameCentroidsSameMatrix | dipy/align/streamlinear.py:1121-1171 | the matrix depends on the moving bundle only through its centroids |
| Pairing.Reshape | dipy/align/streamlinear.py:1415 | `reshape((n_pair, 2))` regroups the sequence into consecutive pairs and flattens back to it |
| Pairing.Swapped | dipy/align/streamlinear.py:1421 | `pairs[:, ::-1]` reverses every pair |
| Pairing.Shuffle | dipy/align/streamlinear.py:1414 | `permutation` keeps the length and the multiset of indices |
| Pairing.ShuffleReachesEveryPermutation | dipy/align/streamlinear.py:1414 | every reordering is produced by some random draw |
| Pairing.RemainingFacts | dipy/align/streamlinear.py:1400-1411 | removing the excluded bundle leaves the distinct indices below n other than it |
| Pairing.Exclude | dipy/align/streamlinear.py:1403-1411 | even counts exclude nothing; odd counts exclude one bundle, drawn from the previous pairs when there are some |
| Pairing.Retry | dipy/align/streamlinear.py:1423-1428 | a returned pairing shares no pair, in either order, with the previous one, and rearranges the same indices |
| Pairing.Arrange | dipy/align/streamlinear.py:1413-1428 | the pairs rearrange the index set; with previous pairs and more than 3 bundles they repeat none of them |
| Pairing.GetUniquePairs | dipy/align/streamlinear.py:1379-1428 | a non-int is a TypeError and fewer than 2 bundles is a ValueError; otherwise n//2 pairs, with an excluded bundle iff n is odd, and no repeat of the previous pairing |
| Pairing.PairsPartitionIndices | dipy/align/streamlinear.py:1399-1417 | every bundle except the excluded one appears in exactly one pair |
| Pairing.PairsDisjoint | dipy/align/streamlinear.py:1415-1417 | no bundle is paired with itself or appears in two pairs |
| Pairing.NoRepeatedPair | dipy/align/streamlinear.py:1421-1425 | four times n_pair unique rows means no new pair equals a previous pair either way round |
| Groupwise.AllPairsMembers | dipy/align/streamlinear.py:1268 | `combinations(range(n), 2)` holds exactly the pairs a < b < n |
| Groupwise.AllPairsCount | dipy/align/streamlinear.py:1268 | there are n(n-1)/2 of them |
| Groupwise.AllPairsSorted | dipy/align/streamlinear.py:1268 | they come in lexicographic order |
| Groupwise.PairCosts | dipy/align/streamlinear.py:1270-1280 | entry k is the BMD cost of the MDF matrix of pair k, and it fails iff some matrix is empty |
| Groupwise.GroupDistance | dipy/align/streamlinear.py:1267-1281 | one non-negative cost per pair of bundles |
| Groupwise.GroupDistanceEntries | dipy/align/streamlinear.py:1267-1281 | entry k is the cost of the k-th pair, defined iff no pair matrix is empty |
| Groupwise.AlignedGroupHasNoDistance | dipy/align/streamlinear.py:1267-1281 | when every pair of bundles is perfectly aligned, the group distance is all zeros |
| Groupwise.JointRegistration | dipy/align/streamlinear.py:1286-1339 | the pair registration uses the joint metric and the group's `x0` |
| Groupwise.HalfwayRegistrationFacts | dipy/align/streamlinear.py:1339-1340 | the pair step always yields joint maps, needs a valid `x0`, and rejects point-count mismatches |
| Groupwise.Advance | dipy/align/streamlinear.py:1342-1349 | the pair's matrices are premultiplied by the map's halves and its centroids moved by them; other bundles are unchanged |
| Groupwise.PairStep | dipy/align/streamlinear.py:1332-1349 | a pair step fails exactly when its registration does, and otherwise advances the state |
| Groupwise.Round | dipy/align/streamlinear.py:1332-1349 | a round keeps the group's size and leaves bundles outside all pairs untouched |
| Groupwise.NextPairing | dipy/align/streamlinear.py:1369 | the next pairing is `get_unique_pairs(n_bundle, pairs=pairs)`: it succeeds when that does, has n//2 in-range pairs, and for more than 3 bundles repeats none of the previous pairs |
| Groupwise.RoundsSnoc | dipy/align/streamlinear.py:1331-1349 | one more pairing in the schedule is one more round on the state reached so far |
| Groupwise.DrawnUnique | dipy/align/streamlinear.py:1327-1369 | the draws fix the schedule: two drawn schedules of the same length are equal |
| Groupwise.UnpairedKeepsStart | dipy/align/streamlinear.py:1331-1349 | a bundle that no pairing of the schedule touches keeps its start matrix and centroids |
| Groupwise.RoundAndMeasure | dipy/align/streamlinear.py:1332-1353 | one round on the current pairing extends the fold by that pairing, and the new row is the group distance of the moved centroids |
| Groupwise.FoldsToUnique | dipy/align/streamlinear.py:1327-1369 | the final matrices of a fold, and every distance row after the first, are determined by the start state, the draws and the registrar |
| Groupwise.MeasuredAt | dipy/align/streamlinear.py:1331-1353 | in a measured record, row `k` (for `k >= 1`) is the group distance of the centroids after the first `k` rounds of the schedule |
| Groupwise.ExcludedBundleRests | dipy/align/streamlinear.py:1328-1349 | the bundle left out of an odd pairing is not moved in that round |
| Groupwise.StartMatrixTranslates | dipy/align/streamlinear.py:1312-1313 | a bundle's start matrix is a pure translation by minus its centre shift |
| Groupwise.Preprocess | dipy/align/streamlinear.py:1296-1319 | each bundle gets its centred (and optionally clustered) centroids and its start matrix |
| Groupwise.Reference | dipy/align/streamlinear.py:1357 | the reference row is never later than the current iteration |
| Groupwise.StopRecord | dipy/align/streamlinear.py:1354-1367 | the distance record stops at the first iteration whose improvement over three iterations ago is below `tol` |
| Groupwise.FullRecord | dipy/align/streamlinear.py:1331-1369 | without convergence the record has `max_iter + 1` rows, every one improving |
| Groupwise.Iteration | dipy/align/streamlinear.py:1332-1369 | one pass of the loop body: it either breaks with a record that meets the convergence test, or goes on with one more round, one more row (the group distance after that round) and a next pairing drawn against the current one |
| Groupwise.Iterate | dipy/align/streamlinear.py:1331-1369 | the loop keeps the group's size; its record starts with the initial distance and stops as the source does; its pairings are the ones drawn from the first; folding one round per pairing from the start state gives the final state, and row `k >= 1` of the record is the group distance after the first `k` rounds; a non-positive `max_iter` changes nothing |
| Groupwise.Finish | dipy/align/streamlinear.py:1331-1375 | the loop from a prepared start, then every prepared bundle moved by its matrix; the matrices are a fold from that start, and row `k >= 1` of the record is the group distance after the fold's first `k` rounds |
| Groupwise.GroupwiseWith | dipy/align/streamlinear.py:1283-1375 | the body of `groupwise_slr` for any registrar that returns joint maps: the same size, record, fold, per-round distance and start-matrix facts as `GroupwiseSlr`, and a successful iteration means the registrar succeeded at least once |
| Groupwise.Start | dipy/align/streamlinear.py:1283-1329 | the prepared bundles, the preprocessed state, the initial distance and the first pairing `get_unique_pairs(n_bundle)`; fewer than 2 bundles is a ValueError |
| Groupwise.GroupwiseSlr | dipy/align/streamlinear.py:1206-1375 | each returned bundle is its preprocessed input moved by its returned matrix; the distances form a valid record from the initial group distance; the matrices are the fold of halfway rounds over the drawn pairings, one per iteration, and row `k >= 1` of the distances is the group distance after the first `k` of those rounds; with `max_iter <= 0` they are the start matrices |
| Paths.Parse | dipy/workflows/multi_io.py:111 | a parsed path is absolute iff the text starts with `/`, and holds only non-empty, non-`.` components |
| Paths.ParseRender | dipy/workflows/multi_io.py:111-126 | printing a path and parsing it again gives the same path |
| Paths.RenderInjective | dipy/workflows/multi_io.py:111-126 | two paths print alike only if they are equal |
| Paths.JoinName | dipy/workflows/multi_io.py:126 | joining a plain file name onto a directory gives that directory as parent and that name |
| Paths.Stem | dipy/workflows/multi_io.py:140 | `removesuffix("".join(suffixes))` keeps a prefix that ends just before a dot, skipping leading dots; a name ending in a dot is kept whole |
| Paths.StemExamples | dipy/workflows/multi_io.py:140 | `a.nii.gz` → `a`, `.bashrc` → `.bashrc`, `a.` → `a.` |
| Paths.StemIdempotent | dipy/workflows/multi_io.py:140 | stripping suffixes twice strips no more |
| MultiIo.CommonStart | dipy/workflows/multi_io.py:41-51 | the result is a common prefix of both strings that cannot be extended |
| MultiIo.CommonStartLongest | dipy/workflows/multi_io.py:41-51 | every common prefix is a prefix of the result |
| MultiIo.SlashToUnder | dipy/workflows/multi_io.py:54-55 | every `/` becomes `_` and every other character is kept |
| MultiIo.SlashToUnderFacts | dipy/workflows/multi_io.py:54-55 | the result contains no slash, slash-free text is unchanged, and the operation is idempotent |
| MultiIo.ZipLength | dipy/workflows/multi_io.py:136 | `zip(*lists)` stops at the shortest list |
| MultiIo.ConcatenateInputs | dipy/workflows/multi_io.py:133-143 | one name per zipped column: each input's stem followed by `_`, then one more `_` |
| MultiIo.MixPartsShape | dipy/workflows/multi_io.py:137-142 | one input gives `stem__`; two give `stem1_stem2__` |
| MultiIo.MixNameExample | dipy/workflows/multi_io.py:133-143 | inputs `a.nii.gz` and `b.trk` mix to `a_b__` |
| MultiIo.StemOfPlain | dipy/workflows/multi_io.py:139-140 | for a plain file name, the path's name is the name itself |
| MultiIo.WrapInputs | dipy/workflows/multi_io.py:88-91 | as written: a bare string becomes a one-list input of its characters, and a bare Path fails on `len` with TypeError |
| MultiIo.Broadcast | dipy/workflows/multi_io.py:93-103 | ImportError iff the smallest list has more than one entry and sizes differ; when the smallest size is 1, one-entry lists are repeated to the largest size; everything else is unchanged |
| MultiIo.BroadcastAligns | dipy/workflows/multi_io.py:93-103 | when every list has one entry or the largest size, all lists end up the largest size |
| MultiIo.Prefixes | dipy/workflows/multi_io.py:105-108 | mixed names when `mix_names`, otherwise one empty prefix per entry of the first list |
| MultiIo.OutputDirStrategies | dipy/workflows/multi_io.py:110-122 | `absolute` uses `out_dir`; `append` puts `out_dir` under the input's parent; `prepend` puts the input's parent under an absolute `out_dir`, and an absolute input's parent replaces it |
| MultiIo.Connect | dipy/workflows/multi_io.py:93-130 | no input lists is an error, and so is a size mismatch; otherwise output list j holds every out-file prefixed by the j-th prefix, under the directory the strategy picks for the j-th entry of the first list |
| MultiIo.OutputPlacement | dipy/workflows/multi_io.py:124-128 | each output path's parent is the chosen directory, and its name is the prefix plus the out-file |
| MultiIo.ConnectOutputPaths | dipy/workflows/multi_io.py:59-130 | the function as written: wrapping, then broadcasting and placement |
| MultiIo.BareTextSplitsIntoCharacters | dipy/workflows/multi_io.py:88-89 | as written, a bare non-empty string input gives one output list per character; the corrected version gives one |
| MultiIo.ConnectOutputPathsIntended | dipy/workflows/multi_io.py:88-89 | corrected wrapping: a bare string or Path is one input, so one output list; lists behave as written |

## Left out

- The collaborators are uninterpreted functions of `External.Env`, with no
  numeric content. These are:
  - the trigonometry of `compose_matrix` / `decompose_matrix`;
  - `compose_transformations` and `transform_streamlines`;
  - the MDF distance kernels;
  - the scipy optimizer.

  Their numerics are floating point and live outside `streamlinear.py`.
  `Codec.ComposeThenDecompose` assumes the decomposition inverts the
  composition for the components a size carries.
- The `_fast` metrics and the Matrix metrics have the same cost here.
  - The blocked kernels `_bundle_minimum_distance` and the asymmetric one
    are Cython code.
  - Threading and `num_threads` are left out.
- Floats are reals. `dtype` arguments and `astype("f4")` casts are dropped.
- `Engine.NewJointMap`: when `xopt` has a scale entry of exactly -1, numpy
  divides by zero and returns inf. The model returns a `NonFinite` error
  instead.
- `Metrics.JointDistance`: a scale entry of exactly -1 gives a `NonFinite`
  error in the model. In the source, numpy's `2 / (1 + s)` is inf and
  `distance` returns a cost without raising.
- `Engine.Lower` lowers ASCII letters only. Python's Unicode case mapping
  is not modelled.
- Logging, `verbose`, `print_summary` and timing are left out; they have
  no effect on results.
- Randomness:
  - `np.random.choice` is a drawn index into the candidates; an out-of-range draw picks the first candidate.
  - `np.random.permutation` is a Fisher-Yates shuffle driven by drawn
    numbers.
  - `select_random_set_of_streamlines` and `rng` are `Qbx.Tools`
    functions.
  - QuickBundles (`qbx_and_merge`), `length` and `set_number_of_points` are
    `Qbx.Tools` functions too.
- `Pairing.Retry`: the `while` loop that reshuffles until the pairs are new
  runs once per supplied draw. When the draws run out the result is a
  `RetriesExhausted` error, which the source never raises.
- `Pairing.Exclude`: the candidates `np.unique(pairs)` are listed in the
  previous pairs' order, not sorted. Only membership matters for the
  contracts.
- `Groupwise.Iterate`: a non-positive `max_iter` runs no iteration, and the
  record is the initial row only. Its result also lists the pairings of the
  rounds it ran; the source keeps only the last pairing.
- `Progressive.NextRun`:
  - The joint metric has no `xopt` attribute on its map, so the source
    fails with AttributeError when seeding the next stage. The model
    reports that error.
  - `Progressive.ProgressiveSlr` takes a stage name only. An array or int
    `x0` in progressive mode is a ValueError, as in the source's final
    `else`.
- `Metrics.MinCost`: "zero cost implies perfectly aligned bundles" is
  proved only for the mean minima (`Metrics.MeanMinimaZeroIffAligned`). It
  is not proved for the squared cost itself.
- In `dipy/workflows/multi_io.py`:
  - `_resolve_path_or_pattern`, `io_iterator`, `_io_iterator` and the
    `IOIterator` class touch the filesystem and argument parsing, so they
    are not part of this model.
  - The `prepend` strategy's `os.getcwd()` is the `cwd` parameter.
- `Paths`:
  - Only POSIX pure-path parsing is modelled.
  - A leading `//`, which pathlib keeps as a distinct root, is treated as
    `/`.
  - `suffixes` is modelled only through the stem it leaves.
- `MultiIo.Connect`: an empty input list makes numpy's `max` fail. This is
  reported as ValueError with numpy's message.
- `MultiIo.Connect`, `MultiIo.Broadcast` and `MultiIo.ConnectOutputPaths`:
  the source broadcasts in place, writing `max_size * inputs[i]` into the
  caller's own `inputs` list (`dipy/workflows/multi_io.py:103`), and
  `IOIterator` later reads that mutated list. Values are immutable here, so
  the model only returns the broadcast lists; the caller's list is not
  shown changing.
- Output paths are `Paths.Path` values rather than strings.

## Findings

| source | as written | input that shows it | evidently intended | confidence | as-written member | corrected member |
|---|---|---|---|---|---|---|
| dipy/workflows/multi_io.py:88-89 | a bare `str` is wrapped as `[s]`, one input list whose entries are its characters, so `zip` and `inputs[0]` yield one column and one output list per character; a bare `Path` raises TypeError on `len` | `inputs="t1.nii.gz"` gives 9 output lists, one per character | a bare path is one input file (`[[s]]`), giving one output list | medium, not executed | MultiIo.BareTextSplitsIntoCharacters | MultiIo.ConnectOutputPathsIntended |

=== FILE: codec.dfy ===
/** The parameter-vector / matrix codec of the streamline linear registration
    (`compose_matrix44`, `_threshold`, `decompose_matrix44`).

    A parameter vector has 3, 6, 7, 9 or 12 entries: translation (3), then
    rotation angles in degrees (3), then either one isotropic scale (length 7)
    or three axis scales (lengths 9 and 12), then shear (3, length 12 only).
    The trigonometric builder that turns the components into a matrix, and
    the inverse that extracts them, are `Env` collaborators; this module is
    everything the codec decides itself. */
module Codec {
  import opened Wrappers
  import opened External
  import Numeric

  /** Translations are clipped to this magnitude (guard against divergence). */
  const MaxDist: real := 10000000000.0

  /** The accepted parameter-vector lengths. */
  predicate ValidSize(n: int) {
    n == 3 || n == 6 || n == 7 || n == 9 || n == 12
  }

  /** `_threshold(x, th)` on one entry: `max(min(x, th), -th)`. */
  function Threshold(x: real, th: real): (r: real)
    ensures th >= 0.0 ==> -th <= r <= th
    ensures th >= 0.0 && -th <= x <= th ==> r == x
    ensures th >= 0.0 && x > th ==> r == th
    ensures x < -th ==> r == -th
    ensures th < 0.0 ==> r == -th
  {
    var m := if x <= th then x else th;
    if m >= -th then m else -th
  }

  /** `_threshold(t[0:3], MAX_DIST)`: the clipped translation. */
  function ClipTranslation(t: Vec3): (r: Vec3)
    ensures forall i :: 0 <= i < 3 ==> -MaxDist <= r[i] <= MaxDist
    ensures forall i :: 0 <= i < 3 ==> (r[i] == t[i] <==> -MaxDist <= t[i] <= MaxDist)
    ensures forall i :: 0 <= i < 3 ==> (t[i] > MaxDist ==> r[i] == MaxDist) && (t[i] < -MaxDist ==> r[i] == -MaxDist)
  {
    [Threshold(t[0], MaxDist), Threshold(t[1], MaxDist), Threshold(t[2], MaxDist)]
  }

  /** The components `compose_matrix44(t)` hands to the matrix builder. */
  function ComposeArgs(t: Vector): (r: Result<Components>)
    ensures r.Ok? <==> ValidSize(|t|)
    ensures r.Err? ==> r.error.kind == ValueError
    ensures r.Ok? ==>
      && r.value.translate == ClipTranslation(t[..3])
      && (r.value.angles.Some? <==> |t| >= 6)
      && (r.value.scale.Some? <==> |t| >= 7)
      && (r.value.shear.Some? <==> |t| == 12)
      && (r.value.angles.Some? ==> r.value.angles.value == t[3..6])
      && (|t| == 7 ==> forall i :: 0 <= i < 3 ==> r.value.scale.value[i] == t[6])
      && (|t| >= 9 ==> r.value.scale.value == t[6..9])
      && (|t| == 12 ==> r.value.shear.value == t[9..12])
  {
    var n := |t|;
    if !ValidSize(n) then
      Fail(ValueError, "Accepted number of parameters is 3, 6, 7, 9 and 12")
    else
      var translate := ClipTranslation(t[0..3]);
      var angles: Option<Vec3> := if n >= 6 then Some(t[3..6]) else None;
      var scale: Option<Vec3> :=
        if n == 7 then Some([t[6], t[6], t[6]])
        else if n >= 9 then Some(t[6..9])
        else None;
      var shear: Option<Vec3> := if n == 12 then Some(t[9..12]) else None;
      Ok(Components(scale, shear, angles, translate))
  }

  /** `compose_matrix44(t)`: validate and split the vector, then build. */
  function ComposeMatrix44(t: Vector, env: Env): (r: Result<Matrix44>)
    ensures r.Ok? <==> ValidSize(|t|)
    ensures r.Err? ==> r.error.kind == ValueError
    ensures r.Ok? ==> r.value == env.composeMatrix(ComposeArgs(t).value)
  {
    var c :- ComposeArgs(t);
    Ok(env.composeMatrix(c))
  }

  const Zero3: Vec3 := [0.0, 0.0, 0.0]
  const One3: Vec3 := [1.0, 1.0, 1.0]

  /** The transform a set of components denotes: a component that is absent
      contributes its identity value (unit scale, no shear, no rotation). */
  function Denoted(c: Components): Decomposed {
    Decomposed(c.scale.GetOr(One3), c.shear.GetOr(Zero3), c.angles.GetOr(Zero3), c.translate)
  }

  function Mean3(v: Vec3): real {
    Numeric.Mean(v)
  }

  /** `decompose_matrix44` after the matrix has been decomposed: the first
      `size` parameters, with the mean of the three axis scales standing for
      the single isotropic scale of size 7. */
  function DecomposeParams(d: Decomposed, size: int): (r: Result<Vector>)
    ensures r.Ok? <==> ValidSize(size)
    ensures r.Err? ==> r.error.kind == ValueError
    ensures r.Ok? ==> |r.value| == size && r.value[..3] == d.translate
    ensures r.Ok? && size >= 6 ==> r.value[3..6] == d.angles
    ensures r.Ok? && size == 7 ==> r.value[6] == Mean3(d.scale)
    ensures r.Ok? && size >= 9 ==> r.value[6..9] == d.scale
    ensures r.Ok? && size == 12 ==> r.value[9..12] == d.shear
  {
    if size == 3 then Ok(d.translate)
    else if size == 6 then Ok(d.translate + d.angles)
    else if size == 7 then Ok(d.translate + d.angles + [Mean3(d.scale)])
    else if size == 9 then
      var v := d.translate + d.angles + d.scale;
      assert v[6..9] == d.scale;
      Ok(v)
    else if size == 12 then
      var v := d.translate + d.angles + d.scale + d.shear;
      assert v[6..9] == d.scale && v[9..12] == d.shear;
      Ok(v)
    else Fail(ValueError, "Size can be 3, 6, 7, 9 or 12")
  }

  /** `decompose_matrix44(mat, size=size)`. */
  function DecomposeMatrix44(mat: Matrix44, size: int, env: Env): (r: Result<Vector>)
    ensures r.Ok? <==> ValidSize(size)
    ensures r.Ok? ==> |r.value| == size
  {
    DecomposeParams(env.decomposeMatrix(mat), size)
  }

  /** The parameters `_set_x0` produces for a transform family: zero
      translation and rotation, unit scale, zero shear. */
  function IdentityParams(n: int): (r: Vector)
    requires ValidSize(n)
    ensures |r| == n
    ensures forall i :: 0 <= i < n ==> r[i] == (if 6 <= i < 9 then 1.0 else 0.0)
  {
    if n == 3 then [0.0, 0.0, 0.0]
    else if n == 6 then [0.0, 0.0, 0.0, 0.0, 0.0, 0.0]
    else if n == 7 then [0.0, 0.0, 0.0, 0.0, 0.0, 0.0, 1.0]
    else if n == 9 then [0.0, 0.0, 0.0, 0.0, 0.0, 0.0, 1.0, 1.0, 1.0]
    else [0.0, 0.0, 0.0, 0.0, 0.0, 0.0, 1.0, 1.0, 1.0, 0.0, 0.0, 0.0]
  }

  /** The transform with every component at its identity value. */
  const IdentityTransform: Decomposed := Decomposed(One3, Zero3, Zero3, Zero3)

  /** Every identity parameter vector denotes the identity transform. */
  lemma IdentityParamsDenoteIdentity(n: int)
    requires ValidSize(n)
    ensures ComposeArgs(IdentityParams(n)).Ok?
    ensures Denoted(ComposeArgs(IdentityParams(n)).value) == IdentityTransform
  {
    var t := IdentityParams(n);
    var c := ComposeArgs(t).value;
    assert c.translate == Zero3;
    if n >= 6 { assert c.angles.value == Zero3; }
    if n == 7 { assert c.scale.value == One3; }
    if n >= 9 { assert c.scale.value == One3; }
    if n == 12 { assert c.shear.value == Zero3; }
  }

  /** The mean of three equal scales is that scale. */
  lemma MeanOfIsotropic(s: real)
    ensures Mean3([s, s, s]) == s
  {
    assert [s, s, s][1..] == [s, s] && [s, s][1..] == [s] && [s][1..] == [];
    assert Numeric.Sum([s]) == s;
    assert Numeric.Sum([s, s, s]) == 3.0 * s;
  }

  /** The parameter vector `t` with its translation clipped. */
  function Clipped(t: Vector): (r: Vector)
    requires |t| >= 3
    ensures |r| == |t| && r[3..] == t[3..]
  {
    ClipTranslation(t[..3]) + t[3..]
  }

  /** Compose then decompose at the same size returns the vector (with its
      translation clipped), for every accepted size — size 7 included, since
      its single scale is replicated and the mean of three equal scales is
      that scale. */
  lemma ComposeThenDecompose(t: Vector)
    requires ValidSize(|t|)
    ensures DecomposeParams(Denoted(ComposeArgs(t).value), |t|) == Ok(Clipped(t))
  {
    var c := ComposeArgs(t).value;
    var d := Denoted(c);
    var r := DecomposeParams(d, |t|).value;
    if |t| == 7 {
      MeanOfIsotropic(t[6]);
      assert c.scale.value == [t[6], t[6], t[6]];
    }
    var e := Clipped(t);
    forall k | 0 <= k < |t| ensures r[k] == e[k] {
      if k < 3 {
        assert r[..3][k] == r[k] && e[..3][k] == e[k];
      } else {
        assert e[3..][k - 3] == e[k] && t[3..][k - 3] == t[k];
        if k < 6 {
          assert r[3..6][k - 3] == r[k] && t[3..6][k - 3] == t[k];
        } else if k < 9 && |t| >= 9 {
          assert r[6..9][k - 6] == r[k] && t[6..9][k - 6] == t[k];
        } else if k >= 9 {
          assert r[9..12][k - 9] == r[k] && t[9..12][k - 9] == t[k];
        }
      }
    }
    assert r == e;
  }

  /** `d` with every component a vector of size `size` cannot carry reset to
      its identity value. */
  function Restrict(d: Decomposed, size: int): Decomposed {
    Decomposed(
      if size >= 9 then d.scale else One3,
      if size == 12 then d.shear else Zero3,
      if size >= 6 then d.angles else Zero3,
      d.translate)
  }

  predicate TranslationInRange(d: Decomposed) {
    forall i :: 0 <= i < 3 ==> -MaxDist <= d.translate[i] <= MaxDist
  }

  /** Decompose then compose keeps exactly what the size can carry, for
      sizes 3, 6, 9 and 12. */
  lemma DecomposeThenCompose(d: Decomposed, size: int)
    requires size == 3 || size == 6 || size == 9 || size == 12
    requires TranslationInRange(d)
    ensures DecomposeParams(d, size).Ok?
    ensures ComposeArgs(DecomposeParams(d, size).value).Ok?
    ensures Denoted(ComposeArgs(DecomposeParams(d, size).value).value) == Restrict(d, size)
  {
    var t := DecomposeParams(d, size).value;
    var c := ComposeArgs(t).value;
    assert t[..3] == d.translate;
    assert c.translate == d.translate;
  }

  /** Size 7 is lossy: decompose then compose replaces the three axis scales
      by their mean, so the scale survives exactly when it was isotropic. */
  lemma SimilarityRoundTripIsLossy(d: Decomposed)
    requires TranslationInRange(d)
    ensures DecomposeParams(d, 7).Ok?
    ensures ComposeArgs(DecomposeParams(d, 7).value).Ok?
    ensures var back := Denoted(ComposeArgs(DecomposeParams(d, 7).value).value);
      && back.scale == [Mean3(d.scale), Mean3(d.scale), Mean3(d.scale)]
      && back.angles == d.angles && back.translate == d.translate && back.shear == Zero3
      && (back.scale == d.scale <==> d.scale[0] == d.scale[1] == d.scale[2])
  {
    var t := DecomposeParams(d, 7).value;
    var c := ComposeArgs(t).value;
    assert t[..3] == d.translate;
    assert c.translate == d.translate;
    var m := Mean3(d.scale);
    assert c.scale.value == [m, m, m];
    if d.scale[0] == d.scale[1] == d.scale[2] {
      assert d.scale == [d.scale[0], d.scale[0], d.scale[0]];
      MeanOfIsotropic(d.scale[0]);
    }
  }
}

=== FILE: engine.dfy ===
/** `StreamlineLinearRegistration`: the constructor's validation of the
    start vector and the optimizer name, and `optimize`, which checks the
    point counts, centres the bundles (or applies a given start matrix),
    hands the metric to the minimizer and packs its result into a
    registration map. The minimizer, the matrix builder and the streamline
    utilities are `Env` collaborators. */
module Engine {
  import opened Wrappers
  import opened External
  import Codec
  import Halfway

  // ---------------------------------------------------------------------
  // The start vector

  /** What a caller can pass as `x0`: a numpy array (its shape and its
      entries in order), a string, an int (Python's `True` and `False` are
      the ints 1 and 0), or anything else. */
  datatype X0 =
    | Array(shape: seq<nat>, flat: seq<real>)
    | Name(name: string)
    | Integer(n: int)
    | Other

  /** ASCII lower-casing of one character. */
  function LowerChar(c: char): (r: char)
    ensures 'A' <= c <= 'Z' ==> r as int == c as int + 32
    ensures !('A' <= c <= 'Z') ==> r == c
  {
    if 'A' <= c <= 'Z' then (c as int + 32) as char else c
  }

  /** `str.lower()`. */
  function Lower(s: string): (r: string)
    ensures |r| == |s| && forall i :: 0 <= i < |s| ==> r[i] == LowerChar(s[i])
  {
    seq(|s|, i requires 0 <= i < |s| => LowerChar(s[i]))
  }

  /** A name without capitals is its own lower-case form. */
  lemma LowerOfLowerCase(s: string)
    requires forall i :: 0 <= i < |s| ==> !('A' <= s[i] <= 'Z')
    ensures Lower(s) == s
  {
  }

  /** The number of parameters of each transform family name. */
  function FamilySize(lowered: string): (r: Option<int>)
    ensures r.Some? ==> Codec.ValidSize(r.value)
  {
    if lowered == "translation" then Some(3)
    else if lowered == "rigid" then Some(6)
    else if lowered == "similarity" then Some(7)
    else if lowered == "scaling" then Some(9)
    else if lowered == "affine" then Some(12)
    else None
  }

  /** The start vector of a family name, or the final `ValueError` for a
      string that names no family. */
  function NamedX0(size: Option<int>): (r: Result<Vector>)
    requires size.Some? ==> Codec.ValidSize(size.value)
    ensures r.Ok? <==> size.Some?
    ensures r.Err? ==> r.error.kind == ValueError
    ensures r.Ok? ==> Codec.ValidSize(size.value) && r.value == Codec.IdentityParams(size.value)
  {
    if size.Some? then Ok(Codec.IdentityParams(size.value))
    else Fail(ValueError, "Wrong input")
  }

  /** An array start vector: its `len` (the first dimension) must be an
      accepted size before its number of dimensions is checked. */
  function ArrayX0(shape: seq<nat>, flat: seq<real>): (r: Result<Vector>)
    ensures r.Ok? <==> |shape| == 1 && Codec.ValidSize(shape[0]) && |flat| == shape[0]
    ensures r.Ok? ==> r.value == flat
    ensures r.Err? ==> (r.error.kind == TypeError <==> shape == [])
    ensures r.Err? ==> r.error.kind in {TypeError, ValueError}
  {
    if shape == [] then
      Fail(TypeError, "len() of unsized object")
    else if !Codec.ValidSize(shape[0]) then
      Fail(ValueError, "Only 1D arrays of 3, 6, 7, 9 and 12 elements are allowed")
    else if |shape| != 1 || |flat| != shape[0] then
      Fail(ValueError, "Array should have only one dimension")
    else
      Ok(flat)
  }

  /** `_set_x0`: an array is accepted as it is when it is one-dimensional
      with an accepted length; a family name (in any letter case) or an
      accepted int gives the identity vector of that size. A 0-d array has
      no `len` and raises `TypeError`; everything else raises `ValueError`. */
  function SetX0(x0: X0): (r: Result<Vector>)
    ensures r.Ok? ==> Codec.ValidSize(|r.value|)
    ensures r.Err? ==> (r.error.kind == TypeError <==> x0.Array? && x0.shape == [])
    ensures r.Err? ==> r.error.kind in {TypeError, ValueError}
    ensures x0.Array? ==>
      (r.Ok? <==> |x0.shape| == 1 && Codec.ValidSize(x0.shape[0]) && |x0.flat| == x0.shape[0])
    ensures x0.Array? && r.Ok? ==> r.value == x0.flat
    ensures x0.Name? ==> (r.Ok? <==> FamilySize(Lower(x0.name)).Some?)
    ensures x0.Integer? ==> (r.Ok? <==> Codec.ValidSize(x0.n))
    ensures x0.Other? ==> r.Err?
    ensures r.Ok? && !x0.Array? ==> r.value == Codec.IdentityParams(|r.value|)
  {
    match x0
    case Array(shape, flat) =>
      ArrayX0(shape, flat)
    case Name(name) =>
      NamedX0(FamilySize(Lower(name)))
    case Integer(n) =>
      if Codec.ValidSize(n) then Ok(Codec.IdentityParams(n))
      else Fail(ValueError, "Only 3, 6, 7, 9 and 12 are accepted as integers")
    case Other =>
      Fail(ValueError, "Wrong input")
  }

  /** A family name and its parameter count give the same start vector, and
      that vector denotes the identity transform. */
  lemma NameAndSizeAgree(name: string, n: int)
    requires FamilySize(Lower(name)) == Some(n)
    ensures SetX0(Name(name)) == SetX0(Integer(n))
    ensures SetX0(Integer(n)).Ok?
    ensures Codec.Denoted(Codec.ComposeArgs(SetX0(Integer(n)).value).value) == Codec.IdentityTransform
  {
    Codec.IdentityParamsDenoteIdentity(n);
  }

  /** Family names are matched regardless of letter case. */
  lemma NameCaseInsensitive(a: string, b: string)
    requires Lower(a) == Lower(b)
    ensures SetX0(Name(a)) == SetX0(Name(b))
  {
  }

  // ---------------------------------------------------------------------
  // The registration object

  datatype Registration = Registration(
    x0: Vector,
    metric: MetricKind,
    optMethod: Method,
    bounds: Option<seq<Bound>>,
    options: Option<map<string, real>>,
    evolution: bool)

  /** `StreamlineLinearRegistration.__init__`: the start vector is checked
      first, a missing metric becomes `BundleMinDistanceMetric`, and only the
      optimizer names "Powell" and "L-BFGS-B" are accepted (exactly, letter
      case included). */
  function NewRegistration(metric: Option<MetricKind>, x0: X0, optMethod: string,
                           bounds: Option<seq<Bound>>, options: Option<map<string, real>>,
                           evolution: bool): (r: Result<Registration>)
    ensures SetX0(x0).Err? ==> r == Err(SetX0(x0).error)
    ensures SetX0(x0).Ok? ==> (r.Ok? <==> optMethod in ["Powell", "L-BFGS-B"])
    ensures SetX0(x0).Ok? && r.Err? ==> r.error.kind == ValueError
    ensures r.Ok? ==>
      && r.value.x0 == SetX0(x0).value
      && Codec.ValidSize(|r.value.x0|)
      && r.value.metric == metric.GetOr(BundleMin)
      && (r.value.optMethod == Powell <==> optMethod == "Powell")
      && r.value.bounds == bounds && r.value.options == options && r.value.evolution == evolution
  {
    var start :- SetX0(x0);
    var m := metric.GetOr(BundleMin);
    if optMethod == "Powell" then
      Ok(Registration(start, m, Powell, bounds, options, evolution))
    else if optMethod == "L-BFGS-B" then
      Ok(Registration(start, m, LBfgsB, bounds, options, evolution))
    else
      Fail(ValueError, "Only Powell and L-BFGS-B can be used")
  }

  // ---------------------------------------------------------------------
  // optimize

  /** Every streamline has `n` points. */
  predicate AllHave(b: Bundle, n: nat) {
    forall i :: 0 <= i < |b| ==> |b[i]| == n
  }

  /** What `optimize` demands of its bundles: both non-empty and every
      streamline of either with as many points as the first static one. */
  predicate SamePointCounts(staticBundle: Bundle, moving: Bundle) {
    && |staticBundle| > 0 && |moving| > 0
    && AllHave(staticBundle, |staticBundle[0]|)
    && AllHave(moving, |staticBundle[0]|)
  }

  const PointsMsg := "need to have the same number of points. Use set_number_of_points from dipy.tracking.streamline"

  /** The three point-count checks at the head of `optimize`, in their
      order; reading the first streamline of an empty bundle raises
      `IndexError`. */
  function CheckPointCounts(staticBundle: Bundle, moving: Bundle): (r: Result<()>)
    ensures r.Ok? <==> SamePointCounts(staticBundle, moving)
    ensures |staticBundle| == 0 ==> r.Err? && r.error.kind == IndexError
    ensures |staticBundle| > 0 && !AllHave(staticBundle, |staticBundle[0]|) ==>
      r == Fail(ValueError, "Static streamlines " + PointsMsg)
    ensures |staticBundle| > 0 && AllHave(staticBundle, |staticBundle[0]|) && |moving| == 0 ==>
      r.Err? && r.error.kind == IndexError
    ensures (&& |staticBundle| > 0 && AllHave(staticBundle, |staticBundle[0]|) && |moving| > 0
             && !AllHave(moving, |moving[0]|)) ==>
      r == Fail(ValueError, "Moving streamlines " + PointsMsg)
    ensures (&& |staticBundle| > 0 && AllHave(staticBundle, |staticBundle[0]|) && |moving| > 0
             && AllHave(moving, |moving[0]|) && !AllHave(moving, |staticBundle[0]|)) ==>
      r == Fail(ValueError, "Static and moving streamlines " + PointsMsg)
    ensures r.Err? ==> r.error.kind in {IndexError, ValueError}
  {
    if |staticBundle| == 0 then
      Fail(IndexError, "list index out of range")
    else if !AllHave(staticBundle, |staticBundle[0]|) then
      Fail(ValueError, "Static streamlines " + PointsMsg)
    else if |moving| == 0 then
      Fail(IndexError, "list index out of range")
    else if !AllHave(moving, |moving[0]|) then
      Fail(ValueError, "Moving streamlines " + PointsMsg)
    else if !AllHave(moving, |staticBundle[0]|) then
      Fail(ValueError, "Static and moving streamlines " + PointsMsg)
    else
      Ok(())
  }

  /** The bundles the metric is set up on and the two matrices that bring
      the optimized transform back to the original spaces. */
  datatype Setup = Setup(staticCentered: Bundle, movingCentered: Bundle, staticMat: Matrix44, movingMat: Matrix44)

  /** Without a start matrix both bundles are centred and the shifts become
      translations (moving back for the static side, the opposite for the
      moving side); with one, the static bundle is kept and the moving
      bundle is moved by it. */
  function Prepare(staticBundle: Bundle, moving: Bundle, mat: Option<Matrix44>, env: Env): (s: Setup)
    ensures mat.Some? ==>
      s.staticCentered == staticBundle && s.staticMat == Identity() && s.movingMat == mat.value
      && s.movingCentered == env.transform(moving, mat.value)
    ensures mat.None? ==>
      var (sc, sh) := env.center(staticBundle);
      var (mc, mh) := env.center(moving);
      && s.staticCentered == sc && s.movingCentered == mc
      && s.staticMat == env.composeMatrix(Codec.ComposeArgs([sh.x, sh.y, sh.z, 0.0, 0.0, 0.0]).value)
      && s.movingMat == env.composeMatrix(Codec.ComposeArgs([-mh.x, -mh.y, -mh.z, 0.0, 0.0, 0.0]).value)
  {
    match mat
    case Some(m) =>
      Setup(staticBundle, env.transform(moving, m), Identity(), m)
    case None =>
      var (sc, sh) := env.center(staticBundle);
      var (mc, mh) := env.center(moving);
      var staticMat := Codec.ComposeMatrix44([sh.x, sh.y, sh.z, 0.0, 0.0, 0.0], env).value;
      var movingMat := Codec.ComposeMatrix44([-mh.x, -mh.y, -mh.z, 0.0, 0.0, 0.0], env).value;
      Setup(sc, mc, staticMat, movingMat)
  }

  /** The options the minimizer receives when the caller gave none. */
  function DefaultOptions(m: Method): (o: map<string, real>)
    ensures m == Powell ==> o.Keys == {"xtol", "ftol", "maxiter"} && o["maxiter"] == 1000000.0
    ensures m == LBfgsB ==> o.Keys == {"maxcor", "ftol", "gtol", "eps", "maxiter"} && o["maxiter"] == 100.0
  {
    match m
    case Powell => map["xtol" := 0.000001, "ftol" := 0.000001, "maxiter" := 1000000.0]
    case LBfgsB => map["maxcor" := 10.0, "ftol" := 0.0000001, "gtol" := 0.00001, "eps" := 0.00000001, "maxiter" := 100.0]
  }

  /** The call of the minimizer: Powell never receives bounds. */
  function MakeProblem(reg: Registration, s: Setup): (p: Problem)
    ensures p.x0 == reg.x0 && p.optMethod == reg.optMethod && p.metric == reg.metric
    ensures p.staticBundle == s.staticCentered && p.movingBundle == s.movingCentered
    ensures p.bounds == (if reg.optMethod == LBfgsB then reg.bounds else None)
    ensures reg.options.Some? ==> p.options == reg.options.value
    ensures reg.options.None? ==> p.options == DefaultOptions(reg.optMethod)
  {
    var options := if reg.options.Some? then reg.options.value else DefaultOptions(reg.optMethod);
    var bounds := if reg.optMethod == LBfgsB then reg.bounds else None;
    Problem(reg.metric, s.staticCentered, s.movingCentered, reg.x0, reg.optMethod, bounds, options, reg.evolution)
  }

  /** A registration map: `StreamlineRegistrationMap` or, for the joint
      metric, `JointStreamlineRegistrationMap` with its two halfway
      vectors and matrices. */
  datatype RegMap =
    | PlainMap(matrix: Matrix44, xopt: Vector, fopt: real, history: seq<Matrix44>, funcs: nat, iterations: nat)
    | JointMap(x1: Vector, x2: Vector, matrix1: Matrix44, matrix2: Matrix44, fopt: real,
               history: seq<Matrix44>, funcs: nat, iterations: nat)

  /** A parameter vector brought back to the original spaces:
      `compose_transformations(moving_mat, compose_matrix44(x), static_mat)`. */
  function BackToOriginal(x: Vector, s: Setup, env: Env): (r: Result<Matrix44>)
    ensures r.Ok? <==> Codec.ValidSize(|x|)
  {
    var m :- Codec.ComposeMatrix44(x, env);
    Ok(env.composeTransformations(s.movingMat, m, s.staticMat))
  }

  /** Every vector of a parameter history has a size `compose_matrix44`
      accepts. */
  predicate ValidHistory(evolution: seq<Vector>) {
    forall k :: 0 <= k < |evolution| ==> Codec.ValidSize(|evolution[k]|)
  }

  /** The matrix of every parameter vector of the optimizer's history. */
  function History(evolution: seq<Vector>, s: Setup, env: Env): (r: Result<seq<Matrix44>>)
    ensures r.Ok? <==> ValidHistory(evolution)
    ensures r.Ok? ==> |r.value| == |evolution|
    ensures r.Ok? ==> forall k :: 0 <= k < |evolution| ==> Ok(r.value[k]) == BackToOriginal(evolution[k], s, env)
    decreases |evolution|
  {
    if evolution == [] then Ok([])
    else
      var first :- BackToOriginal(evolution[0], s, env);
      var rest :- History(evolution[1..], s, env);
      assert forall k :: 1 <= k < |evolution| ==> evolution[k] == evolution[1..][k - 1];
      Ok([first] + rest)
  }

  /** Without a start matrix, the two matrices that carry the optimum back
      are pure translations: by the static bundle's shift on the static
      side and by minus the moving bundle's shift on the moving side, with
      zero rotation and no scale or shear. The metric sees both bundles
      centred. */
  lemma CentredStartTranslates(staticBundle: Bundle, moving: Bundle, env: Env)
    ensures
      var s := Prepare(staticBundle, moving, None, env);
      var sh := env.center(staticBundle).1;
      var mh := env.center(moving).1;
      var cs := Codec.ComposeArgs([sh.x, sh.y, sh.z, 0.0, 0.0, 0.0]);
      var cm := Codec.ComposeArgs([-mh.x, -mh.y, -mh.z, 0.0, 0.0, 0.0]);
      && cs.Ok? && cm.Ok?
      && cs.value == Components(None, None, Some(Codec.Zero3), Codec.ClipTranslation([sh.x, sh.y, sh.z]))
      && cm.value == Components(None, None, Some(Codec.Zero3), Codec.ClipTranslation([-mh.x, -mh.y, -mh.z]))
      && s.staticMat == env.composeMatrix(cs.value)
      && s.movingMat == env.composeMatrix(cm.value)
      && s.staticCentered == env.center(staticBundle).0
      && s.movingCentered == env.center(moving).0
  {
    var sh := env.center(staticBundle).1;
    var mh := env.center(moving).1;
    var vs: Vector := [sh.x, sh.y, sh.z, 0.0, 0.0, 0.0];
    var vm: Vector := [-mh.x, -mh.y, -mh.z, 0.0, 0.0, 0.0];
    assert vs[..3] == [sh.x, sh.y, sh.z] && vs[3..6] == Codec.Zero3;
    assert vm[..3] == [-mh.x, -mh.y, -mh.z] && vm[3..6] == Codec.Zero3;
  }

  /** With a start matrix, the static bundle is used as given and an
      optimized vector is carried back by composing the start matrix before
      it and nothing after it. */
  lemma GivenStartCarriesBack(staticBundle: Bundle, moving: Bundle, mat: Matrix44, x: Vector, env: Env)
    ensures
      var s := Prepare(staticBundle, moving, Some(mat), env);
      && s.staticCentered == staticBundle
      && s.movingCentered == env.transform(moving, mat)
      && (Codec.ValidSize(|x|) ==>
            BackToOriginal(x, s, env)
            == Ok(env.composeTransformations(mat, Codec.ComposeMatrix44(x, env).value, Identity())))
  {
  }

  /** `JointStreamlineRegistrationMap.__init__`: split `xopt` into the two
      halfway vectors and build their matrices. */
  function NewJointMap(xopt: Vector, fopt: real, history: seq<Matrix44>, funcs: nat, iterations: nat, env: Env): (r: Result<RegMap>)
    ensures !Halfway.FiniteSplit(xopt) ==> r.Err? && r.error.kind == NonFinite
    ensures Halfway.FiniteSplit(xopt) ==> (r.Ok? <==> Codec.ValidSize(|xopt|))
    ensures r.Ok? ==> r.value.JointMap? && Halfway.Complementary(xopt, r.value.x1, r.value.x2)
    ensures r.Ok? ==> |r.value.x1| == |r.value.x2| == |xopt|
    ensures r.Ok? ==> r.value.matrix1 == Codec.ComposeMatrix44(r.value.x1, env).value
    ensures r.Ok? ==> r.value.matrix2 == Codec.ComposeMatrix44(r.value.x2, env).value
  {
    if !Halfway.FiniteSplit(xopt) then
      Fail(NonFinite, "divide by zero in 2 / (1 + scale)")
    else
      var (x1, x2) := Halfway.MapSplit(xopt);
      var m1 :- Codec.ComposeMatrix44(x1, env);
      Ok(JointMap(x1, x2, m1, Codec.ComposeMatrix44(x2, env).value, fopt, history, funcs, iterations))
  }

  /** `optimize(static, moving, mat=mat)`. */
  function Optimize(reg: Registration, staticBundle: Bundle, moving: Bundle, mat: Option<Matrix44>, env: Env): (r: Result<RegMap>)
    ensures !SamePointCounts(staticBundle, moving) ==> r == Err(CheckPointCounts(staticBundle, moving).error)
    ensures r.Ok? ==> SamePointCounts(staticBundle, moving)
    ensures r.Ok? ==> (r.value.JointMap? <==> reg.metric == JointBundleMin)
    ensures r.Ok? && r.value.PlainMap? ==> Codec.ValidSize(|r.value.xopt|)
    ensures r.Ok? ==>
      var opt := env.minimize(MakeProblem(reg, Prepare(staticBundle, moving, mat, env)));
      && Codec.ValidSize(|opt.xopt|)
      && (reg.metric == JointBundleMin <==> r.value.JointMap?)
      && r.value.fopt == opt.fopt && r.value.funcs == opt.nfev && r.value.iterations == opt.nit
      && (opt.evolution.None? ==> r.value.history == [])
      && (opt.evolution.Some? ==> |r.value.history| == |opt.evolution.value|)
      && (r.value.PlainMap? ==> r.value.xopt == opt.xopt)
      && (r.value.JointMap? ==> Halfway.Complementary(opt.xopt, r.value.x1, r.value.x2))
  {
    var _ :- CheckPointCounts(staticBundle, moving);
    var s := Prepare(staticBundle, moving, mat, env);
    var opt := env.minimize(MakeProblem(reg, s));
    var matrix :- BackToOriginal(opt.xopt, s, env);
    var history :- match opt.evolution
      case None => Ok([])
      case Some(ev) => History(ev, s, env);
    if reg.metric == JointBundleMin then
      NewJointMap(opt.xopt, opt.fopt, history, opt.nfev, opt.nit, env)
    else
      Ok(PlainMap(matrix, opt.xopt, opt.fopt, history, opt.nfev, opt.nit))
  }

  /** What `optimize` hands back: the plain map's matrix is the optimum
      carried back to the original spaces, the joint map is the halfway
      split of the optimum, and the history is the carried-back
      parameter history. It succeeds whenever the point counts agree and
      the minimizer's vectors have sizes `compose_matrix44` accepts (for the
      joint metric, with a finite split). */
  lemma OptimizeUnpacks(reg: Registration, staticBundle: Bundle, moving: Bundle, mat: Option<Matrix44>, env: Env)
    ensures
      var r := Optimize(reg, staticBundle, moving, mat, env);
      var s := Prepare(staticBundle, moving, mat, env);
      var opt := env.minimize(MakeProblem(reg, s));
      r.Ok? ==>
        && (r.value.PlainMap? ==> Ok(r.value.matrix) == BackToOriginal(opt.xopt, s, env))
        && (r.value.JointMap? ==>
              Ok(r.value) == NewJointMap(opt.xopt, opt.fopt, r.value.history, opt.nfev, opt.nit, env))
        && (opt.evolution.Some? ==> Ok(r.value.history) == History(opt.evolution.value, s, env))
    ensures
      var r := Optimize(reg, staticBundle, moving, mat, env);
      var s := Prepare(staticBundle, moving, mat, env);
      var opt := env.minimize(MakeProblem(reg, s));
      SamePointCounts(staticBundle, moving) && Codec.ValidSize(|opt.xopt|)
      && (opt.evolution.Some? ==> ValidHistory(opt.evolution.value))
      && (reg.metric == JointBundleMin ==> Halfway.FiniteSplit(opt.xopt))
      ==> r.Ok?
  {
  }

  /** The point-count checks run before any centring, transforming or
      optimizing: their verdict does not depend on the collaborators. */
  lemma PointCountErrorIgnoresEnv(reg: Registration, staticBundle: Bundle, moving: Bundle,
                                  mat: Option<Matrix44>, env1: Env, env2: Env)
    requires !SamePointCounts(staticBundle, moving)
    ensures Optimize(reg, staticBundle, moving, mat, env1) == Optimize(reg, staticBundle, moving, mat, env2)
    ensures Optimize(reg, staticBundle, moving, mat, env1).Err?
  {
  }

  /** `StreamlineRegistrationMap.transform`: apply the matrix to the moving
      bundle. */
  function TransformPlain(m: RegMap, moving: Bundle, env: Env): Bundle
    requires m.PlainMap?
  {
    env.transform(moving, m.matrix)
  }

  /** `JointStreamlineRegistrationMap.transform`: move each bundle to the
      halfway space by its own matrix. */
  function TransformJoint(m: RegMap, staticBundle: Bundle, moving: Bundle, env: Env): (Bundle, Bundle)
    requires m.JointMap?
  {
    (env.transform(staticBundle, m.matrix1), env.transform(moving, m.matrix2))
  }

  /** A joint registration that found the identity vector leaves both
      bundles where they are: both halfway vectors are the identity too. */
  lemma JointIdentityMapsIdentity(xopt: Vector, fopt: real, history: seq<Matrix44>, funcs: nat, iterations: nat, env: Env)
    requires Halfway.IsIdentityVector(xopt) && Codec.ValidSize(|xopt|)
    ensures NewJointMap(xopt, fopt, history, funcs, iterations, env).Ok?
    ensures NewJointMap(xopt, fopt, history, funcs, iterations, env).value.x1 == xopt
    ensures NewJointMap(xopt, fopt, history, funcs, iterations, env).value.x2 == xopt
  {
    Halfway.IdentitySplitsIntoIdentities(xopt);
  }
}

=== FILE: external.dfy ===
/** The data the registration engine works on, and the collaborators it calls
    but whose code is not part of this model.

    Every collaborator is a field of `Env`: the trigonometric matrix builder
    and its inverse (`compose_matrix` / `decompose_matrix` of
    `dipy.core.geometry`), the product of transformations, the streamline
    utilities (`transform_streamlines`, `center_streamlines`), the MDF
    distance-matrix kernel (`distance_matrix_mdf`), the asymmetric MDF cost
    kernel (`_bundle_minimum_distance_asymmetric`) and the numerical
    minimizer (`dipy.core.optimize.Optimizer`). The model proves what the
    engine does around them, for every choice of them. */
module External {
  import opened Wrappers
  import Numeric

  datatype Point = Point(x: real, y: real, z: real)

  /** An ordered sequence of 3D points. */
  type Streamline = seq<Point>

  /** An ordered collection of streamlines (also used for centroid sets). */
  type Bundle = seq<Streamline>

  /** A parameter vector (`xopt`, `x0`, ...). */
  type Vector = seq<real>

  type Vec3 = v: seq<real> | |v| == 3 witness [0.0, 0.0, 0.0]

  predicate IsMatrix44(m: seq<seq<real>>) {
    |m| == 4 && forall i :: 0 <= i < 4 ==> |m[i]| == 4
  }

  /** Every row has the length of the first: the shape of a 2D array. */
  predicate IsRectangular(d: seq<seq<real>>) {
    forall i :: 0 <= i < |d| ==> |d[i]| == |d[0]|
  }

  /** A distance matrix as `distance_matrix_mdf` returns it: one row per
      streamline of its first argument, one column per streamline of its
      second. */
  type DistanceMatrix = d: seq<seq<real>> | IsRectangular(d) witness []

  /** A 4x4 homogeneous transformation matrix. */
  type Matrix44 = m: seq<seq<real>> | IsMatrix44(m)
    witness [[1.0, 0.0, 0.0, 0.0], [0.0, 1.0, 0.0, 0.0], [0.0, 0.0, 1.0, 0.0], [0.0, 0.0, 0.0, 1.0]]

  /** `np.eye(4)`. */
  function Identity(): (m: Matrix44)
    ensures forall i, j :: 0 <= i < 4 && 0 <= j < 4 ==> m[i][j] == if i == j then 1.0 else 0.0
  {
    [[1.0, 0.0, 0.0, 0.0], [0.0, 1.0, 0.0, 0.0], [0.0, 0.0, 1.0, 0.0], [0.0, 0.0, 0.0, 1.0]]
  }

  /** `np.dot(a, b)` for two 4x4 matrices: entry (i, j) is the sum over k of
      a[i][k] * b[k][j]. */
  function MatMul(a: Matrix44, b: Matrix44): (m: Matrix44)
    ensures forall i, j :: 0 <= i < 4 && 0 <= j < 4 ==>
              m[i][j] == Numeric.Sum(seq(4, k requires 0 <= k < 4 => a[i][k] * b[k][j]))
  {
    seq(4, i requires 0 <= i < 4 =>
      seq(4, j requires 0 <= j < 4 =>
        Numeric.Sum(seq(4, k requires 0 <= k < 4 => a[i][k] * b[k][j]))))
  }

  /** The keyword arguments `compose_matrix44` passes to `compose_matrix`:
      `None` for a component the parameter vector does not carry. Angles are
      kept in degrees; the conversion to radians belongs to the opaque
      builder. */
  datatype Components = Components(
    scale: Option<Vec3>,
    shear: Option<Vec3>,
    angles: Option<Vec3>,
    translate: Vec3)

  /** What `decompose_matrix` returns (its perspective part is discarded by
      the caller); angles already in degrees. */
  datatype Decomposed = Decomposed(scale: Vec3, shear: Vec3, angles: Vec3, translate: Vec3)

  /** The distance metrics a registration can be set up with. */
  datatype MetricKind =
    | BundleMin            // BundleMinDistanceMetric (the default)
    | BundleMinMatrix      // BundleMinDistanceMatrixMetric
    | BundleMinAsymmetric  // BundleMinDistanceAsymmetricMetric
    | BundleSumMatrix      // BundleSumDistanceMatrixMetric
    | JointBundleMin       // JointBundleMinDistanceMetric (halfway space)

  datatype Method = Powell | LBfgsB

  type Bound = (real, real)

  /** One call of the minimizer: the metric set up on the given (centred)
      bundles, the start vector, the method, the bounds it receives and its
      options. */
  datatype Problem = Problem(
    metric: MetricKind,
    staticBundle: Bundle,
    movingBundle: Bundle,
    x0: Vector,
    optMethod: Method,
    bounds: Option<seq<Bound>>,
    options: map<string, real>,
    evolution: bool)

  /** What the minimizer reports: `xopt`, `fopt`, `nfev`, `nit` and the
      optional per-iteration parameter history. */
  datatype OptResult = OptResult(
    xopt: Vector,
    fopt: real,
    nfev: nat,
    nit: nat,
    evolution: Option<seq<Vector>>)

  datatype Env = Env(
    composeMatrix: Components -> Matrix44,
    decomposeMatrix: Matrix44 -> Decomposed,
    composeTransformations: (Matrix44, Matrix44, Matrix44) -> Matrix44,
    transform: (Bundle, Matrix44) -> Bundle,
    center: Bundle -> (Bundle, Point),
    mdf: (Bundle, Bundle) -> DistanceMatrix,
    minAsymmetric: (Bundle, Bundle) -> real,
    minimize: Problem -> OptResult)
}

=== FILE: groupwise.dfy ===
/** `groupwise_slr`: bring a group of bundles into one common space by
    repeated halfway registrations of random disjoint pairs, watching the
    mean pairwise distance of the group until it stops improving.

    The pairs of a round come from `get_unique_pairs` (module `Pairing`);
    every registration is a joint (halfway) `StreamlineLinearRegistration`
    started from the identity. */
module Groupwise {
  import opened Wrappers
  import opened External
  import Numeric
  import Seqs
  import Codec
  import Metrics
  import Engine
  import Qbx
  import Pairing

  type Pair = Pairing.Pair

  // ---------------------------------------------------------------------
  // combinations(range(n), 2)

  /** The pairs `(a, b)` for every `b` from `a + 1` to `n - 1`. */
  function Row(a: nat, n: nat): (r: seq<Pair>)
    ensures |r| == if a < n then n - a - 1 else 0
    ensures forall k :: 0 <= k < |r| ==> r[k] == (a, a + 1 + k)
  {
    if a < n then seq(n - a - 1, k requires 0 <= k < n - a - 1 => (a, a + 1 + k)) else []
  }

  /** The pairs whose first entry is at least `a`, row by row. */
  function PairsFrom(a: nat, n: nat): seq<Pair>
    decreases n - a
  {
    if a >= n then [] else Row(a, n) + PairsFrom(a + 1, n)
  }

  /** `list(combinations(np.arange(n), 2))`. */
  function AllPairs(n: nat): seq<Pair> {
    PairsFrom(0, n)
  }

  /** `(a, b)` comes before `(c, d)` in lexicographic order. */
  predicate LexLess(p: Pair, q: Pair) {
    p.0 < q.0 || (p.0 == q.0 && p.1 < q.1)
  }

  lemma RowMembers(a: nat, n: nat)
    ensures forall p: Pair :: p in Row(a, n) <==> p.0 == a && a < p.1 < n
  {
    forall p: Pair | p.0 == a && a < p.1 < n ensures p in Row(a, n) {
      assert Row(a, n)[p.1 - a - 1] == p;
    }
  }

  lemma {:induction false} PairsFromMembers(a: nat, n: nat)
    ensures forall p: Pair :: p in PairsFrom(a, n) <==> a <= p.0 < p.1 < n
    decreases n - a
  {
    if a < n {
      PairsFromMembers(a + 1, n);
      RowMembers(a, n);
      var row, rest := Row(a, n), PairsFrom(a + 1, n);
      assert PairsFrom(a, n) == row + rest;
      forall p: Pair ensures p in row + rest <==> a <= p.0 < p.1 < n {
        assert p in row + rest <==> p in row || p in rest;
      }
    }
  }

  /** The pairs of `combinations` are exactly the index pairs `a < b < n`. */
  lemma AllPairsMembers(n: nat)
    ensures forall p: Pair :: p in AllPairs(n) <==> p.0 < p.1 < n
  {
    PairsFromMembers(0, n);
  }

  lemma {:induction false} PairsFromCount(a: nat, n: nat)
    requires a <= n
    ensures 2 * |PairsFrom(a, n)| == (n - a) * (n - a - 1)
    decreases n - a
  {
    if a < n {
      PairsFromCount(a + 1, n);
      var m := n - a - 1;
      assert 2 * |PairsFrom(a + 1, n)| == m * (m - 1);
      assert (m + 1) * m == m * (m - 1) + 2 * m;
    }
  }

  /** There are `n (n - 1) / 2` of them. */
  lemma AllPairsCount(n: nat)
    ensures 2 * |AllPairs(n)| == n * (n - 1)
  {
    PairsFromCount(0, n);
  }

  lemma {:induction false} PairsFromSorted(a: nat, n: nat)
    ensures forall i, j :: 0 <= i < j < |PairsFrom(a, n)| ==> LexLess(PairsFrom(a, n)[i], PairsFrom(a, n)[j])
    decreases n - a
  {
    if a < n {
      PairsFromSorted(a + 1, n);
      PairsFromMembers(a + 1, n);
      var row, rest := Row(a, n), PairsFrom(a + 1, n);
      forall i, j | 0 <= i < j < |row + rest| ensures LexLess((row + rest)[i], (row + rest)[j]) {
        if j >= |row| {
          if i >= |row| {
            assert (row + rest)[i] == rest[i - |row|];
          }
          assert rest[j - |row|] in rest;
        }
      }
    }
  }

  /** They come in strictly increasing lexicographic order, as
      `combinations` emits them. */
  lemma AllPairsSorted(n: nat)
    ensures forall i, j :: 0 <= i < j < |AllPairs(n)| ==> LexLess(AllPairs(n)[i], AllPairs(n)[j])
  {
    PairsFromSorted(0, n);
  }

  /** With two bundles or more there is at least one pair. */
  lemma AllPairsNonEmpty(n: nat)
    requires n >= 2
    ensures |AllPairs(n)| > 0
  {
    AllPairsMembers(n);
    assert (0, 1) in AllPairs(n);
  }

  // ---------------------------------------------------------------------
  // group_distance

  predicate InRange(pairs: seq<Pair>, n: nat) {
    forall k :: 0 <= k < |pairs| ==> pairs[k].0 < n && pairs[k].1 < n
  }

  /** The MDF distance matrix between the centroids of the two bundles of a
      pair. */
  function PairMatrix(centroids: seq<Bundle>, p: Pair, env: Env): DistanceMatrix
    requires p.0 < |centroids| && p.1 < |centroids|
  {
    env.mdf(centroids[p.0], centroids[p.1])
  }

  /** The loop of `group_distance`: one minimum-distance cost per pair, the
      first empty distance matrix raising. */
  function PairCosts(centroids: seq<Bundle>, pairs: seq<Pair>, env: Env): (r: Result<seq<real>>)
    requires InRange(pairs, |centroids|)
    ensures r.Ok? <==> forall k :: 0 <= k < |pairs| ==> Metrics.NonEmpty(PairMatrix(centroids, pairs[k], env))
    ensures r.Err? ==> r.error.kind == ValueError
    ensures r.Ok? ==> |r.value| == |pairs|
    ensures r.Ok? ==> forall k :: 0 <= k < |pairs| ==> r.value[k] == Metrics.MinCost(PairMatrix(centroids, pairs[k], env))
    decreases |pairs|
  {
    if pairs == [] then Ok([])
    else
      var first :- Metrics.MinCostOf(PairMatrix(centroids, pairs[0], env));
      var rest :- PairCosts(centroids, pairs[1..], env);
      CostsCons(centroids, pairs, env, first, rest);
      Ok([first] + rest)
  }

  lemma CostsCons(centroids: seq<Bundle>, pairs: seq<Pair>, env: Env, first: real, rest: seq<real>)
    requires InRange(pairs, |centroids|) && pairs != []
    requires Metrics.NonEmpty(PairMatrix(centroids, pairs[0], env))
    requires first == Metrics.MinCost(PairMatrix(centroids, pairs[0], env))
    requires |rest| == |pairs| - 1
    requires forall k :: 0 <= k < |rest| ==> Metrics.NonEmpty(PairMatrix(centroids, pairs[1..][k], env))
    requires forall k :: 0 <= k < |rest| ==> rest[k] == Metrics.MinCost(PairMatrix(centroids, pairs[1..][k], env))
    ensures forall k :: 0 <= k < |pairs| ==> Metrics.NonEmpty(PairMatrix(centroids, pairs[k], env))
    ensures forall k :: 0 <= k < |pairs| ==> ([first] + rest)[k] == Metrics.MinCost(PairMatrix(centroids, pairs[k], env))
  {
    assert forall k :: 1 <= k < |pairs| ==> pairs[k] == pairs[1..][k - 1];
  }

  /** `group_distance(centroids, n_bundle)`: the cost of every pair of
      `combinations`, in that order. */
  function GroupDistance(centroids: seq<Bundle>, env: Env): (r: Result<seq<real>>)
    ensures r.Err? ==> r.error.kind == ValueError
    ensures r.Ok? ==> |r.value| == |AllPairs(|centroids|)|
    ensures r.Ok? ==> forall k :: 0 <= k < |r.value| ==> r.value[k] >= 0.0
  {
    AllPairsMembers(|centroids|);
    PairCosts(centroids, AllPairs(|centroids|), env)
  }

  /** Entry by entry: the cost of pair `(a, b)` sits at its position in
      `combinations`, and the call succeeds iff no distance matrix is
      empty. */
  lemma GroupDistanceEntries(centroids: seq<Bundle>, env: Env)
    ensures var pairs := AllPairs(|centroids|);
      && InRange(pairs, |centroids|)
      && (GroupDistance(centroids, env).Ok? <==>
            forall k :: 0 <= k < |pairs| ==> Metrics.NonEmpty(PairMatrix(centroids, pairs[k], env)))
      && (GroupDistance(centroids, env).Ok? ==> forall k :: 0 <= k < |pairs| ==>
            GroupDistance(centroids, env).value[k] == Metrics.MinCost(PairMatrix(centroids, pairs[k], env)))
  {
    AllPairsMembers(|centroids|);
  }

  /** A group whose every pair of bundles overlaps exactly (every centroid
      has a zero-distance partner, both ways) has group distance zero. */
  lemma AlignedGroupHasNoDistance(centroids: seq<Bundle>, env: Env)
    requires forall a, b :: 0 <= a < b < |centroids| ==>
               var d := env.mdf(centroids[a], centroids[b]);
               Metrics.NonEmpty(d) && Metrics.NonNegative(d) && Metrics.Aligned(d)
    ensures GroupDistance(centroids, env).Ok?
    ensures forall k :: 0 <= k < |GroupDistance(centroids, env).value| ==> GroupDistance(centroids, env).value[k] == 0.0
  {
    var pairs := AllPairs(|centroids|);
    AllPairsMembers(|centroids|);
    forall k | 0 <= k < |pairs| ensures Metrics.NonEmpty(PairMatrix(centroids, pairs[k], env)) {
      assert pairs[k] in pairs;
    }
    forall k | 0 <= k < |pairs| ensures Metrics.MinCost(PairMatrix(centroids, pairs[k], env)) == 0.0 {
      assert pairs[k] in pairs;
      Metrics.AlignedCostsNothing(PairMatrix(centroids, pairs[k], env));
    }
  }

  // ---------------------------------------------------------------------
  // One round of pairwise halfway registrations

  /** The registration state: the current centroids of every bundle and
      the matrix accumulated for it (`aff_list`). */
  datatype State = State(centroids: seq<Bundle>, affs: seq<Matrix44>)

  predicate Fits(s: State, p: Pair) {
    |s.affs| == |s.centroids| && p.0 < |s.centroids| && p.1 < |s.centroids|
  }

  /** The registration of one pair of centroid sets, static first. */
  type Registrar = (Bundle, Bundle) -> Result<Engine.RegMap>

  /** The registrar returns halfway maps only, as the joint metric's does. */
  ghost predicate Joint(register: Registrar) {
    forall a, b :: register(a, b).Ok? ==> register(a, b).value.JointMap?
  }

  /** The registrar succeeds on some pair of centroid sets. */
  ghost predicate EverSucceeds(register: Registrar) {
    exists a, b :: register(a, b).Ok?
  }

  /** `StreamlineLinearRegistration(x0=x0, metric=JointBundleMinDistanceMetric())`
      with every other argument left at its default. */
  function JointRegistration(x0: Engine.X0): (r: Result<Engine.Registration>)
    ensures r.Ok? <==> Engine.SetX0(x0).Ok?
    ensures r.Ok? ==> r.value.metric == JointBundleMin && r.value.x0 == Engine.SetX0(x0).value
  {
    Engine.NewRegistration(Some(JointBundleMin), x0, "L-BFGS-B", None, None, false)
  }

  /** `hslr.optimize(static=centroids1, moving=centroids2, mat=np.eye(4))`
      with a fresh joint registration. */
  function HalfwayRegistration(x0: Engine.X0, env: Env): Registrar {
    (a: Bundle, b: Bundle) =>
      if JointRegistration(x0).Ok? then Engine.Optimize(JointRegistration(x0).value, a, b, Some(Identity()), env)
      else Err(JointRegistration(x0).error)
  }

  /** The halfway registration returns joint maps, and it can only succeed
      when the start `x0` is acceptable; a pair with different point counts
      fails. */
  lemma HalfwayRegistrationFacts(x0: Engine.X0, env: Env)
    ensures Joint(HalfwayRegistration(x0, env))
    ensures EverSucceeds(HalfwayRegistration(x0, env)) ==> Engine.SetX0(x0).Ok?
    ensures forall a, b :: !Engine.SamePointCounts(a, b) ==> HalfwayRegistration(x0, env)(a, b).Err?
  {
  }

  /** Apply a halfway map to a pair: compose each half matrix onto its
      bundle's matrix and move both centroid sets half way. */
  function Advance(s: State, p: Pair, m: Engine.RegMap, env: Env): (r: State)
    requires Fits(s, p) && m.JointMap?
    ensures |r.centroids| == |s.centroids| && |r.affs| == |s.affs|
    ensures forall i :: 0 <= i < |s.affs| && i != p.0 && i != p.1 ==>
              r.affs[i] == s.affs[i] && r.centroids[i] == s.centroids[i]
    ensures p.0 != p.1 ==>
              && r.affs[p.0] == MatMul(m.matrix1, s.affs[p.0])
              && r.affs[p.1] == MatMul(m.matrix2, s.affs[p.1])
              && r.centroids[p.0] == env.transform(s.centroids[p.0], m.matrix1)
              && r.centroids[p.1] == env.transform(s.centroids[p.1], m.matrix2)
  {
    var affs := s.affs[p.0 := MatMul(m.matrix1, s.affs[p.0])];
    var moved := Engine.TransformJoint(m, s.centroids[p.0], s.centroids[p.1], env);
    State(s.centroids[p.0 := moved.0][p.1 := moved.1], affs[p.1 := MatMul(m.matrix2, affs[p.1])])
  }

  /** The body of the pair loop: register the pair, then advance. */
  function PairStep(s: State, p: Pair, register: Registrar, env: Env): (r: Result<State>)
    requires Fits(s, p) && Joint(register)
    ensures r.Ok? <==> register(s.centroids[p.0], s.centroids[p.1]).Ok?
    ensures r.Err? ==> r.error == register(s.centroids[p.0], s.centroids[p.1]).error
    ensures r.Ok? ==> r.value == Advance(s, p, register(s.centroids[p.0], s.centroids[p.1]).value, env)
  {
    var m :- register(s.centroids[p.0], s.centroids[p.1]);
    Ok(Advance(s, p, m, env))
  }

  /** No pair of the sequence involves bundle `i`. */
  predicate Untouched(pairs: seq<Pair>, i: nat) {
    forall k :: 0 <= k < |pairs| ==> pairs[k].0 != i && pairs[k].1 != i
  }

  /** The pair loop of one iteration, in pair order; the first failing
      registration ends the run. */
  function Round(s: State, pairs: seq<Pair>, register: Registrar, env: Env): (r: Result<State>)
    requires |s.affs| == |s.centroids| && InRange(pairs, |s.centroids|) && Joint(register)
    ensures r.Ok? ==> |r.value.centroids| == |s.centroids| && |r.value.affs| == |s.affs|
    ensures r.Ok? ==> forall i: nat :: i < |s.affs| && Untouched(pairs, i) ==>
              r.value.affs[i] == s.affs[i] && r.value.centroids[i] == s.centroids[i]
    ensures r.Ok? && |pairs| > 0 ==> register(s.centroids[pairs[0].0], s.centroids[pairs[0].1]).Ok?
    decreases |pairs|
  {
    if pairs == [] then Ok(s)
    else
      var next :- PairStep(s, pairs[0], register, env);
      assert forall k :: 1 <= k < |pairs| ==> pairs[k] == pairs[1..][k - 1];
      Round(next, pairs[1..], register, env)
  }

  /** Pairs whose entries all lie below `n` index bundles below `n`. */
  lemma PairsInRange(pairs: seq<Pair>, n: nat)
    requires forall v: nat :: v in Pairing.Flatten(pairs) ==> v < n
    ensures InRange(pairs, n)
  {
    var f := Pairing.Flatten(pairs);
    forall k | 0 <= k < |pairs| ensures pairs[k].0 < n && pairs[k].1 < n {
      assert f[2 * k] in f && f[2 * k + 1] in f;
    }
  }

  /** An index that appears in no pair is untouched by them. */
  lemma AbsentIsUntouched(pairs: seq<Pair>, i: nat)
    requires i !in Pairing.Flatten(pairs)
    ensures Untouched(pairs, i)
  {
    var f := Pairing.Flatten(pairs);
    forall k | 0 <= k < |pairs| ensures pairs[k].0 != i && pairs[k].1 != i {
      assert f[2 * k] in f && f[2 * k + 1] in f;
    }
  }

  /** With an odd number of bundles the one left out of the pairing keeps
      its matrix and its centroids for that round. */
  lemma ExcludedBundleRests(count: Pairing.Count, prev: Option<seq<Pair>>, draws: Pairing.Draws,
                            s: State, register: Registrar, env: Env)
    requires Pairing.GetUniquePairs(count, prev, draws).Ok?
    requires Pairing.GetUniquePairs(count, prev, draws).value.1.Some?
    requires |s.centroids| == |s.affs| == count.n && Joint(register)
    ensures var (pairs, excluded) := Pairing.GetUniquePairs(count, prev, draws).value;
      && InRange(pairs, count.n)
      && excluded.value < count.n
      && (Round(s, pairs, register, env).Ok? ==>
            && Round(s, pairs, register, env).value.affs[excluded.value] == s.affs[excluded.value]
            && Round(s, pairs, register, env).value.centroids[excluded.value] == s.centroids[excluded.value])
  {
    var (pairs, excluded) := Pairing.GetUniquePairs(count, prev, draws).value;
    Pairing.PairsPartitionIndices(count, prev, draws);
    PairsInRange(pairs, count.n);
    AbsentIsUntouched(pairs, excluded.value);
  }

  // ---------------------------------------------------------------------
  // Preprocessing

  /** The parameters of `groupwise_slr` other than the bundles; `qbx_thr`
      and `nb_pts` are fixed inside the tools. `clustering` is
      `qbx_thr is not None`. */
  datatype Settings = Settings(
    x0: Engine.X0,
    tol: real,
    maxIter: int,
    clustering: bool,
    selectRandom: Option<nat>)

  /** A bundle after the optional random selection and the resampling. */
  function Prepped(b: Bundle, st: Settings, tools: Qbx.Tools): Bundle {
    var chosen := if st.selectRandom.Some? then tools.selectRandom(b, st.selectRandom.value) else b;
    tools.resample(chosen)
  }

  function PreppedAll(bundles: seq<Bundle>, st: Settings, tools: Qbx.Tools): (r: seq<Bundle>)
    ensures |r| == |bundles| && forall i :: 0 <= i < |bundles| ==> r[i] == Prepped(bundles[i], st, tools)
  {
    seq(|bundles|, i requires 0 <= i < |bundles| => Prepped(bundles[i], st, tools))
  }

  /** `-shift` as a translation-only parameter vector. */
  function Negated(c: Point): Vector {
    [-c.x, -c.y, -c.z]
  }

  /** `compose_matrix44(-shift)`: the matrix that centres the bundle. */
  function StartMatrix(b: Bundle, env: Env): Matrix44 {
    Codec.ComposeMatrix44(Negated(env.center(b).1), env).value
  }

  /** The starting matrix is a pure translation by minus the centre of mass,
      clipped like every translation `compose_matrix44` builds. */
  lemma StartMatrixTranslates(b: Bundle, env: Env)
    ensures var c := Codec.ComposeArgs(Negated(env.center(b).1));
      && c.Ok?
      && c.value.scale.None? && c.value.shear.None? && c.value.angles.None?
      && c.value.translate == Codec.ClipTranslation(Negated(env.center(b).1))
      && StartMatrix(b, env) == env.composeMatrix(c.value)
  {
    assert Negated(env.center(b).1)[..3] == Negated(env.center(b).1);
  }

  /** The centred bundle, reduced to the centroids of its clusters of at
      least one streamline when clustering is on. */
  function StartCentroids(b: Bundle, st: Settings, tools: Qbx.Tools, env: Env): Bundle {
    var centred := env.center(b).0;
    if st.clustering then Qbx.RemoveClustersBySize(tools.cluster(centred), 1) else centred
  }

  function Preprocess(prepped: seq<Bundle>, st: Settings, tools: Qbx.Tools, env: Env): (s: State)
    ensures |s.centroids| == |prepped| && |s.affs| == |prepped|
    ensures forall i :: 0 <= i < |prepped| ==>
              s.centroids[i] == StartCentroids(prepped[i], st, tools, env) && s.affs[i] == StartMatrix(prepped[i], env)
  {
    State(seq(|prepped|, i requires 0 <= i < |prepped| => StartCentroids(prepped[i], st, tools, env)),
          seq(|prepped|, i requires 0 <= i < |prepped| => StartMatrix(prepped[i], env)))
  }

  // ---------------------------------------------------------------------
  // The iteration

  /** Every row of the distance record holds one entry per pair. */
  predicate Rows(d: seq<seq<real>>, w: nat) {
    forall k :: 0 <= k < |d| ==> |d[k]| == w
  }

  /** `np.max([0, i_iter - 3])`: the row an iteration is compared with. */
  function Reference(k: nat): (r: nat)
    ensures r <= k
  {
    if k >= 3 then k - 3 else 0
  }

  /** `d_improve`: how much the mean group distance fell over the last
      three iterations (or since the start). */
  function Improvement(d: seq<seq<real>>, k: nat): real
    requires k < |d| && |d[k]| > 0 && |d[Reference(k)]| > 0
  {
    Numeric.Mean(d[Reference(k)]) - Numeric.Mean(d[k])
  }

  /** Every entry of every row is a cost, hence non-negative. */
  predicate NonNegativeRows(d: seq<seq<real>>) {
    forall k, j :: 0 <= k < |d| && 0 <= j < |d[k]| ==> d[k][j] >= 0.0
  }

  /** Rows of `w > 0` entries, every iteration after the initial row
      improving by at least `tol`: the loop has not stopped yet. */
  predicate Improving(d: seq<seq<real>>, w: nat, tol: real) {
    && w > 0 && Rows(d, w)
    && forall k :: 1 <= k < |d| ==> Improvement(d, k) >= tol
  }

  /** A further row of costs whose iteration improves by at least `tol`
      keeps the record improving. */
  lemma KeepImproving(d: seq<seq<real>>, row: seq<real>, w: nat, tol: real)
    requires Improving(d, w, tol) && NonNegativeRows(d) && |d| > 0
    requires |row| == w && forall j :: 0 <= j < w ==> row[j] >= 0.0
    requires Improvement(d + [row], |d|) >= tol
    ensures Improving(d + [row], w, tol) && NonNegativeRows(d + [row])
  {
    var d' := d + [row];
    forall k | 1 <= k < |d'| ensures Improvement(d', k) >= tol {
      if k < |d| {
        assert d'[k] == d[k] && d'[Reference(k)] == d[Reference(k)];
        assert Improvement(d', k) == Improvement(d, k);
      }
    }
  }

  /** The record of group distances `groupwise_slr` returns: the initial
      row `d0` first, one more row per iteration run and at most `max_iter`
      of them (at least one when `max_iter` is positive), one non-negative
      entry per pair in each row, every iteration but the last improving on
      the row three back by at least `tol`, and the last one falling short
      of `tol` when the loop stopped before `max_iter`. */
  predicate Record(d: seq<seq<real>>, d0: seq<real>, tol: real, maxIter: int) {
    && 1 <= |d| <= (if maxIter > 0 then maxIter else 0) + 1
    && (maxIter >= 1 ==> |d| >= 2)
    && d[0] == d0 && |d0| > 0
    && Rows(d, |d0|) && NonNegativeRows(d)
    && (forall k :: 1 <= k < |d| - 1 ==> Improvement(d, k) >= tol)
    && (2 <= |d| && |d| - 1 < maxIter ==> Improvement(d, |d| - 1) < tol)
  }

  /** Stopping after iteration `|d|` because its row falls short of `tol`
      leaves a complete record. */
  lemma StopRecord(d: seq<seq<real>>, row: seq<real>, d0: seq<real>, tol: real, maxIter: int)
    requires Improving(d, |d0|, tol) && NonNegativeRows(d)
    requires 1 <= |d| <= maxIter && d[0] == d0
    requires |row| == |d0| && forall j :: 0 <= j < |row| ==> row[j] >= 0.0
    requires Improvement(d + [row], |d|) < tol
    ensures Record(d + [row], d0, tol, maxIter)
  {
    var d' := d + [row];
    forall k | 1 <= k < |d'| - 1 ensures Improvement(d', k) >= tol {
      assert d'[k] == d[k] && d'[Reference(k)] == d[Reference(k)];
      assert Improvement(d', k) == Improvement(d, k);
    }
  }

  /** Running all `max_iter` iterations leaves a complete record. */
  lemma FullRecord(d: seq<seq<real>>, d0: seq<real>, tol: real, maxIter: int)
    requires Improving(d, |d0|, tol) && NonNegativeRows(d)
    requires |d| == (if maxIter > 0 then maxIter else 0) + 1 && d[0] == d0
    ensures Record(d, d0, tol, maxIter)
  {
  }

  /** The pairing drawn at the end of an iteration: `get_unique_pairs`
      with the previous pairing to avoid (the excluded index is not kept). */
  function NextPairing(n: nat, prev: seq<Pair>, draw: Pairing.Draws): (r: Result<seq<Pair>>)
    requires InRange(prev, n) && |prev| == n / 2
    ensures r.Ok? <==> Pairing.GetUniquePairs(Pairing.IntCount(n), Some(prev), draw).Ok?
    ensures r.Ok? ==> InRange(r.value, n) && |r.value| == n / 2
    ensures r.Ok? && n > 3 ==> Pairing.Accepted(r.value, prev, n / 2)
  {
    var next :- Pairing.GetUniquePairs(Pairing.IntCount(n), Some(prev), draw);
    Pairing.PairsPartitionIndices(Pairing.IntCount(n), Some(prev), draw);
    PairsInRange(next.0, n);
    Ok(next.0)
  }

  /** Every pairing of a schedule indexes bundles below `n`. */
  predicate AllInRange(sched: seq<seq<Pair>>, n: nat) {
    forall j :: 0 <= j < |sched| ==> InRange(sched[j], n) && |sched[j]| == n / 2
  }

  /** `sched` lists the pairings of the iterations in order: the first
      pairing, then each one drawn with `draws(j)` to avoid the one before.
      The pairings do not depend on the registrations. */
  predicate Drawn(sched: seq<seq<Pair>>, pairs0: seq<Pair>, n: nat, draws: nat -> Pairing.Draws) {
    && AllInRange(sched, n)
    && (|sched| > 0 ==> sched[0] == pairs0)
    && (forall j :: 1 <= j < |sched| ==> NextPairing(n, sched[j - 1], draws(j)) == Ok(sched[j]))
  }

  /** The state after one round per pairing of the schedule, in order; the
      first failing registration ends the run. */
  function Rounds(s0: State, sched: seq<seq<Pair>>, register: Registrar, env: Env): (r: Result<State>)
    requires |s0.affs| == |s0.centroids| && AllInRange(sched, |s0.centroids|) && Joint(register)
    ensures r.Ok? ==> |r.value.centroids| == |s0.centroids| && |r.value.affs| == |s0.affs|
    decreases |sched|
  {
    if sched == [] then Ok(s0)
    else
      var s :- Rounds(s0, sched[..|sched| - 1], register, env);
      Round(s, sched[|sched| - 1], register, env)
  }

  /** Appending a pairing to the schedule runs one more round. */
  lemma RoundsSnoc(s0: State, sched: seq<seq<Pair>>, pairs: seq<Pair>, register: Registrar, env: Env)
    requires |s0.affs| == |s0.centroids| && AllInRange(sched, |s0.centroids|) && Joint(register)
    requires InRange(pairs, |s0.centroids|) && |pairs| == |s0.centroids| / 2
    requires Rounds(s0, sched, register, env).Ok?
    ensures AllInRange(sched + [pairs], |s0.centroids|)
    ensures Rounds(s0, sched + [pairs], register, env) == Round(Rounds(s0, sched, register, env).value, pairs, register, env)
  {
    assert (sched + [pairs])[..|sched|] == sched;
  }

  /** A drawn schedule extended by the pairing drawn after its last one is
      still drawn. */
  lemma DrawnSnoc(sched: seq<seq<Pair>>, pairs0: seq<Pair>, n: nat, draws: nat -> Pairing.Draws, next: seq<Pair>)
    requires Drawn(sched, pairs0, n, draws) && |sched| > 0
    requires NextPairing(n, sched[|sched| - 1], draws(|sched|)) == Ok(next)
    ensures Drawn(sched + [next], pairs0, n, draws)
  {
    var t := sched + [next];
    forall j | 1 <= j < |t| ensures NextPairing(n, t[j - 1], draws(j)) == Ok(t[j]) {
      if j < |sched| {
        assert t[j - 1] == sched[j - 1] && t[j] == sched[j];
      }
    }
  }

  /** Every prefix of a drawn schedule is drawn. */
  lemma DrawnPrefix(sched: seq<seq<Pair>>, pairs0: seq<Pair>, n: nat, draws: nat -> Pairing.Draws, k: nat)
    requires Drawn(sched, pairs0, n, draws) && k <= |sched|
    ensures Drawn(sched[..k], pairs0, n, draws)
  {
    var t := sched[..k];
    forall j | 1 <= j < |t| ensures NextPairing(n, t[j - 1], draws(j)) == Ok(t[j]) {
      assert t[j - 1] == sched[j - 1] && t[j] == sched[j];
    }
  }

  /** The draws fix the schedule: two drawn schedules from the same first
      pairing agree wherever both are defined. */
  lemma {:induction false} DrawnAgree(a: seq<seq<Pair>>, b: seq<seq<Pair>>, pairs0: seq<Pair>, n: nat,
                                      draws: nat -> Pairing.Draws, j: nat)
    requires Drawn(a, pairs0, n, draws) && Drawn(b, pairs0, n, draws)
    requires j < |a| && j < |b|
    ensures a[j] == b[j]
    decreases j
  {
    if j > 0 {
      DrawnAgree(a, b, pairs0, n, draws, j - 1);
      assert NextPairing(n, a[j - 1], draws(j)) == Ok(a[j]);
      assert NextPairing(n, b[j - 1], draws(j)) == Ok(b[j]);
    }
  }

  /** Two drawn schedules of the same length are the same schedule. */
  lemma DrawnUnique(a: seq<seq<Pair>>, b: seq<seq<Pair>>, pairs0: seq<Pair>, n: nat, draws: nat -> Pairing.Draws)
    requires Drawn(a, pairs0, n, draws) && Drawn(b, pairs0, n, draws) && |a| == |b|
    ensures a == b
  {
    forall j | 0 <= j < |a| ensures a[j] == b[j] {
      DrawnAgree(a, b, pairs0, n, draws, j);
    }
  }

  /** A bundle that no pairing of the schedule involves keeps its starting
      matrix and centroids. */
  lemma {:induction false} UnpairedKeepsStart(s0: State, sched: seq<seq<Pair>>, register: Registrar, env: Env, i: nat)
    requires |s0.affs| == |s0.centroids| && AllInRange(sched, |s0.centroids|) && Joint(register)
    requires i < |s0.affs| && Rounds(s0, sched, register, env).Ok?
    requires forall j :: 0 <= j < |sched| ==> Untouched(sched[j], i)
    ensures Rounds(s0, sched, register, env).value.affs[i] == s0.affs[i]
    ensures Rounds(s0, sched, register, env).value.centroids[i] == s0.centroids[i]
    decreases |sched|
  {
    if sched != [] {
      var pre := sched[..|sched| - 1];
      assert forall j :: 0 <= j < |pre| ==> pre[j] == sched[j];
      UnpairedKeepsStart(s0, pre, register, env, i);
      assert Untouched(sched[|sched| - 1], i);
    }
  }

  /** `d` is the distance record of the schedule: one row more than there
      are rounds, and row `k >= 1` is the group distance after the first `k`
      rounds. Row 0, the initial distance, is the caller's. */
  predicate Measured(s0: State, sched: seq<seq<Pair>>, d: seq<seq<real>>, register: Registrar, env: Env)
    requires |s0.affs| == |s0.centroids| && AllInRange(sched, |s0.centroids|) && Joint(register)
    decreases |sched|
  {
    && |d| == |sched| + 1
    && (sched != [] ==>
          && Rounds(s0, sched, register, env).Ok?
          && GroupDistance(Rounds(s0, sched, register, env).value.centroids, env) == Ok(d[|d| - 1])
          && Measured(s0, sched[..|sched| - 1], d[..|d| - 1], register, env))
  }

  /** Row `k` of a measured record is the group distance after `k` rounds. */
  lemma {:induction false} MeasuredAt(s0: State, sched: seq<seq<Pair>>, d: seq<seq<real>>, register: Registrar,
                                      env: Env, k: nat)
    requires |s0.affs| == |s0.centroids| && AllInRange(sched, |s0.centroids|) && Joint(register)
    requires Measured(s0, sched, d, register, env) && 1 <= k < |d|
    ensures AllInRange(sched[..k], |s0.centroids|)
    ensures Rounds(s0, sched[..k], register, env).Ok?
    ensures GroupDistance(Rounds(s0, sched[..k], register, env).value.centroids, env) == Ok(d[k])
    decreases |sched|
  {
    if k == |d| - 1 {
      assert sched[..k] == sched;
    } else {
      var pre, dpre := sched[..|sched| - 1], d[..|d| - 1];
      MeasuredInit(s0, sched, d, register, env);
      MeasuredAt(s0, pre, dpre, register, env, k);
      Seqs.PrefixOfPrefix(sched, |sched| - 1, k);
    }
  }

  /** A measured record without its last row measures the schedule without
      its last round. */
  lemma MeasuredInit(s0: State, sched: seq<seq<Pair>>, d: seq<seq<real>>, register: Registrar, env: Env)
    requires |s0.affs| == |s0.centroids| && AllInRange(sched, |s0.centroids|) && Joint(register)
    requires Measured(s0, sched, d, register, env) && sched != []
    ensures AllInRange(sched[..|sched| - 1], |s0.centroids|)
    ensures Measured(s0, sched[..|sched| - 1], d[..|d| - 1], register, env)
  {
  }

  /** The round of one iteration on the current pairing, then the group
      distance of the moved centroids, which extends the record. */
  method RoundAndMeasure(s0: State, done: seq<seq<Pair>>, d: seq<seq<real>>, pairs: seq<Pair>, s: State,
                         register: Registrar, env: Env)
    returns (r: Result<(State, seq<real>)>)
    requires |s0.affs| == |s0.centroids| >= 2 && AllInRange(done, |s0.centroids|) && Joint(register)
    requires InRange(pairs, |s0.centroids|) && |pairs| == |s0.centroids| / 2
    requires Rounds(s0, done, register, env) == Ok(s) && Measured(s0, done, d, register, env)
    ensures r.Ok? ==>
              && AllInRange(done + [pairs], |s0.centroids|)
              && Rounds(s0, done + [pairs], register, env) == Ok(r.value.0)
              && Measured(s0, done + [pairs], d + [r.value.1], register, env)
              && |r.value.0.centroids| == |s0.centroids| && |r.value.0.affs| == |s0.affs|
              && GroupDistance(r.value.0.centroids, env) == Ok(r.value.1)
              && EverSucceeds(register)
  {
    RoundsSnoc(s0, done, pairs, register, env);
    var moved :- Round(s, pairs, register, env);
    assert register(s.centroids[pairs[0].0], s.centroids[pairs[0].1]).Ok?;
    var row :- GroupDistance(moved.centroids, env);
    MeasuredSnoc(s0, done, d, pairs, row, register, env);
    return Ok((moved, row));
  }

  /** The group distance after one more round extends a measured record. */
  lemma MeasuredSnoc(s0: State, sched: seq<seq<Pair>>, d: seq<seq<real>>, pairs: seq<Pair>, row: seq<real>,
                     register: Registrar, env: Env)
    requires |s0.affs| == |s0.centroids| && AllInRange(sched + [pairs], |s0.centroids|) && Joint(register)
    requires AllInRange(sched, |s0.centroids|) && Measured(s0, sched, d, register, env)
    requires Rounds(s0, sched + [pairs], register, env).Ok?
    requires GroupDistance(Rounds(s0, sched + [pairs], register, env).value.centroids, env) == Ok(row)
    ensures Measured(s0, sched + [pairs], d + [row], register, env)
  {
    assert (sched + [pairs])[..|sched|] == sched;
    assert (d + [row])[..|d|] == d;
  }

  /** Where the iteration loop stopped: the final state, the record of
      group distances and the pairings its rounds registered. */
  datatype Progress = Progress(state: State, distances: seq<seq<real>>, pairings: seq<seq<Pair>>)

  /** The next round's pairing, drawn from `draws(|sched|)` against the
      schedule's last pairing, extends the schedule. */
  method DrawNext(sched: seq<seq<Pair>>, pairs0: seq<Pair>, n: nat, draws: nat -> Pairing.Draws)
    returns (r: Result<seq<Pair>>)
    requires |sched| > 0 && Drawn(sched, pairs0, n, draws)
    ensures r.Ok? <==> NextPairing(n, sched[|sched| - 1], draws(|sched|)).Ok?
    ensures r.Ok? ==> InRange(r.value, n) && |r.value| == n / 2 && Drawn(sched + [r.value], pairs0, n, draws)
  {
    var next :- NextPairing(n, sched[|sched| - 1], draws(|sched|));
    DrawnSnoc(sched, pairs0, n, draws, next);
    return Ok(next);
  }

  /** What the loop holds before iteration `i`: the record has one row per
      iteration so far and has kept improving, `done` holds the pairings of
      the rounds so far, drawn from `pairs0` and followed by the pairing
      `pairs` of the coming round, and folding those rounds over `s0` gives
      `s` and the group distance after each of them. */
  ghost predicate Running(s0: State, d0: seq<real>, pairs0: seq<Pair>, register: Registrar, tol: real, env: Env,
                          draws: nat -> Pairing.Draws, i: int, s: State, d: seq<seq<real>>,
                          done: seq<seq<Pair>>, pairs: seq<Pair>)
    requires |s0.affs| == |s0.centroids| && Joint(register)
  {
    var n := |s0.centroids|;
    && 1 <= i && |d| == i && d[0] == d0
    && Improving(d, |d0|, tol) && NonNegativeRows(d)
    && |s.centroids| == n && |s.affs| == n
    && InRange(pairs, n) && |pairs| == n / 2
    && (i > 1 ==> EverSucceeds(register))
    && |done| == i - 1 && Drawn(done + [pairs], pairs0, n, draws)
    && AllInRange(done, n) && Rounds(s0, done, register, env) == Ok(s)
    && Measured(s0, done, d, register, env)
  }

  /** What the loop delivers: the group keeps its size, the record starts
      with `d0` and stops as the source's convergence test does, the
      pairings are drawn from `pairs0`, and folding one round per pairing
      over `s0` gives the final state and the group distance of every row
      after the first. */
  ghost predicate Ran(s0: State, d0: seq<real>, pairs0: seq<Pair>, register: Registrar, tol: real, maxIter: int,
                      env: Env, draws: nat -> Pairing.Draws, p: Progress)
    requires |s0.affs| == |s0.centroids| && Joint(register)
  {
    && |p.state.centroids| == |s0.centroids| && |p.state.affs| == |s0.affs|
    && Record(p.distances, d0, tol, maxIter)
    && (maxIter >= 1 ==> EverSucceeds(register))
    && |p.pairings| == |p.distances| - 1
    && Drawn(p.pairings, pairs0, |s0.centroids|, draws)
    && Rounds(s0, p.pairings, register, env) == Ok(p.state)
    && Measured(s0, p.pairings, p.distances, register, env)
  }

  /** How one iteration ends: the loop breaks with its outcome, or goes on
      with the next state, record, rounds and pairing. */
  datatype Turn =
    | Stop(progress: Progress)
    | Go(state: State, distances: seq<seq<real>>, done: seq<seq<Pair>>, pairs: seq<Pair>)

  /** The body of `for i_iter in range(1, max_iter + 1)`: a round of
      registrations, a new row of group distances, the convergence test
      against the row three iterations back, and a fresh pairing that
      avoids the previous one. `draws(i)` drives the pairing made at the
      end of iteration `i`. */
  method Iteration(s0: State, d0: seq<real>, pairs0: seq<Pair>, register: Registrar, tol: real, maxIter: int,
                   env: Env, draws: nat -> Pairing.Draws, i: int, s: State, d: seq<seq<real>>,
                   done: seq<seq<Pair>>, pairs: seq<Pair>) returns (r: Result<Turn>)
    requires |s0.centroids| >= 2 && |s0.affs| == |s0.centroids| && |d0| == |AllPairs(|s0.centroids|)|
    requires Joint(register) && i <= maxIter
    requires Running(s0, d0, pairs0, register, tol, env, draws, i, s, d, done, pairs)
    ensures r.Ok? && r.value.Stop? ==> Ran(s0, d0, pairs0, register, tol, maxIter, env, draws, r.value.progress)
    ensures r.Ok? && r.value.Go? ==>
              Running(s0, d0, pairs0, register, tol, env, draws, i + 1,
                      r.value.state, r.value.distances, r.value.done, r.value.pairs)
  {
    var n := |s0.centroids|;
    var step :- RoundAndMeasure(s0, done, d, pairs, s, register, env);
    var row := step.1;
    if Improvement(d + [row], i) < tol {
      StopRecord(d, row, d0, tol, maxIter);
      return Ok(Stop(Progress(step.0, d + [row], done + [pairs])));
    }
    KeepImproving(d, row, |d0|, tol);
    var next :- DrawNext(done + [pairs], pairs0, n, draws);
    return Ok(Go(step.0, d + [row], done + [pairs], next));
  }

  /** A loop that ran all its iterations delivers its state, its record and
      the pairings of its rounds. */
  lemma RunningEnds(s0: State, d0: seq<real>, pairs0: seq<Pair>, register: Registrar, tol: real, maxIter: int,
                    env: Env, draws: nat -> Pairing.Draws, i: int, s: State, d: seq<seq<real>>,
                    done: seq<seq<Pair>>, pairs: seq<Pair>)
    requires |s0.affs| == |s0.centroids| && Joint(register)
    requires Running(s0, d0, pairs0, register, tol, env, draws, i, s, d, done, pairs)
    requires i == (if maxIter > 0 then maxIter else 0) + 1
    ensures Ran(s0, d0, pairs0, register, tol, maxIter, env, draws, Progress(s, d, done))
  {
    FullRecord(d, d0, tol, maxIter);
    DrawnPrefix(done + [pairs], pairs0, |s0.centroids|, draws, |done|);
    assert (done + [pairs])[..|done|] == done;
  }

  /** `for i_iter in range(1, max_iter + 1)`, breaking when the group
      distance stops improving; a non-positive `max_iter` runs nothing. */
  method Iterate(s0: State, d0: seq<real>, pairs0: seq<Pair>, register: Registrar, tol: real, maxIter: int,
                 env: Env, draws: nat -> Pairing.Draws) returns (r: Result<Progress>)
    requires |s0.centroids| >= 2 && |s0.affs| == |s0.centroids|
    requires |d0| == |AllPairs(|s0.centroids|)| > 0 && forall j :: 0 <= j < |d0| ==> d0[j] >= 0.0
    requires InRange(pairs0, |s0.centroids|) && |pairs0| == |s0.centroids| / 2
    requires Joint(register)
    ensures r.Ok? ==> Ran(s0, d0, pairs0, register, tol, maxIter, env, draws, r.value)
    ensures maxIter <= 0 ==> r == Ok(Progress(s0, [d0], []))
  {
    var s, pairs, d, i := s0, pairs0, [d0], 1;
    var done: seq<seq<Pair>> := [];
    assert Drawn([pairs0], pairs0, |s0.centroids|, draws);
    assert Running(s0, d0, pairs0, register, tol, env, draws, i, s, d, done, pairs);
    if maxIter <= 0 {
      RunningEnds(s0, d0, pairs0, register, tol, maxIter, env, draws, i, s, d, done, pairs);
      return Ok(Progress(s, d, done));
    }
    while i <= maxIter
      invariant i <= maxIter + 1
      invariant Running(s0, d0, pairs0, register, tol, env, draws, i, s, d, done, pairs)
    {
      var turn :- Iteration(s0, d0, pairs0, register, tol, maxIter, env, draws, i, s, d, done, pairs);
      if turn.Stop? {
        return Ok(turn.progress);
      }
      s, d, done, pairs := turn.state, turn.distances, turn.done, turn.pairs;
      i := i + 1;
    }
    RunningEnds(s0, d0, pairs0, register, tol, maxIter, env, draws, i, s, d, done, pairs);
    return Ok(Progress(s, d, done));
  }

  /** The state before the loop. */
  datatype Begin = Begin(prepped: seq<Bundle>, state: State, d0: seq<real>, pairs: seq<Pair>)

  /** Everything `groupwise_slr` does before its loop: preprocess every
      bundle, measure the initial group distance and make the first
      pairing, which fails for fewer than two bundles. */
  method Start(bundles: seq<Bundle>, st: Settings, tools: Qbx.Tools, env: Env, draw: Pairing.Draws) returns (r: Result<Begin>)
    ensures |bundles| <= 1 ==> r.Err? && r.error.kind == ValueError
    ensures r.Ok? ==>
              && |bundles| >= 2
              && r.value.prepped == PreppedAll(bundles, st, tools)
              && r.value.state == Preprocess(r.value.prepped, st, tools, env)
              && GroupDistance(r.value.state.centroids, env) == Ok(r.value.d0)
    ensures r.Ok? ==>
              && |r.value.d0| == |AllPairs(|bundles|)| > 0
              && (forall j :: 0 <= j < |r.value.d0| ==> r.value.d0[j] >= 0.0)
              && InRange(r.value.pairs, |bundles|) && |r.value.pairs| == |bundles| / 2
    ensures r.Ok? ==>
              && Pairing.GetUniquePairs(Pairing.IntCount(|bundles|), None, draw).Ok?
              && r.value.pairs == Pairing.GetUniquePairs(Pairing.IntCount(|bundles|), None, draw).value.0
  {
    var n := |bundles|;
    var prepped := PreppedAll(bundles, st, tools);
    var s := Preprocess(prepped, st, tools, env);
    var d0 :- GroupDistance(s.centroids, env);
    var first :- Pairing.GetUniquePairs(Pairing.IntCount(n), None, draw);
    AllPairsNonEmpty(n);
    Pairing.PairsPartitionIndices(Pairing.IntCount(n), None, draw);
    PairsInRange(first.0, n);
    return Ok(Begin(prepped, s, d0, first.0));
  }

  /** What `groupwise_slr` returns: the moved bundles, their matrices and
      the record of group distances. */
  datatype Outcome = Outcome(bundles: seq<Bundle>, affs: seq<Matrix44>, distances: seq<seq<real>>)

  /** Some schedule of one round per row of `d` after the first, drawn from
      `draws` after `pairs0`, folds the registrar over `s0` to the matrices
      `affs`, and `d` records the group distance after each of its rounds. */
  ghost predicate FoldsTo(s0: State, pairs0: seq<Pair>, draws: nat -> Pairing.Draws, register: Registrar,
                          env: Env, d: seq<seq<real>>, affs: seq<Matrix44>)
    requires |s0.affs| == |s0.centroids| && Joint(register)
  {
    exists sched ::
      && |sched| == |d| - 1
      && Drawn(sched, pairs0, |s0.centroids|, draws)
      && Rounds(s0, sched, register, env).Ok?
      && Rounds(s0, sched, register, env).value.affs == affs
      && Measured(s0, sched, d, register, env)
  }

  lemma ScheduleWitness(s0: State, sched: seq<seq<Pair>>, pairs0: seq<Pair>, draws: nat -> Pairing.Draws,
                        register: Registrar, env: Env, s: State, d: seq<seq<real>>)
    requires |s0.affs| == |s0.centroids| && Joint(register)
    requires Drawn(sched, pairs0, |s0.centroids|, draws) && Rounds(s0, sched, register, env) == Ok(s)
    requires Measured(s0, sched, d, register, env)
    ensures FoldsTo(s0, pairs0, draws, register, env, d, s.affs)
  {
  }

  /** The fold fixes its outcome: the draws determine the schedule, and the
      schedule and registrar determine the matrices and every distance row
      after the first. */
  lemma FoldsToUnique(s0: State, pairs0: seq<Pair>, draws: nat -> Pairing.Draws, register: Registrar,
                      env: Env, da: seq<seq<real>>, db: seq<seq<real>>, a: seq<Matrix44>, b: seq<Matrix44>)
    requires |s0.affs| == |s0.centroids| && Joint(register)
    requires FoldsTo(s0, pairs0, draws, register, env, da, a) && FoldsTo(s0, pairs0, draws, register, env, db, b)
    requires |da| == |db|
    ensures a == b
    ensures forall k :: 1 <= k < |da| ==> da[k] == db[k]
  {
    var n := |s0.centroids|;
    var sa :| && |sa| == |da| - 1 && Drawn(sa, pairs0, n, draws)
              && Rounds(s0, sa, register, env).Ok? && Rounds(s0, sa, register, env).value.affs == a
              && Measured(s0, sa, da, register, env);
    var sb :| && |sb| == |db| - 1 && Drawn(sb, pairs0, n, draws)
              && Rounds(s0, sb, register, env).Ok? && Rounds(s0, sb, register, env).value.affs == b
              && Measured(s0, sb, db, register, env);
    DrawnUnique(sa, sb, pairs0, n, draws);
    forall k | 1 <= k < |da| ensures da[k] == db[k] {
      MeasuredAt(s0, sa, da, register, env, k);
      MeasuredAt(s0, sb, db, register, env, k);
    }
  }

  /** The loop of `groupwise_slr` from a prepared start, followed by
      moving every prepared bundle by its accumulated matrix. */
  method Finish(b: Begin, st: Settings, env: Env, draws: nat -> Pairing.Draws, register: Registrar)
    returns (r: Result<Outcome>)
    requires |b.state.centroids| >= 2 && |b.state.affs| == |b.state.centroids| == |b.prepped|
    requires |b.d0| == |AllPairs(|b.state.centroids|)| > 0 && forall j :: 0 <= j < |b.d0| ==> b.d0[j] >= 0.0
    requires InRange(b.pairs, |b.state.centroids|) && |b.pairs| == |b.state.centroids| / 2
    requires Joint(register)
    ensures r.Ok? ==> |r.value.bundles| == |b.prepped| && |r.value.affs| == |b.prepped|
    ensures r.Ok? ==> forall i :: 0 <= i < |b.prepped| ==>
              r.value.bundles[i] == env.transform(b.prepped[i], r.value.affs[i])
    ensures r.Ok? ==> Record(r.value.distances, b.d0, st.tol, st.maxIter)
    ensures r.Ok? && st.maxIter >= 1 ==> EverSucceeds(register)
    ensures r.Ok? ==> FoldsTo(b.state, b.pairs, draws, register, env, r.value.distances, r.value.affs)
    ensures r.Ok? && st.maxIter <= 0 ==> r.value.affs == b.state.affs
  {
    var progress :- Iterate(b.state, b.d0, b.pairs, register, st.tol, st.maxIter, env, draws);
    var affs := progress.state.affs;
    ScheduleWitness(b.state, progress.pairings, b.pairs, draws, register, env, progress.state, progress.distances);
    var moved := seq(|b.prepped|, k requires 0 <= k < |b.prepped| => env.transform(b.prepped[k], affs[k]));
    return Ok(Outcome(moved, affs, progress.distances));
  }

  /** The body of `groupwise_slr` for a given pairwise registrar:
      preprocess, draw the first pairing from `draws(0)`, iterate, and move
      every prepared bundle by its accumulated matrix. */
  method GroupwiseWith(bundles: seq<Bundle>, st: Settings, tools: Qbx.Tools, env: Env,
                       draws: nat -> Pairing.Draws, register: Registrar)
    returns (r: Result<Outcome>)
    requires Joint(register)
    ensures |bundles| <= 1 ==> r.Err? && r.error.kind == ValueError
    ensures r.Ok? ==> |bundles| >= 2
    ensures r.Ok? ==> |r.value.bundles| == |bundles| && |r.value.affs| == |bundles|
    ensures r.Ok? ==> forall i :: 0 <= i < |bundles| ==>
              r.value.bundles[i] == env.transform(Prepped(bundles[i], st, tools), r.value.affs[i])
    ensures r.Ok? ==>
              var d0 := GroupDistance(Preprocess(PreppedAll(bundles, st, tools), st, tools, env).centroids, env);
              d0.Ok? && Record(r.value.distances, d0.value, st.tol, st.maxIter)
    ensures r.Ok? && st.maxIter >= 1 ==> EverSucceeds(register)
    ensures r.Ok? ==>
              var s0 := Preprocess(PreppedAll(bundles, st, tools), st, tools, env);
              var first := Pairing.GetUniquePairs(Pairing.IntCount(|bundles|), None, draws(0));
              && first.Ok? && InRange(first.value.0, |bundles|) && |first.value.0| == |bundles| / 2
              && |s0.affs| == |s0.centroids| == |bundles|
              && FoldsTo(s0, first.value.0, draws, register, env, r.value.distances, r.value.affs)
    ensures r.Ok? && st.maxIter <= 0 ==>
              forall i :: 0 <= i < |bundles| ==> r.value.affs[i] == StartMatrix(Prepped(bundles[i], st, tools), env)
  {
    var b :- Start(bundles, st, tools, env, draws(0));
    r := Finish(b, st, env, draws, register);
  }

  /** `groupwise_slr(bundles, ...)`: the loop above with the halfway
      registration built from `x0`. `draws(0)` drives the first pairing. */
  method GroupwiseSlr(bundles: seq<Bundle>, st: Settings, tools: Qbx.Tools, env: Env, draws: nat -> Pairing.Draws)
    returns (r: Result<Outcome>)
    ensures |bundles| <= 1 ==> r.Err? && r.error.kind == ValueError
    ensures r.Ok? ==> |bundles| >= 2
    ensures r.Ok? ==> |r.value.bundles| == |bundles| && |r.value.affs| == |bundles|
    ensures r.Ok? ==> forall i :: 0 <= i < |bundles| ==>
              r.value.bundles[i] == env.transform(Prepped(bundles[i], st, tools), r.value.affs[i])
    ensures r.Ok? ==>
              var d0 := GroupDistance(Preprocess(PreppedAll(bundles, st, tools), st, tools, env).centroids, env);
              d0.Ok? && Record(r.value.distances, d0.value, st.tol, st.maxIter)
    ensures r.Ok? && st.maxIter >= 1 ==> Engine.SetX0(st.x0).Ok?
    ensures r.Ok? && st.maxIter <= 0 ==>
              forall i :: 0 <= i < |bundles| ==> r.value.affs[i] == StartMatrix(Prepped(bundles[i], st, tools), env)
    ensures r.Ok? ==>
              var s0 := Preprocess(PreppedAll(bundles, st, tools), st, tools, env);
              var first := Pairing.GetUniquePairs(Pairing.IntCount(|bundles|), None, draws(0));
              var register := HalfwayRegistration(st.x0, env);
              && first.Ok? && Joint(register) && |s0.affs| == |s0.centroids| == |bundles|
              && FoldsTo(s0, first.value.0, draws, register, env, r.value.distances, r.value.affs)
  {
    HalfwayRegistrationFacts(st.x0, env);
    r := GroupwiseWith(bundles, st, tools, env, draws, HalfwayRegistration(st.x0, env));
  }
}

=== FILE: halfway.dfy ===
/** The halfway split of one optimized parameter vector into two
    complementary half-transforms, one moving the static bundle and one
    moving the moving bundle into a common midpoint space.

    The source writes the split twice: in `JointBundleMinDistanceMetric.distance`
    (used while optimizing) and in `JointStreamlineRegistrationMap.__init__`
    (used on the result). Both are modelled as written and proved to agree. */
module Halfway {
  import opened External
  
  function Halve(v: Vector): (r: Vector)
    ensures |r| == |v| && forall i :: 0 <= i < |v| ==> r[i] == v[i] / 2.0
  {
    seq(|v|, i requires 0 <= i < |v| => v[i] / 2.0)
  }

  function HalveNegated(v: Vector): (r: Vector)
    ensures |r| == |v| && forall i :: 0 <= i < |v| ==> r[i] == -v[i] / 2.0
  {
    seq(|v|, i requires 0 <= i < |v| => -v[i] / 2.0)
  }

  /** `(1 + s) / 2` */
  function ScaleUp(v: Vector): (r: Vector)
    ensures |r| == |v| && forall i :: 0 <= i < |v| ==> r[i] == (1.0 + v[i]) / 2.0
  {
    seq(|v|, i requires 0 <= i < |v| => (1.0 + v[i]) / 2.0)
  }

  /** `2 / (1 + s)`; numpy yields an infinity where `1 + s == 0`. */
  function ScaleDown(v: Vector): (r: Vector)
    requires forall i :: 0 <= i < |v| ==> 1.0 + v[i] != 0.0
    ensures |r| == |v| && forall i :: 0 <= i < |v| ==> r[i] == 2.0 / (1.0 + v[i])
  {
    seq(|v|, i requires 0 <= i < |v| => 2.0 / (1.0 + v[i]))
  }

  /** The two scale halves multiply to one. */
  lemma ScaleHalvesInverse(s: real)
    requires 1.0 + s != 0.0
    ensures ((1.0 + s) / 2.0) * (2.0 / (1.0 + s)) == 1.0
  {
  }

  predicate IsScaleIndex(i: int) {
    6 <= i < 9
  }

  /** No scale entry equals -1, the only input for which `2 / (1 + s)` is
      not a finite number. */
  predicate FiniteSplit(x: Vector) {
    forall i :: 0 <= i < |x| && IsScaleIndex(i) ==> 1.0 + x[i] != 0.0
  }

  /** Python's clamping of a slice bound `k` to a length `n`. */
  function Cap(k: nat, n: nat): nat {
    if k <= n then k else n
  }

  /** Entry `i` of the first half: `(1 + x[i]) / 2` for a scale, `x[i] / 2`
      otherwise. */
  predicate FirstHalfEntries(x: Vector, x1: Vector) {
    && |x1| <= |x|
    && forall i :: 0 <= i < |x1| ==> x1[i] == if IsScaleIndex(i) then (1.0 + x[i]) / 2.0 else x[i] / 2.0
  }

  /** Entry `i` of the second half: `2 / (1 + x[i])` for a scale, `-x[i] / 2`
      otherwise. */
  predicate SecondHalfEntries(x: Vector, x2: Vector)
    requires FiniteSplit(x)
  {
    && |x2| <= |x|
    && forall i :: 0 <= i < |x2| ==> x2[i] == if IsScaleIndex(i) then 2.0 / (1.0 + x[i]) else -x[i] / 2.0
  }

  /** The two halves undo each other: non-scale entries are exact negatives,
      each the half of the original entry, and the two halves of a scale
      multiply to one. */
  predicate Complementary(x: Vector, x1: Vector, x2: Vector) {
    && |x1| == |x2|
    && |x1| <= |x|
    && (forall i :: 0 <= i < |x1| && !IsScaleIndex(i) ==> x1[i] == x[i] / 2.0 && x2[i] == -x1[i])
    && (forall i :: 0 <= i < |x1| && IsScaleIndex(i) ==> x1[i] == (1.0 + x[i]) / 2.0 && x1[i] * x2[i] == 1.0)
  }

  lemma EntriesAreComplementary(x: Vector, x1: Vector, x2: Vector)
    requires FiniteSplit(x)
    requires FirstHalfEntries(x, x1) && SecondHalfEntries(x, x2) && |x1| == |x2|
    ensures Complementary(x, x1, x2)
  {
    forall i | 0 <= i < |x1| && IsScaleIndex(i)
      ensures x1[i] * x2[i] == 1.0
    {
      ScaleHalvesInverse(x[i]);
    }
  }

  /** `JointStreamlineRegistrationMap.__init__`: `trans, angles, scale,
      shear = xopt[:3], xopt[3:6], xopt[6:9], xopt[9:]`, then
      `x1 = (trans/2, angles/2, (1+scale)/2, shear/2)` and
      `x2 = (-trans/2, -angles/2, 2/(1+scale), -shear/2)`. */
  function MapSplit(x: Vector): (r: (Vector, Vector))
    requires FiniteSplit(x)
    ensures |r.0| == |r.1| == |x|
    ensures FirstHalfEntries(x, r.0) && SecondHalfEntries(x, r.1)
    ensures Complementary(x, r.0, r.1)
  {
    var n := |x|;
    var x1 := Halve(x[..Cap(3, n)]) + Halve(x[Cap(3, n)..Cap(6, n)]) + ScaleUp(x[Cap(6, n)..Cap(9, n)]) + Halve(x[Cap(9, n)..]);
    var x2 := HalveNegated(x[..Cap(3, n)]) + HalveNegated(x[Cap(3, n)..Cap(6, n)])
              + ScaleDown(x[Cap(6, n)..Cap(9, n)]) + HalveNegated(x[Cap(9, n)..]);
    MapFirstEntries(x);
    MapSecondEntries(x);
    EntriesAreComplementary(x, x1, x2);
    (x1, x2)
  }

  lemma MapFirstEntries(x: Vector)
    ensures var n := |x|;
      FirstHalfEntries(x, Halve(x[..Cap(3, n)]) + Halve(x[Cap(3, n)..Cap(6, n)]) + ScaleUp(x[Cap(6, n)..Cap(9, n)]) + Halve(x[Cap(9, n)..]))
  {
    var n := |x|;
    var a, b, c, d := Halve(x[..Cap(3, n)]), Halve(x[Cap(3, n)..Cap(6, n)]), ScaleUp(x[Cap(6, n)..Cap(9, n)]), Halve(x[Cap(9, n)..]);
    var x1 := a + b + c + d;
    assert |x1| == n;
    forall i | 0 <= i < n
      ensures x1[i] == if IsScaleIndex(i) then (1.0 + x[i]) / 2.0 else x[i] / 2.0
    {
      if i < Cap(3, n) { assert x1[i] == a[i]; }
      else if i < Cap(6, n) { assert x1[i] == b[i - Cap(3, n)]; }
      else if i < Cap(9, n) { assert x1[i] == c[i - Cap(6, n)]; }
      else { assert x1[i] == d[i - Cap(9, n)]; }
    }
  }

  lemma MapSecondEntries(x: Vector)
    requires FiniteSplit(x)
    ensures var n := |x|;
      && (forall i :: Cap(6, n) <= i < Cap(9, n) ==> 1.0 + x[i] != 0.0)
      && SecondHalfEntries(x, HalveNegated(x[..Cap(3, n)]) + HalveNegated(x[Cap(3, n)..Cap(6, n)])
                              + ScaleDown(x[Cap(6, n)..Cap(9, n)]) + HalveNegated(x[Cap(9, n)..]))
  {
    var n := |x|;
    var a, b := HalveNegated(x[..Cap(3, n)]), HalveNegated(x[Cap(3, n)..Cap(6, n)]);
    var c, d := ScaleDown(x[Cap(6, n)..Cap(9, n)]), HalveNegated(x[Cap(9, n)..]);
    var x2 := a + b + c + d;
    assert |x2| == n;
    forall i | 0 <= i < n
      ensures x2[i] == if IsScaleIndex(i) then 2.0 / (1.0 + x[i]) else -x[i] / 2.0
    {
      if i < Cap(3, n) { assert x2[i] == a[i]; }
      else if i < Cap(6, n) { assert x2[i] == b[i - Cap(3, n)]; }
      else if i < Cap(9, n) { assert x2[i] == c[i - Cap(6, n)]; }
      else { assert x2[i] == d[i - Cap(9, n)]; }
    }
  }

  /** `JointBundleMinDistanceMetric.distance`: `x_static = (xopt[0:6]/2,
      (1+xopt[6:9])/2, xopt[9:12]/2)` and `x_moving = (-xopt[0:6]/2,
      2/(1+xopt[6:9]), -xopt[9:12]/2)`; entries past the twelfth are
      ignored. */
  function MetricSplit(x: Vector): (r: (Vector, Vector))
    requires FiniteSplit(x)
    ensures |r.0| == |r.1| == Cap(12, |x|)
    ensures FirstHalfEntries(x, r.0) && SecondHalfEntries(x, r.1)
    ensures Complementary(x, r.0, r.1)
  {
    var n := |x|;
    var x1 := Halve(x[..Cap(6, n)]) + ScaleUp(x[Cap(6, n)..Cap(9, n)]) + Halve(x[Cap(9, n)..Cap(12, n)]);
    var x2 := HalveNegated(x[..Cap(6, n)]) + ScaleDown(x[Cap(6, n)..Cap(9, n)]) + HalveNegated(x[Cap(9, n)..Cap(12, n)]);
    MetricFirstEntries(x);
    MetricSecondEntries(x);
    EntriesAreComplementary(x, x1, x2);
    (x1, x2)
  }

  lemma MetricFirstEntries(x: Vector)
    ensures var n := |x|;
      FirstHalfEntries(x, Halve(x[..Cap(6, n)]) + ScaleUp(x[Cap(6, n)..Cap(9, n)]) + Halve(x[Cap(9, n)..Cap(12, n)]))
  {
    var n := |x|;
    var a, b, c := Halve(x[..Cap(6, n)]), ScaleUp(x[Cap(6, n)..Cap(9, n)]), Halve(x[Cap(9, n)..Cap(12, n)]);
    var x1 := a + b + c;
    assert |x1| == Cap(12, n);
    forall i | 0 <= i < Cap(12, n)
      ensures x1[i] == if IsScaleIndex(i) then (1.0 + x[i]) / 2.0 else x[i] / 2.0
    {
      if i < Cap(6, n) { assert x1[i] == a[i]; }
      else if i < Cap(9, n) { assert x1[i] == b[i - Cap(6, n)]; }
      else { assert x1[i] == c[i - Cap(9, n)]; }
    }
  }

  lemma MetricSecondEntries(x: Vector)
    requires FiniteSplit(x)
    ensures var n := |x|;
      && (forall i :: Cap(6, n) <= i < Cap(9, n) ==> 1.0 + x[i] != 0.0)
      && SecondHalfEntries(x, HalveNegated(x[..Cap(6, n)]) + ScaleDown(x[Cap(6, n)..Cap(9, n)]) + HalveNegated(x[Cap(9, n)..Cap(12, n)]))
  {
    var n := |x|;
    var a, b, c := HalveNegated(x[..Cap(6, n)]), ScaleDown(x[Cap(6, n)..Cap(9, n)]), HalveNegated(x[Cap(9, n)..Cap(12, n)]);
    var x2 := a + b + c;
    assert |x2| == Cap(12, n);
    forall i | 0 <= i < Cap(12, n)
      ensures x2[i] == if IsScaleIndex(i) then 2.0 / (1.0 + x[i]) else -x[i] / 2.0
    {
      if i < Cap(6, n) { assert x2[i] == a[i]; }
      else if i < Cap(9, n) { assert x2[i] == b[i - Cap(6, n)]; }
      else { assert x2[i] == c[i - Cap(9, n)]; }
    }
  }

  /** The metric's split (used while optimizing) and the map's split (used
      on the result) agree on every vector of at most 12 entries. */
  lemma SplitsAgree(x: Vector)
    requires FiniteSplit(x) && |x| <= 12
    ensures MetricSplit(x) == MapSplit(x)
  {
    var (m1, m2) := MetricSplit(x);
    var (p1, p2) := MapSplit(x);
    assert m1 == p1;
    assert m2 == p2;
  }

  /** The first half alone determines the optimized vector: doubling the
      non-scale entries and mapping each scale half `h` to `2h - 1` recovers
      `x`. */
  function Unsplit(x1: Vector): (x: Vector)
    ensures |x| == |x1|
  {
    seq(|x1|, i requires 0 <= i < |x1| => if IsScaleIndex(i) then 2.0 * x1[i] - 1.0 else 2.0 * x1[i])
  }

  lemma UnsplitRecovers(x: Vector)
    requires FiniteSplit(x)
    ensures Unsplit(MapSplit(x).0) == x
  {
  }

  /** Every entry is what the identity transform carries there: 1 for a
      scale, 0 for a translation, angle or shear. */
  predicate IsIdentityVector(x: Vector) {
    forall i :: 0 <= i < |x| ==> x[i] == if IsScaleIndex(i) then 1.0 else 0.0
  }

  /** Splitting the identity vector gives the identity on both sides: the
      halfway transforms of an already aligned pair do nothing. */
  lemma IdentitySplitsIntoIdentities(x: Vector)
    requires IsIdentityVector(x)
    ensures FiniteSplit(x) && MapSplit(x) == (x, x)
  {
    var (x1, x2) := MapSplit(x);
    forall i | 0 <= i < |x| ensures x1[i] == x[i] && x2[i] == x[i] {
      if IsScaleIndex(i) {
        assert x1[i] == (1.0 + 1.0) / 2.0;
        assert x2[i] == 2.0 / (1.0 + 1.0);
      }
    }
    assert x1 == x;
    assert x2 == x;
  }
}

=== FILE: metrics.dfy ===
/** The bundle cost functions over an MDF distance matrix: the minimum cost
    `0.25 * (mean of column minima + mean of row minima)^2` of
    `bundle_min_distance` and `group_distance`, the total of
    `bundle_sum_distance`, and the `distance` of each metric class. */
module Metrics {
  import opened Wrappers
  import opened External
  import opened Numeric
  import Seqs
  import Codec
  import Halfway

  /** The number of columns; a matrix without rows has none. */
  function Width(d: DistanceMatrix): nat {
    if d == [] then 0 else |d[0]|
  }

  /** Both dimensions are non-zero, so `np.min` along either axis is defined. */
  predicate NonEmpty(d: DistanceMatrix) {
    |d| > 0 && |d[0]| > 0
  }

  predicate NonNegative(d: DistanceMatrix) {
    forall i, j :: 0 <= i < |d| && 0 <= j < |d[i]| ==> d[i][j] >= 0.0
  }

  /** Picks entry `j` of a row. */
  function Entry(j: nat): seq<real> -> real {
    row => if j < |row| then row[j] else 0.0
  }

  /** Column `j`: `d[:, j]`. */
  function Column(d: DistanceMatrix, j: nat): (c: seq<real>)
    requires j < Width(d)
    ensures |c| == |d| && forall i :: 0 <= i < |d| ==> c[i] == d[i][j]
  {
    Seqs.Map(d, Entry(j))
  }

  function Transpose(d: DistanceMatrix): (t: DistanceMatrix)
    ensures |t| == Width(d)
    ensures forall j :: 0 <= j < |t| ==> |t[j]| == |d|
    ensures forall j, i :: 0 <= j < |t| && 0 <= i < |d| ==> t[j][i] == d[i][j]
  {
    seq(Width(d), j requires 0 <= j < Width(d) => Column(d, j))
  }

  /** `np.min` of one row; only ever applied to non-empty rows. */
  function RowMin(row: seq<real>): real {
    if row == [] then 0.0 else Min(row)
  }

  /** `np.min(d, axis=1)`: one minimum per row. */
  function RowMins(d: DistanceMatrix): (m: seq<real>)
    ensures |m| == |d|
  {
    Seqs.Map(d, RowMin)
  }

  /** `np.min(d, axis=0)`: one minimum per column. */
  function ColMins(d: DistanceMatrix): (m: seq<real>)
    ensures |m| == Width(d)
  {
    RowMins(Transpose(d))
  }

  /** `0.25 * (a + b) ** 2`. */
  function Combine(a: real, b: real): (r: real)
    ensures r >= 0.0
  {
    var s := a + b;
    0.25 * (s * s)
  }

  lemma CombineZero(a: real, b: real)
    requires a + b == 0.0
    ensures Combine(a, b) == 0.0
  {
  }

  lemma CombineSymmetric(a: real, b: real)
    ensures Combine(a, b) == Combine(b, a)
  {
    assert a + b == b + a;
  }

  /** The minimum-distance cost of `bundle_min_distance` and of each entry of
      `group_distance`: a quarter of the squared sum of the mean column
      minimum and the mean row minimum. */
  function MinCost(d: DistanceMatrix): (r: real)
    requires NonEmpty(d)
    ensures r >= 0.0
  {
    Combine(Mean(ColMins(d)), Mean(RowMins(d)))
  }

  /** The cost as the source computes it: `np.min` of an empty axis raises. */
  function MinCostOf(d: DistanceMatrix): (r: Result<real>)
    ensures r.Ok? <==> NonEmpty(d)
    ensures r.Err? ==> r.error.kind == ValueError
    ensures r.Ok? ==> r.value == MinCost(d)
  {
    if NonEmpty(d) then Ok(MinCost(d))
    else Fail(ValueError, "zero-size array to reduction operation minimum which has no identity")
  }

  /** `np.sum(d)`: the total of all entries, row by row. */
  function SumCost(d: DistanceMatrix): real {
    Sum(Seqs.Map(d, Sum))
  }

  // ---------------------------------------------------------------------
  // Properties of the minimum cost

  lemma TransposeTwice(d: DistanceMatrix)
    requires NonEmpty(d)
    ensures NonEmpty(Transpose(d)) && Transpose(Transpose(d)) == d
  {
    var t := Transpose(d);
    var tt := Transpose(t);
    assert |tt| == |d|;
    forall i | 0 <= i < |d| ensures tt[i] == d[i] {
      assert |tt[i]| == |d[i]|;
    }
  }

  /** Swapping the roles of the two bundles leaves the cost unchanged: the
      formula treats rows and columns alike. */
  lemma MinCostTranspose(d: DistanceMatrix)
    requires NonEmpty(d)
    ensures NonEmpty(Transpose(d)) && MinCost(Transpose(d)) == MinCost(d)
  {
    TransposeTwice(d);
    assert ColMins(Transpose(d)) == RowMins(d);
    assert RowMins(Transpose(d)) == ColMins(d);
    CombineSymmetric(Mean(ColMins(d)), Mean(RowMins(d)));
  }

  /** A row permutation keeps the shape. */
  lemma RowPermutationShape(d: DistanceMatrix, e: DistanceMatrix)
    requires NonEmpty(d) && multiset(d) == multiset(e)
    ensures NonEmpty(e) && |e| == |d| && Width(e) == Width(d)
  {
    assert |e| == |multiset(e)| == |multiset(d)| == |d|;
    assert e[0] in multiset(d);
  }

  /** Permuting the rows permutes the column entries without changing any
      column's minimum. */
  lemma ColMinsRowPermutation(d: DistanceMatrix, e: DistanceMatrix)
    requires NonEmpty(d) && multiset(d) == multiset(e)
    ensures ColMins(e) == ColMins(d)
  {
    RowPermutationShape(d, e);
    var te, td := Transpose(e), Transpose(d);
    forall j | 0 <= j < Width(d) ensures RowMin(te[j]) == RowMin(td[j]) {
      Seqs.MapPermutation(e, d, Entry(j));
      assert te[j] == Seqs.Map(e, Entry(j)) && td[j] == Seqs.Map(d, Entry(j));
      forall x ensures x in te[j] <==> x in td[j] {
        assert x in te[j] <==> x in multiset(te[j]);
        assert x in td[j] <==> x in multiset(td[j]);
      }
      MinSameElements(te[j], td[j]);
    }
  }

  /** Permuting the streamlines of the first bundle (the rows) leaves the
      cost unchanged. */
  lemma MinCostRowPermutation(d: DistanceMatrix, e: DistanceMatrix)
    requires NonEmpty(d) && multiset(d) == multiset(e)
    ensures NonEmpty(e) && MinCost(e) == MinCost(d)
  {
    RowPermutationShape(d, e);
    ColMinsRowPermutation(d, e);
    Seqs.MapPermutation(e, d, RowMin);
    SumPermutation(RowMins(e), RowMins(d));
  }

  /** Permuting the streamlines of the second bundle (the columns) leaves
      the cost unchanged. */
  lemma MinCostColumnPermutation(d: DistanceMatrix, e: DistanceMatrix)
    requires NonEmpty(d) && multiset(Transpose(d)) == multiset(Transpose(e))
    ensures NonEmpty(e) && MinCost(e) == MinCost(d)
  {
    MinCostTranspose(d);
    RowPermutationShape(Transpose(d), Transpose(e));
    assert NonEmpty(e);
    MinCostRowPermutation(Transpose(d), Transpose(e));
    MinCostTranspose(e);
  }

  /** Every streamline of each bundle lies exactly on some streamline of the
      other: each row and each column holds a zero distance. */
  predicate Aligned(d: DistanceMatrix) {
    && (forall i :: 0 <= i < |d| ==> 0.0 in d[i])
    && (forall j :: 0 <= j < Width(d) ==> 0.0 in Column(d, j))
  }

  /** On a non-negative matrix the minimum of a row is zero exactly when the
      row holds a zero. */
  lemma RowMinZero(row: seq<real>)
    requires |row| > 0 && forall k :: 0 <= k < |row| ==> row[k] >= 0.0
    ensures RowMin(row) >= 0.0
    ensures RowMin(row) == 0.0 <==> 0.0 in row
  {
  }

  /** A sum of non-negative terms is zero exactly when every term is. */
  lemma {:induction false} SumZeroIff(s: seq<real>)
    requires forall k :: 0 <= k < |s| ==> s[k] >= 0.0
    ensures Sum(s) == 0.0 <==> forall k :: 0 <= k < |s| ==> s[k] == 0.0
    decreases |s|
  {
    if s != [] {
      SumZeroIff(s[1..]);
      SumNonNegative(s[1..]);
      if Sum(s) == 0.0 {
        assert s[0] == 0.0;
        forall k | 0 <= k < |s| ensures s[k] == 0.0 {
          if k > 0 { assert s[k] == s[1..][k - 1]; }
        }
      }
      if forall k :: 0 <= k < |s| ==> s[k] == 0.0 {
        SumZeros(s);
      }
    }
  }

  /** Dividing by a positive count keeps the sign and the zeros. */
  lemma DivideByCount(x: real, n: real)
    requires n > 0.0
    ensures x / n >= 0.0 <==> x >= 0.0
    ensures x / n == 0.0 <==> x == 0.0
  {
    var q := x / n;
    assert x == q * n;
  }

  /** The mean of the minima of a non-negative matrix's rows is
      non-negative, and zero exactly when every row holds a zero. */
  lemma MeanRowMinsZero(d: DistanceMatrix)
    requires NonEmpty(d) && NonNegative(d)
    ensures Mean(RowMins(d)) >= 0.0
    ensures Mean(RowMins(d)) == 0.0 <==> forall i :: 0 <= i < |d| ==> 0.0 in d[i]
  {
    var m := RowMins(d);
    forall i | 0 <= i < |d| ensures m[i] >= 0.0 && (m[i] == 0.0 <==> 0.0 in d[i]) {
      RowMinZero(d[i]);
    }
    SumNonNegative(m);
    SumZeroIff(m);
    DivideByCount(Sum(m), |m| as real);
  }

  lemma TransposeNonNegative(d: DistanceMatrix)
    requires NonEmpty(d) && NonNegative(d)
    ensures NonEmpty(Transpose(d)) && NonNegative(Transpose(d))
  {
  }

  /** On a non-negative matrix the quantity the cost squares, the mean
      column minimum plus the mean row minimum, is zero exactly when the two
      bundles are aligned. */
  lemma MeanMinimaZeroIffAligned(d: DistanceMatrix)
    requires NonEmpty(d) && NonNegative(d)
    ensures Mean(ColMins(d)) + Mean(RowMins(d)) >= 0.0
    ensures Mean(ColMins(d)) + Mean(RowMins(d)) == 0.0 <==> Aligned(d)
  {
    var t := Transpose(d);
    TransposeNonNegative(d);
    MeanRowMinsZero(d);
    MeanRowMinsZero(t);
    assert forall j :: 0 <= j < |t| ==> t[j] == Column(d, j);
  }

  /** Aligned bundles cost nothing. */
  lemma AlignedCostsNothing(d: DistanceMatrix)
    requires NonEmpty(d) && NonNegative(d) && Aligned(d)
    ensures MinCost(d) == 0.0
  {
    MeanMinimaZeroIffAligned(d);
    CombineZero(Mean(ColMins(d)), Mean(RowMins(d)));
  }

  // ---------------------------------------------------------------------
  // Properties of the sum cost

  /** Entry-by-entry sum of two sequences of the same length. */
  function AddSeqs(a: seq<real>, b: seq<real>): (c: seq<real>)
    requires |a| == |b|
    ensures |c| == |a| && forall k :: 0 <= k < |a| ==> c[k] == a[k] + b[k]
  {
    if a == [] then [] else [a[0] + b[0]] + AddSeqs(a[1..], b[1..])
  }

  /** Adding two sequences entry by entry adds their sums. */
  lemma {:induction false} SumAddSeqs(a: seq<real>, b: seq<real>)
    requires |a| == |b|
    ensures Sum(AddSeqs(a, b)) == Sum(a) + Sum(b)
    decreases |a|
  {
    if a != [] {
      SumAddSeqs(a[1..], b[1..]);
    }
  }

  function Zeros(w: nat): (z: seq<real>)
    ensures |z| == w && forall k :: 0 <= k < w ==> z[k] == 0.0
  {
    seq(w, k => 0.0)
  }

  /** The column totals of a matrix whose rows all have `w` entries,
      accumulated row by row. */
  function ColumnTotals(d: DistanceMatrix, w: nat): (c: seq<real>)
    requires forall i :: 0 <= i < |d| ==> |d[i]| == w
    ensures |c| == w
  {
    if d == [] then Zeros(w) else AddSeqs(d[0], ColumnTotals(d[1..], w))
  }

  /** Entry `j` of the accumulated totals is the sum of column `j`. */
  lemma {:induction false} ColumnTotalsEntries(d: DistanceMatrix, w: nat, j: nat)
    requires forall i :: 0 <= i < |d| ==> |d[i]| == w
    requires j < w
    ensures ColumnTotals(d, w)[j] == Sum(Seqs.Map(d, Entry(j)))
    decreases |d|
  {
    if d != [] {
      var rest: DistanceMatrix := d[1..];
      ColumnTotalsEntries(rest, w, j);
      var col := Seqs.Map(d, Entry(j));
      assert col[1..] == Seqs.Map(rest, Entry(j));
      assert Sum(col) == col[0] + Sum(col[1..]);
    }
  }

  /** The column totals add up to the row totals. */
  lemma {:induction false} ColumnTotalsSum(d: DistanceMatrix, w: nat)
    requires forall i :: 0 <= i < |d| ==> |d[i]| == w
    ensures Sum(ColumnTotals(d, w)) == SumCost(d)
    decreases |d|
  {
    if d == [] {
      SumZeros(Zeros(w));
    } else {
      var rest: DistanceMatrix := d[1..];
      ColumnTotalsSum(rest, w);
      SumAddSeqs(d[0], ColumnTotals(rest, w));
      assert Seqs.Map(d, Sum) == [Sum(d[0])] + Seqs.Map(rest, Sum);
    }
  }

  /** The sum cost does not depend on which bundle is the first. */
  lemma SumCostTranspose(d: DistanceMatrix)
    ensures SumCost(Transpose(d)) == SumCost(d)
  {
    var w := Width(d);
    var t := Transpose(d);
    ColumnTotalsSum(d, w);
    forall j | 0 <= j < w ensures Seqs.Map(t, Sum)[j] == ColumnTotals(d, w)[j] {
      ColumnTotalsEntries(d, w, j);
      assert t[j] == Seqs.Map(d, Entry(j));
    }
    assert Seqs.Map(t, Sum) == ColumnTotals(d, w);
  }

  /** The sum cost does not depend on the order of the rows. */
  lemma SumCostRowPermutation(d: DistanceMatrix, e: DistanceMatrix)
    requires multiset(d) == multiset(e)
    ensures SumCost(e) == SumCost(d)
  {
    Seqs.MapPermutation(e, d, Sum);
    SumPermutation(Seqs.Map(e, Sum), Seqs.Map(d, Sum));
  }

  /** Nor on the order of the columns. */
  lemma SumCostColumnPermutation(d: DistanceMatrix, e: DistanceMatrix)
    requires multiset(Transpose(d)) == multiset(Transpose(e))
    requires Width(d) > 0 && Width(e) > 0
    ensures SumCost(e) == SumCost(d)
  {
    SumCostTranspose(d);
    SumCostTranspose(e);
    SumCostRowPermutation(Transpose(d), Transpose(e));
  }

  /** A non-negative matrix has a non-negative total. */
  lemma SumCostNonNegative(d: DistanceMatrix)
    requires NonNegative(d)
    ensures SumCost(d) >= 0.0
  {
    var m := Seqs.Map(d, Sum);
    forall i | 0 <= i < |d| ensures m[i] >= 0.0 {
      SumNonNegative(d[i]);
    }
    SumNonNegative(m);
  }

  // ---------------------------------------------------------------------
  // The metrics' `distance`

  /** `bundle_min_distance(t, static, moving)` (and the threaded
      `bundle_min_distance_fast`, whose kernel computes the same cost):
      move the moving bundle by `compose_matrix44(t)`, then take the minimum
      cost of the MDF matrix. */
  function BundleMinDistance(t: Vector, staticBundle: Bundle, moving: Bundle, env: Env): (r: Result<real>)
    ensures !Codec.ValidSize(|t|) ==> r.Err? && r.error.kind == ValueError
    ensures r.Err? ==> r.error.kind == ValueError
    ensures r.Ok? ==> r.value >= 0.0
    ensures Codec.ValidSize(|t|) ==>
      (r.Ok? <==> NonEmpty(env.mdf(staticBundle, env.transform(moving, Codec.ComposeMatrix44(t, env).value))))
    ensures r.Ok? ==>
      var d := env.mdf(staticBundle, env.transform(moving, Codec.ComposeMatrix44(t, env).value));
      NonEmpty(d) && r.value == MinCost(d)
  {
    var aff :- Codec.ComposeMatrix44(t, env);
    MinCostOf(env.mdf(staticBundle, env.transform(moving, aff)))
  }

  /** `bundle_sum_distance(t, static, moving)`: the same move, then the total
      of the MDF matrix; `np.sum` of an empty matrix is 0, so only the
      parameter length can fail. */
  function BundleSumDistance(t: Vector, staticBundle: Bundle, moving: Bundle, env: Env): (r: Result<real>)
    ensures r.Ok? <==> Codec.ValidSize(|t|)
    ensures r.Err? ==> r.error.kind == ValueError
    ensures r.Ok? ==> r.value == SumCost(env.mdf(staticBundle, env.transform(moving, Codec.ComposeMatrix44(t, env).value)))
  {
    var aff :- Codec.ComposeMatrix44(t, env);
    Ok(SumCost(env.mdf(staticBundle, env.transform(moving, aff))))
  }

  /** `bundle_min_distance_asymmetric_fast`: the same move, then the
      asymmetric kernel. */
  function AsymmetricDistance(t: Vector, staticBundle: Bundle, moving: Bundle, env: Env): (r: Result<real>)
    ensures r.Ok? <==> Codec.ValidSize(|t|)
    ensures r.Err? ==> r.error.kind == ValueError
    ensures r.Ok? ==> r.value == env.minAsymmetric(staticBundle, env.transform(moving, Codec.ComposeMatrix44(t, env).value))
  {
    var aff :- Codec.ComposeMatrix44(t, env);
    Ok(env.minAsymmetric(staticBundle, env.transform(moving, aff)))
  }

  /** The cost of a pair of halfway transforms: move the static bundle by the
      first half, then measure the moving bundle moved by the second half
      against it. */
  function HalfwayCost(x1: Vector, x2: Vector, staticBundle: Bundle, moving: Bundle, env: Env): (r: Result<real>)
    ensures r.Ok? ==> Codec.ValidSize(|x1|) && Codec.ValidSize(|x2|) && r.value >= 0.0
    ensures !Codec.ValidSize(|x1|) ==> r.Err? && r.error.kind == ValueError
    ensures Codec.ValidSize(|x1|) ==>
      r == BundleMinDistance(x2, env.transform(staticBundle, Codec.ComposeMatrix44(x1, env).value), moving, env)
  {
    var affStatic :- Codec.ComposeMatrix44(x1, env);
    BundleMinDistance(x2, env.transform(staticBundle, affStatic), moving, env)
  }

  /** `JointBundleMinDistanceMetric.distance(xopt)`: split `xopt` into the two
      halfway vectors (entries past the twelfth are ignored) and take the
      halfway cost. A scale of -1 makes `2 / (1 + s)` infinite. */
  function JointDistance(xopt: Vector, staticBundle: Bundle, moving: Bundle, env: Env): (r: Result<real>)
    ensures !Halfway.FiniteSplit(xopt) ==> r.Err? && r.error.kind == NonFinite
    ensures Halfway.FiniteSplit(xopt) ==> r == HalfwayCost(Halfway.MetricSplit(xopt).0, Halfway.MetricSplit(xopt).1, staticBundle, moving, env)
    ensures Halfway.FiniteSplit(xopt) && !Codec.ValidSize(Halfway.Cap(12, |xopt|)) ==> r.Err? && r.error.kind == ValueError
    ensures r.Ok? ==> r.value >= 0.0
  {
    if !Halfway.FiniteSplit(xopt) then
      Fail(NonFinite, "divide by zero in 2 / (1 + scale)")
    else
      var (x1, x2) := Halfway.MetricSplit(xopt);
      HalfwayCost(x1, x2, staticBundle, moving, env)
  }

  /** The cost the optimizer minimizes through the joint metric is the cost
      of the two transforms the resulting registration map applies. */
  lemma JointDistanceUsesMapHalves(xopt: Vector, staticBundle: Bundle, moving: Bundle, env: Env)
    requires Halfway.FiniteSplit(xopt) && |xopt| <= 12
    ensures JointDistance(xopt, staticBundle, moving, env)
         == HalfwayCost(Halfway.MapSplit(xopt).0, Halfway.MapSplit(xopt).1, staticBundle, moving, env)
  {
    Halfway.SplitsAgree(xopt);
  }

  /** `metric.distance(xopt)` for each metric class, once set up on the
      given bundles. */
  function MetricDistance(kind: MetricKind, xopt: Vector, staticBundle: Bundle, moving: Bundle, env: Env): (r: Result<real>)
    ensures kind != JointBundleMin && !Codec.ValidSize(|xopt|) ==> r.Err? && r.error.kind == ValueError
    ensures kind in {BundleSumMatrix, BundleMinAsymmetric} ==> (r.Ok? <==> Codec.ValidSize(|xopt|))
    ensures r.Ok? && kind in {BundleMin, BundleMinMatrix, JointBundleMin} ==> r.value >= 0.0
    ensures kind in {BundleMin, BundleMinMatrix} ==> r == BundleMinDistance(xopt, staticBundle, moving, env)
    ensures kind == BundleMinAsymmetric ==> r == AsymmetricDistance(xopt, staticBundle, moving, env)
    ensures kind == BundleSumMatrix ==> r == BundleSumDistance(xopt, staticBundle, moving, env)
    ensures kind == JointBundleMin ==> r == JointDistance(xopt, staticBundle, moving, env)
  {
    match kind
    case BundleMin => BundleMinDistance(xopt, staticBundle, moving, env)
    case BundleMinMatrix => BundleMinDistance(xopt, staticBundle, moving, env)
    case BundleMinAsymmetric => AsymmetricDistance(xopt, staticBundle, moving, env)
    case BundleSumMatrix => BundleSumDistance(xopt, staticBundle, moving, env)
    case JointBundleMin => JointDistance(xopt, staticBundle, moving, env)
  }

  /** A transform that lays the moving bundle exactly onto the static one
      (every streamline of each on some streamline of the other) costs
      nothing under the minimum-distance metrics. */
  lemma MovedAlignedCostsNothing(t: Vector, staticBundle: Bundle, moving: Bundle, env: Env)
    requires Codec.ValidSize(|t|)
    requires NonEmpty(env.mdf(staticBundle, env.transform(moving, Codec.ComposeMatrix44(t, env).value))) && NonNegative(env.mdf(staticBundle, env.transform(moving, Codec.ComposeMatrix44(t, env).value)))
    requires Aligned(env.mdf(staticBundle, env.transform(moving, Codec.ComposeMatrix44(t, env).value)))
    ensures BundleMinDistance(t, staticBundle, moving, env) == Ok(0.0)
  {
    AlignedCostsNothing(env.mdf(staticBundle, env.transform(moving, Codec.ComposeMatrix44(t, env).value)));
  }

  /** The sum metric never goes below zero on non-negative distances. */
  lemma SumDistanceNonNegative(t: Vector, staticBundle: Bundle, moving: Bundle, env: Env)
    requires Codec.ValidSize(|t|)
    requires NonNegative(env.mdf(staticBundle, env.transform(moving, Codec.ComposeMatrix44(t, env).value)))
    ensures BundleSumDistance(t, staticBundle, moving, env).Ok?
    ensures BundleSumDistance(t, staticBundle, moving, env).value >= 0.0
  {
    SumCostNonNegative(env.mdf(staticBundle, env.transform(moving, Codec.ComposeMatrix44(t, env).value)));
  }
}

=== FILE: multi_io.dfy ===
/** The string and path logic of the workflow input/output helpers:
    `common_start`, `slash_to_under`, `concatenate_inputs` and the part of
    `connect_output_paths` that does not touch the file system. */
module MultiIo {
  import opened Wrappers
  import Seqs
  import Paths

  type Path = Paths.Path

  // ---------------------------------------------------------------------
  // common_start, slash_to_under

  /** `common_start(sa, sb)`: the characters both strings share from the
      start, up to the first mismatch or the end of the shorter one. */
  function CommonStart(a: string, b: string): (r: string)
    ensures r <= a && r <= b
    ensures |r| < |a| && |r| < |b| ==> a[|r|] != b[|r|]
  {
    if a == [] || b == [] || a[0] != b[0] then ""
    else [a[0]] + CommonStart(a[1..], b[1..])
  }

  /** No common prefix is longer than `common_start`'s: it is the longest. */
  lemma {:induction false} CommonStartLongest(a: string, b: string, p: string)
    requires p <= a && p <= b
    ensures p <= CommonStart(a, b)
    decreases |p|
  {
    if p != [] {
      CommonStartLongest(a[1..], b[1..], p[1..]);
      assert CommonStart(a, b) == [a[0]] + CommonStart(a[1..], b[1..]);
    }
  }

  /** `dir_str.replace("/", "_")`. */
  function SlashToUnder(s: string): (r: string)
    ensures |r| == |s|
    ensures forall i :: 0 <= i < |s| ==> r[i] == (if s[i] == '/' then '_' else s[i])
  {
    if s == [] then ""
    else [if s[0] == '/' then '_' else s[0]] + SlashToUnder(s[1..])
  }

  /** The result holds no slash, a string without slashes is returned as it
      is, and replacing twice is replacing once. */
  lemma SlashToUnderFacts(s: string)
    ensures '/' !in SlashToUnder(s)
    ensures '/' !in s ==> SlashToUnder(s) == s
    ensures SlashToUnder(SlashToUnder(s)) == SlashToUnder(s)
  {
    var r := SlashToUnder(s);
    assert forall i :: 0 <= i < |r| ==> r[i] != '/';
  }

  // ---------------------------------------------------------------------
  // concatenate_inputs

  /** The number of tuples `zip(*lists)` yields: the shortest length, and
      none at all when there is no list. */
  function ZipLength(lists: seq<seq<string>>): (n: nat)
    ensures forall i :: 0 <= i < |lists| ==> n <= |lists[i]|
    ensures |lists| > 0 ==> exists i :: 0 <= i < |lists| && |lists[i]| == n
  {
    if lists == [] then 0 else MinSize(lists)
  }

  function MinSize(lists: seq<seq<string>>): (m: nat)
    requires |lists| > 0
    ensures forall i :: 0 <= i < |lists| ==> m <= |lists[i]|
    ensures exists i :: 0 <= i < |lists| && |lists[i]| == m
  {
    if |lists| == 1 then |lists[0]|
    else
      var rest := MinSize(lists[1..]);
      assert forall i :: 1 <= i < |lists| ==> lists[i] == lists[1..][i - 1];
      if |lists[0]| <= rest then |lists[0]| else rest
  }

  function MaxSize(lists: seq<seq<string>>): (m: nat)
    requires |lists| > 0
    ensures forall i :: 0 <= i < |lists| ==> |lists[i]| <= m
    ensures exists i :: 0 <= i < |lists| && |lists[i]| == m
  {
    if |lists| == 1 then |lists[0]|
    else
      var rest := MaxSize(lists[1..]);
      assert forall i :: 1 <= i < |lists| ==> lists[i] == lists[1..][i - 1];
      if |lists[0]| >= rest then |lists[0]| else rest
  }

  /** `Path(inp).name.removesuffix("".join(Path(inp).suffixes))`. */
  function StemOf(inp: string): string {
    Paths.Stem(Paths.Name(Paths.Parse(inp)))
  }

  /** The `j`-th tuple of `zip(*lists)`: every list's `j`-th input. */
  function Column(lists: seq<seq<string>>, j: nat): (r: seq<string>)
    requires j < ZipLength(lists)
    ensures |r| == |lists|
  {
    seq(|lists|, k requires 0 <= k < |lists| => lists[k][j])
  }

  /** The first `k` inputs of a tuple, each as its stem followed by an
      underscore; `stem` says how a stem is taken. */
  function MixParts(inps: seq<string>, stem: string -> string, k: nat): string
    requires k <= |inps|
  {
    if k == 0 then "" else MixParts(inps, stem, k - 1) + stem(inps[k - 1]) + "_"
  }

  /** The mixing name for position `j`: the stems of every list's `j`-th
      input, each followed by `_`, and one more `_` at the end. */
  function MixName(lists: seq<seq<string>>, j: nat): string
    requires j < ZipLength(lists)
  {
    MixParts(Column(lists, j), StemOf, |lists|) + "_"
  }

  function MixNames(lists: seq<seq<string>>): (r: seq<string>)
    ensures |r| == ZipLength(lists)
  {
    seq(ZipLength(lists), j requires 0 <= j < ZipLength(lists) => MixName(lists, j))
  }

  /** `concatenate_inputs(multi_inputs)`: one name per tuple of
      `zip(*multi_inputs)`, each the mixing name of that position. */
  method ConcatenateInputs(lists: seq<seq<string>>) returns (names: seq<string>)
    ensures |names| == ZipLength(lists)
    ensures forall j :: 0 <= j < |names| ==> names[j] == MixName(lists, j)
  {
    names := ConcatenateWith(lists, StemOf);
  }

  /** The two loops of `concatenate_inputs`, for any way of taking a stem. */
  method ConcatenateWith(lists: seq<seq<string>>, stem: string -> string) returns (names: seq<string>)
    ensures |names| == ZipLength(lists)
    ensures forall j :: 0 <= j < |names| ==> names[j] == MixParts(Column(lists, j), stem, |lists|) + "_"
  {
    names := [];
    var n := ZipLength(lists);
    var j := 0;
    while j < n
      invariant j <= n
      invariant |names| == j
      invariant forall i :: 0 <= i < j ==> names[i] == MixParts(Column(lists, i), stem, |lists|) + "_"
    {
      var inps := Column(lists, j);
      var name := "";
      var k := 0;
      while k < |inps|
        invariant k <= |inps|
        invariant name == MixParts(inps, stem, k)
      {
        name := name + stem(inps[k]) + "_";
        k := k + 1;
      }
      names := names + [name + "_"];
      j := j + 1;
    }
  }

  /** A plain file name (no slash, not `.` or empty) has its suffixes
      stripped and nothing else. */
  lemma StemOfPlain(name: string)
    requires Paths.Component(name)
    ensures StemOf(name) == Paths.Stem(name)
  {
    Paths.JoinName(Paths.Path(false, []), name);
  }

  /** With one input the name is its stem and two underscores; with two,
      the stems are joined by one underscore and followed by two. */
  lemma MixPartsShape(inps: seq<string>, stem: string -> string)
    ensures |inps| == 1 ==> MixParts(inps, stem, 1) + "_" == stem(inps[0]) + "__"
    ensures |inps| == 2 ==> MixParts(inps, stem, 2) + "_" == stem(inps[0]) + "_" + stem(inps[1]) + "__"
  {
    if |inps| > 0 {
      var first := stem(inps[0]) + "_";
      var one := MixParts(inps, stem, 1);
      assert one == MixParts(inps, stem, 0) + first;
      EmptyConcat(first);
      if |inps| == 2 {
        assert MixParts(inps, stem, 2) == one + stem(inps[1]) + "_";
      }
    }
  }

  lemma EmptyConcat(x: string)
    ensures "" + x == x
  {
  }

  lemma StemTrk()
    ensures Paths.Stem("b.trk") == "b"
  {
    assert Paths.LeadingDots("b.trk") == 0;
    assert Paths.DotFrom("b.trk", 0) == 1;
  }

  lemma Spell()
    ensures "a" + "_" + "b" + "__" == "a_b__"
  {
  }

  /** `concatenate_inputs([["a.nii.gz"], ["b.trk"]])` is `["a_b__"]`. */
  lemma MixNameExample()
    ensures MixNames([["a.nii.gz"], ["b.trk"]]) == ["a_b__"]
  {
    var lists := [["a.nii.gz"], ["b.trk"]];
    assert ZipLength(lists) == 1;
    var names := MixNames(lists);
    assert |names| == 1 && names[0] == MixName(lists, 0);
    MixNameAB(lists);
  }

  lemma MixNameAB(lists: seq<seq<string>>)
    requires lists == [["a.nii.gz"], ["b.trk"]]
    ensures ZipLength(lists) == 1 && MixName(lists, 0) == "a_b__"
  {
    assert ZipLength(lists) == 1;
    var inps := Column(lists, 0);
    assert inps == ["a.nii.gz", "b.trk"];
    StemsAB();
    MixPartsShape(inps, StemOf);
    Spell();
  }

  lemma StemsAB()
    ensures StemOf("a.nii.gz") == "a" && StemOf("b.trk") == "b"
  {
    StemOfPlain("a.nii.gz");
    StemOfPlain("b.trk");
    Paths.StemExamples();
    StemTrk();
  }

  // ---------------------------------------------------------------------
  // connect_output_paths

  /** What `connect_output_paths` may receive as `inputs`: a bare string, a
      bare `Path`, or a list of input lists. */
  datatype Inputs = BareText(text: string) | BarePath(path: string) | Lists(lists: seq<seq<string>>)

  /** What it may receive as `out_files`: one name or a list of names. */
  datatype OutFiles = OneFile(file: string) | Files(files: seq<string>)

  function FileList(o: OutFiles): (r: seq<string>)
    ensures o.OneFile? ==> r == [o.file]
    ensures o.Files? ==> r == o.files
  {
    match o
    case OneFile(f) => [f]
    case Files(fs) => fs
  }

  /** The characters of a string, each as a one-character string: what
      iterating over a `str` yields. */
  function Chars(s: string): (r: seq<string>)
    ensures |r| == |s|
  {
    seq(|s|, i requires 0 <= i < |s| => [s[i]])
  }

  const PathHasNoLen := "object of type 'PosixPath' has no len()"

  /** The input wrapping as written: a bare value becomes `[value]`, so a
      bare string becomes one input list whose entries are its characters,
      and a bare `Path` fails when its length is taken. */
  function WrapInputs(inputs: Inputs): (r: Result<seq<seq<string>>>)
    ensures inputs.BareText? ==> r == Ok([Chars(inputs.text)])
    ensures inputs.BarePath? ==> r.Err? && r.error.kind == TypeError
    ensures inputs.Lists? ==> r == Ok(inputs.lists)
  {
    match inputs
    case BareText(s) => Ok([Chars(s)])
    case BarePath(_) => Fail(TypeError, PathHasNoLen)
    case Lists(ls) => Ok(ls)
  }

  /** The wrapping the docstring describes: a single input path is one
      input list holding that path. */
  function WrapIntended(inputs: Inputs): (r: seq<seq<string>>)
    ensures inputs.BareText? ==> r == [[inputs.text]]
    ensures inputs.BarePath? ==> r == [[inputs.path]]
    ensures inputs.Lists? ==> r == inputs.lists
  {
    match inputs
    case BareText(s) => [[s]]
    case BarePath(p) => [[p]]
    case Lists(ls) => ls
  }

  const EmptyMax := "zero-size array to reduction operation maximum which has no identity"
  const SizeIssue := "Size of input issue"

  /** The size check and broadcasting: an error when the shortest list is
      longer than one but the lengths differ; when the shortest has one
      entry, every one-entry list is repeated to the longest length. */
  function Broadcast(lists: seq<seq<string>>): (r: Result<seq<seq<string>>>)
    requires |lists| > 0
    ensures r.Err? <==> MinSize(lists) > 1 && MinSize(lists) != MaxSize(lists)
    ensures r.Err? ==> r.error.kind == ImportError
    ensures r.Ok? ==> |r.value| == |lists|
    ensures r.Ok? ==> forall i :: 0 <= i < |lists| && (MinSize(lists) != 1 || |lists[i]| != 1) ==> r.value[i] == lists[i]
    ensures r.Ok? && MinSize(lists) == 1 ==> forall i :: 0 <= i < |lists| && |lists[i]| == 1 ==>
              |r.value[i]| == MaxSize(lists) && forall k :: 0 <= k < |r.value[i]| ==> r.value[i][k] == lists[i][0]
  {
    var lo := MinSize(lists);
    var hi := MaxSize(lists);
    if lo > 1 && lo != hi then Fail(ImportError, SizeIssue)
    else if lo == 1 then
      RepeatSingles(lists, hi);
      Ok(seq(|lists|, i requires 0 <= i < |lists| => if |lists[i]| == lo then Seqs.Repeat(lists[i], hi) else lists[i]))
    else
      Ok(lists)
  }

  lemma RepeatSingles(lists: seq<seq<string>>, n: nat)
    ensures forall i :: 0 <= i < |lists| && |lists[i]| == 1 ==>
              forall k :: 0 <= k < n ==> Seqs.Repeat(lists[i], n)[k] == lists[i][0]
  {
    forall i | 0 <= i < |lists| && |lists[i]| == 1 {
      RepeatSingle(lists[i], n);
    }
  }

  lemma {:induction false} RepeatSingle(l: seq<string>, n: nat)
    requires |l| == 1
    ensures forall k :: 0 <= k < n ==> Seqs.Repeat(l, n)[k] == l[0]
  {
    if n > 0 {
      RepeatSingle(l, n - 1);
      assert Seqs.Repeat(l, n) == l + Seqs.Repeat(l, n - 1);
    }
  }

  /** After a successful broadcast every list has the same length whenever
      the lengths were all one or the longest (in particular when there is
      only one list, or when no list was shorter than two). */
  lemma BroadcastAligns(lists: seq<seq<string>>)
    requires |lists| > 0 && Broadcast(lists).Ok?
    requires forall i :: 0 <= i < |lists| ==> |lists[i]| == 1 || |lists[i]| == MaxSize(lists)
    ensures forall i :: 0 <= i < |lists| ==> |Broadcast(lists).value[i]| == MaxSize(lists)
  {
  }

  /** The output directory for one input, by strategy: "prepend" puts the
      input's directory tree under `out_dir` (made absolute against the
      working directory `cwd`), "append" puts `out_dir` under the input's
      directory, and any other strategy uses `out_dir` itself. */
  function OutputDir(strategy: string, outDir: string, inp: string, cwd: string): (r: Path)
    ensures Paths.Normal(r)
  {
    var out := Paths.Parse(outDir);
    var parent := Paths.Parent(Paths.Parse(inp));
    if strategy == "prepend" then
      if out.absolute then Paths.Join(out, parent)
      else Paths.Join(Paths.Join(Paths.Parse(cwd), out), parent)
    else if strategy == "append" then Paths.Join(parent, out)
    else out
  }

  /** The three strategies, stated on components: "absolute" (and any
      unknown strategy) ignores the input; "append" with a relative
      `out_dir` extends the input's directory; "prepend" with an absolute
      `out_dir` and a relative input nests the input's directory under
      `out_dir`, while an absolute input keeps its own directory. */
  lemma OutputDirStrategies(strategy: string, outDir: string, inp: string, cwd: string)
    ensures strategy != "prepend" && strategy != "append" ==>
              OutputDir(strategy, outDir, inp, cwd) == Paths.Parse(outDir)
    ensures strategy == "append" && !Paths.Parse(outDir).absolute ==>
              OutputDir(strategy, outDir, inp, cwd).absolute == Paths.Parse(inp).absolute
              && Paths.Parent(Paths.Parse(inp)).parts <= OutputDir(strategy, outDir, inp, cwd).parts
              && |OutputDir(strategy, outDir, inp, cwd).parts| == |Paths.Parent(Paths.Parse(inp)).parts| + |Paths.Parse(outDir).parts|
    ensures strategy == "prepend" && Paths.Parse(outDir).absolute && !Paths.Parse(inp).absolute ==>
              OutputDir(strategy, outDir, inp, cwd).absolute
              && Paths.Parse(outDir).parts <= OutputDir(strategy, outDir, inp, cwd).parts
    ensures strategy == "prepend" && Paths.Parse(inp).absolute ==>
              OutputDir(strategy, outDir, inp, cwd) == Paths.Parent(Paths.Parse(inp))
  {
  }

  /** The prefixes: the mixing names, or one empty prefix per entry of the
      first input list. */
  function Prefixes(lists: seq<seq<string>>, mixNames: bool): (r: seq<string>)
    requires |lists| > 0
    ensures mixNames ==> r == MixNames(lists)
    ensures !mixNames ==> |r| == |lists[0]| && forall j :: 0 <= j < |r| ==> r[j] == ""
  {
    if mixNames then MixNames(lists) else seq(|lists[0]|, _ => "")
  }

  /** The paths for one input: each output file, prefixed, under that
      input's output directory. */
  function OutputsFor(dir: Path, prefix: string, files: seq<string>): (r: seq<Path>)
    ensures |r| == |files|
  {
    seq(|files|, f requires 0 <= f < |files| => Paths.Join(dir, Paths.Parse(prefix + files[f])))
  }

  datatype Connected = Connected(inputs: seq<seq<string>>, outputs: seq<seq<Path>>)

  /** `connect_output_paths` once the inputs are a list of lists: the size
      check and broadcasting, then one list of output paths per pair of
      `zip(mixing_prefixes, inputs[0])`. */
  function Connect(lists: seq<seq<string>>, outDir: string, files: seq<string>, strategy: string, mixNames: bool, cwd: string): (r: Result<Connected>)
    ensures lists == [] ==> r.Err? && r.error.kind == ValueError
    ensures |lists| > 0 ==> (r.Err? <==> Broadcast(lists).Err?)
    ensures r.Err? ==> r.error.kind in {ValueError, ImportError}
    ensures r.Ok? ==> |lists| > 0 && r.value.inputs == Broadcast(lists).value
    ensures r.Ok? ==> |r.value.outputs| == (if mixNames then ZipLength(r.value.inputs) else |r.value.inputs[0]|)
    ensures r.Ok? ==> forall j :: 0 <= j < |r.value.outputs| ==>
              var pre := Prefixes(r.value.inputs, mixNames);
              && j < |pre|
              && r.value.outputs[j] == OutputsFor(OutputDir(strategy, outDir, r.value.inputs[0][j], cwd), pre[j], files)
  {
    if lists == [] then Fail(ValueError, EmptyMax)
    else
      var ls :- Broadcast(lists);
      var pre := Prefixes(ls, mixNames);
      // `zip(pre, ls[0])` stops at the shorter, and `pre` is never longer.
      var n := |pre|;
      Ok(Connected(ls, seq(n, j requires 0 <= j < n => OutputsFor(OutputDir(strategy, outDir, ls[0][j], cwd), pre[j], files))))
  }

  /** `connect_output_paths(inputs, out_dir, out_files, output_strategy,
      mix_names)` as written. */
  function ConnectOutputPaths(inputs: Inputs, outDir: string, outFiles: OutFiles, strategy: string, mixNames: bool, cwd: string): (r: Result<Connected>)
    ensures inputs.BarePath? ==> r.Err? && r.error.kind == TypeError
    ensures inputs.BareText? ==> r == Connect([Chars(inputs.text)], outDir, FileList(outFiles), strategy, mixNames, cwd)
    ensures inputs.Lists? ==> r == Connect(inputs.lists, outDir, FileList(outFiles), strategy, mixNames, cwd)
  {
    var lists :- WrapInputs(inputs);
    Connect(lists, outDir, FileList(outFiles), strategy, mixNames, cwd)
  }

  /** `connect_output_paths` with a bare input wrapped as one input list
      holding it. */
  function ConnectOutputPathsIntended(inputs: Inputs, outDir: string, outFiles: OutFiles, strategy: string, mixNames: bool, cwd: string): (r: Result<Connected>)
    ensures !inputs.Lists? ==> r.Ok? && |r.value.outputs| == 1
    ensures inputs.Lists? ==> r == ConnectOutputPaths(inputs, outDir, outFiles, strategy, mixNames, cwd)
  {
    var lists := WrapIntended(inputs);
    var r := Connect(lists, outDir, FileList(outFiles), strategy, mixNames, cwd);
    assert !inputs.Lists? ==> MinSize(lists) == 1 == MaxSize(lists) && ZipLength(lists) == 1;
    r
  }

  /** Every output path is under its input's output directory and named
      by the prefix and the output file, when that name is a plain file
      name. */
  lemma OutputPlacement(lists: seq<seq<string>>, outDir: string, files: seq<string>, strategy: string, mixNames: bool, cwd: string, j: nat, f: nat)
    requires Connect(lists, outDir, files, strategy, mixNames, cwd).Ok?
    requires j < |Connect(lists, outDir, files, strategy, mixNames, cwd).value.outputs| && f < |files|
    ensures var c := Connect(lists, outDir, files, strategy, mixNames, cwd).value;
      var pre := Prefixes(c.inputs, mixNames);
      var dir := OutputDir(strategy, outDir, c.inputs[0][j], cwd);
      && |c.outputs[j]| == |files|
      && (Paths.Component(pre[j] + files[f]) ==>
            Paths.Parent(c.outputs[j][f]) == dir && Paths.Name(c.outputs[j][f]) == pre[j] + files[f])
  {
    var c := Connect(lists, outDir, files, strategy, mixNames, cwd).value;
    var pre := Prefixes(c.inputs, mixNames);
    var dir := OutputDir(strategy, outDir, c.inputs[0][j], cwd);
    if Paths.Component(pre[j] + files[f]) {
      Paths.JoinName(dir, pre[j] + files[f]);
    }
  }

  /** A bare string input of `n` characters yields `n` output lists, one per
      character, where a single list is meant. */
  lemma BareTextSplitsIntoCharacters(s: string, outDir: string, outFiles: OutFiles, strategy: string, mixNames: bool, cwd: string)
    requires |s| > 0
    ensures ConnectOutputPaths(BareText(s), outDir, outFiles, strategy, mixNames, cwd).Ok?
    ensures |ConnectOutputPaths(BareText(s), outDir, outFiles, strategy, mixNames, cwd).value.outputs| == |s|
    ensures |ConnectOutputPathsIntended(BareText(s), outDir, outFiles, strategy, mixNames, cwd).value.outputs| == 1
  {
    var lists := [Chars(s)];
    assert MinSize(lists) == |s| == MaxSize(lists);
    assert ZipLength(lists) == |s|;
  }
}

=== FILE: numeric.dfy ===
/** Reductions over sequences of reals used by the cost functions and the
    convergence test: `np.sum`, `np.min` and `np.mean` along one axis. */
module Numeric {
  import Seqs

  function Sum(s: seq<real>): real
    decreases |s|
  {
    if s == [] then 0.0 else s[0] + Sum(s[1..])
  }

  /** Minimum of a non-empty sequence; `np.min` raises on an empty one, which
      callers model as an error before reaching here. */
  function Min(s: seq<real>): (m: real)
    requires |s| > 0
    ensures m in s
    ensures forall k :: 0 <= k < |s| ==> m <= s[k]
    decreases |s|
  {
    if |s| == 1 then s[0]
    else
      var rest := Min(s[1..]);
      if s[0] <= rest then s[0] else rest
  }

  function Mean(s: seq<real>): real
    requires |s| > 0
  {
    Sum(s) / (|s| as real)
  }

  lemma {:induction false} SumAppend(a: seq<real>, b: seq<real>)
    ensures Sum(a + b) == Sum(a) + Sum(b)
    decreases |a|
  {
    if a != [] {
      assert (a + b)[1..] == a[1..] + b;
      SumAppend(a[1..], b);
    } else {
      assert a + b == b;
    }
  }

  /** Removing one summand lowers the sum by exactly that summand. */
  lemma SumRemove(b: seq<real>, k: nat)
    requires k < |b|
    ensures Sum(b) == b[k] + Sum(b[..k] + b[k + 1..])
  {
    assert b == b[..k] + ([b[k]] + b[k + 1..]);
    SumAppend(b[..k], [b[k]] + b[k + 1..]);
    SumAppend([b[k]], b[k + 1..]);
    SumAppend(b[..k], b[k + 1..]);
    assert Sum([b[k]]) == b[k];
  }

  /** The sum does not depend on the order of the summands. */
  lemma {:induction false} SumPermutation(a: seq<real>, b: seq<real>)
    requires multiset(a) == multiset(b)
    ensures Sum(a) == Sum(b)
    decreases |a|
  {
    if a == [] {
      assert |b| == |multiset(a)| == 0;
    } else {
      assert a[0] in multiset(b);
      var k :| 0 <= k < |b| && b[k] == a[0];
      Seqs.CancelHead(a, b, k);
      SumPermutation(a[1..], b[..k] + b[k + 1..]);
      SumRemove(b, k);
    }
  }

  /** Two sequences with the same elements have the same minimum. */
  lemma MinSameElements(a: seq<real>, b: seq<real>)
    requires |a| > 0 && |b| > 0
    requires forall x :: x in a <==> x in b
    ensures Min(a) == Min(b)
  {
    var ma, mb := Min(a), Min(b);
    assert ma in b;
    assert mb in a;
  }

  /** A sum of non-negative terms is non-negative. */
  lemma {:induction false} SumNonNegative(s: seq<real>)
    requires forall k :: 0 <= k < |s| ==> s[k] >= 0.0
    ensures Sum(s) >= 0.0
    decreases |s|
  {
    if s != [] {
      SumNonNegative(s[1..]);
    }
  }

  /** A sum of zeros is zero. */
  lemma {:induction false} SumZeros(s: seq<real>)
    requires forall k :: 0 <= k < |s| ==> s[k] == 0.0
    ensures Sum(s) == 0.0
    decreases |s|
  {
    if s != [] {
      SumZeros(s[1..]);
    }
  }
}

=== FILE: pairing.dfy ===
/** `get_unique_pairs`: split bundle indices into random disjoint pairs,
    leaving one out when their number is odd, and — given the previous
    assignment — reshuffle until no pair repeats a previous one.

    The random generator is replaced by its draws, passed in as data: the
    position of the excluded index among its candidates, and one sequence
    of choices per permutation. Every permutation is reachable
    (`ShuffleReachesEveryPermutation`), so the results the model admits are
    exactly those the random program can produce. */
module Pairing {
  import opened Wrappers
  import Seqs

  type Pair = (nat, nat)

  /** The argument `n_bundle`: a Python `int`, or anything else. */
  datatype Count = IntCount(n: int) | NotInt

  /** The draws of one call: `pick` selects the excluded index, `first`
      drives the first permutation and each entry of `retries` one
      reshuffle of the retry loop. */
  datatype Draws = Draws(pick: nat, first: seq<nat>, retries: seq<seq<nat>>)

  /** `np.arange(n)`. */
  function Range(n: nat): (r: seq<nat>)
    ensures |r| == n && forall i :: 0 <= i < n ==> r[i] == i
  {
    seq(n, i requires 0 <= i < n => i)
  }

  /** The pairs as the flat sequence of their entries, row by row. */
  function Flatten(pairs: seq<Pair>): (r: seq<nat>)
    ensures |r| == 2 * |pairs|
    ensures forall k :: 0 <= k < |pairs| ==> r[2 * k] == pairs[k].0 && r[2 * k + 1] == pairs[k].1
  {
    seq(2 * |pairs|, i requires 0 <= i < 2 * |pairs| => if i % 2 == 0 then pairs[i / 2].0 else pairs[i / 2].1)
  }

  /** `index.reshape((n_pair, 2))`: consecutive entries form a pair. */
  function Reshape(s: seq<nat>): (r: seq<Pair>)
    requires |s| % 2 == 0
    ensures |r| == |s| / 2 && Flatten(r) == s
  {
    var r := seq(|s| / 2, k requires 0 <= k < |s| / 2 => (s[2 * k], s[2 * k + 1]));
    assert forall i :: 0 <= i < |s| ==> Flatten(r)[i] == s[i] by {
      forall i | 0 <= i < |s| ensures Flatten(r)[i] == s[i] {
        var k := i / 2;
        assert i == 2 * k || i == 2 * k + 1;
      }
    }
    r
  }

  /** `pairs[:, ::-1]`: every pair with its entries swapped. */
  function Swapped(pairs: seq<Pair>): (r: seq<Pair>)
    ensures |r| == |pairs| && forall k :: 0 <= k < |pairs| ==> r[k] == (pairs[k].1, pairs[k].0)
  {
    seq(|pairs|, k requires 0 <= k < |pairs| => (pairs[k].1, pairs[k].0))
  }

  /** A permutation driven by a sequence of choices (a Fisher-Yates
      shuffle): each choice selects the next entry among those left; a
      missing or out-of-range choice selects the first. */
  function Shuffle(s: seq<nat>, rs: seq<nat>): (r: seq<nat>)
    ensures |r| == |s| && multiset(r) == multiset(s)
    decreases |s|
  {
    if |s| <= 1 then s
    else
      var c := if rs == [] then 0 else rs[0];
      var j := if c < |s| then c else 0;
      var rest := s[..j] + s[j + 1..];
      assert s == s[..j] + [s[j]] + s[j + 1..];
      [s[j]] + Shuffle(rest, if rs == [] then [] else rs[1..])
  }

  /** One step of the shuffle with the choice `j`. */
  lemma ShuffleStep(s: seq<nat>, j: nat, rs: seq<nat>)
    requires 1 < |s| && j < |s|
    ensures Shuffle(s, [j] + rs) == [s[j]] + Shuffle(s[..j] + s[j + 1..], rs)
  {
    assert ([j] + rs)[0] == j && ([j] + rs)[1..] == rs;
  }

  /** A sequence of at most one element is its only permutation. */
  lemma ShortPermutation(s: seq<nat>, t: seq<nat>)
    requires multiset(s) == multiset(t) && |s| <= 1
    ensures s == t
  {
    assert |t| == |multiset(t)| == |multiset(s)| == |s|;
    if |s| == 1 {
      assert s[0] in multiset(t);
    }
  }

  lemma HeadTail(t: seq<nat>)
    requires t != []
    ensures [t[0]] + t[1..] == t
  {
  }

  /** Every permutation of `s` is the shuffle of some choices. */
  lemma {:induction false} ShuffleReachesEveryPermutation(s: seq<nat>, t: seq<nat>)
    requires multiset(s) == multiset(t)
    ensures exists rs :: Shuffle(s, rs) == t
    decreases |s|
  {
    if |s| <= 1 {
      ShortPermutation(s, t);
      assert Shuffle(s, []) == t;
    } else {
      assert t != [] by {
        assert |t| == |multiset(t)| == |multiset(s)| == |s|;
      }
      assert t[0] in multiset(s);
      var j :| 0 <= j < |s| && s[j] == t[0];
      Seqs.CancelHead(t, s, j);
      var rest := s[..j] + s[j + 1..];
      ShuffleReachesEveryPermutation(rest, t[1..]);
      var rs' :| Shuffle(rest, rs') == t[1..];
      ShuffleStep(s, j, rs');
      var out := Shuffle(s, [j] + rs');
      assert out == [t[0]] + t[1..];
      HeadTail(t);
    }
  }

  /** `index != excluded`. */
  function Keeps(excluded: Option<nat>): nat -> bool {
    (i: nat) => excluded != Some(i)
  }

  /** `index[index != excluded]`: the indices that remain when `excluded`
      is left out. */
  function Remaining(n: nat, excluded: Option<nat>): seq<nat> {
    Seqs.Keep(Range(n), Keeps(excluded))
  }

  /** Filtering the indices from `k` on drops exactly one when the
      excluded index is among them. */
  lemma {:induction false} KeepRangeCount(n: nat, k: nat, excluded: Option<nat>)
    requires k <= n
    ensures |Seqs.Keep(Range(n)[k..], Keeps(excluded))|
              == (if excluded.Some? && k <= excluded.value < n then n - k - 1 else n - k)
    decreases n - k
  {
    if k < n {
      var s := Range(n)[k..];
      assert s[0] == k && s[1..] == Range(n)[k + 1..];
      KeepRangeCount(n, k + 1, excluded);
    }
  }

  /** Prepending an element the rest does not hold keeps a sequence free
      of repetitions. */
  lemma DistinctCons(x: nat, t: seq<nat>)
    requires Seqs.Distinct(t) && x !in t
    ensures Seqs.Distinct([x] + t)
  {
    var u := [x] + t;
    forall a, b | 0 <= a < b < |u| ensures u[a] != u[b] {
      assert u[b] == t[b - 1];
      if a > 0 {
        assert u[a] == t[a - 1];
      }
    }
  }

  /** Filtering the indices from `k` on keeps them distinct. */
  lemma {:induction false} KeepRangeDistinct(n: nat, k: nat, excluded: Option<nat>)
    requires k <= n
    ensures Seqs.Distinct(Seqs.Keep(Range(n)[k..], Keeps(excluded)))
    decreases n - k
  {
    if k < n {
      var s := Range(n)[k..];
      assert s[0] == k && s[1..] == Range(n)[k + 1..];
      KeepRangeDistinct(n, k + 1, excluded);
      var tail := Seqs.Keep(s[1..], Keeps(excluded));
      if Keeps(excluded)(k) {
        assert forall j :: 0 <= j < |tail| ==> tail[j] in s[1..];
        assert k !in tail;
        DistinctCons(k, tail);
      }
    }
  }

  /** The remaining indices: exactly those below `n` other than the
      excluded one, each once. */
  lemma RemainingFacts(n: nat, excluded: Option<nat>)
    ensures forall v: nat :: v in Remaining(n, excluded) <==> v < n && excluded != Some(v)
    ensures Seqs.Distinct(Remaining(n, excluded))
    ensures |Remaining(n, excluded)| == (if excluded.Some? && excluded.value < n then n - 1 else n)
  {
    assert Range(n)[0..] == Range(n);
    KeepRangeCount(n, 0, excluded);
    KeepRangeDistinct(n, 0, excluded);
    forall v: nat | v < n && excluded != Some(v) ensures v in Remaining(n, excluded) {
      assert Range(n)[v] == v && Keeps(excluded)(v);
    }
  }

  /** Every pair row, its swap, every previous row and its swap: the rows
      `np.unique` counts in the retry condition. */
  function AllRows(pairs: seq<Pair>, prev: seq<Pair>): (r: seq<Pair>)
    ensures |r| == 2 * |pairs| + 2 * |prev|
  {
    pairs + Swapped(pairs) + prev + Swapped(prev)
  }

  /** The retry loop stops once the rows hold at least `4 * n_pair`
      distinct pairs. */
  predicate Accepted(pairs: seq<Pair>, prev: seq<Pair>, nPair: nat) {
    |set x | x in AllRows(pairs, prev)| >= 4 * nPair
  }

  /** The excluded index, when `n` is odd, and the indices left to pair. A
      previous assignment restricts the candidates to the indices it used;
      `np.random.choice` refuses an empty candidate list. */
  function Exclude(n: nat, prev: Option<seq<Pair>>, pick: nat): (r: Result<(seq<nat>, Option<nat>)>)
    ensures n % 2 == 0 ==> r == Ok((Range(n), None))
    ensures r.Ok? ==> r.value.0 == Remaining(n, r.value.1)
    ensures r.Ok? && n % 2 == 1 ==> r.value.1.Some?
    ensures r.Ok? && r.value.1.Some? && prev.Some? ==> r.value.1.value in Flatten(prev.value)
    ensures prev.None? ==> r.Ok?
    ensures r.Ok? && r.value.1.Some? && prev.None? ==> r.value.1.value < n
    ensures r.Err? ==> r.error.kind == ValueError
  {
    if n % 2 == 0 then
      assert Remaining(n, None) == Range(n) by { KeepAll(Range(n)); }
      Ok((Range(n), None))
    else
      var candidates := if prev.None? then Range(n) else Flatten(prev.value);
      if candidates == [] then
        Fail(ValueError, "a cannot be empty unless no samples are taken")
      else
        var e := candidates[if pick < |candidates| then pick else 0];
        Ok((Remaining(n, Some(e)), Some(e)))
  }

  /** Keeping everything keeps the sequence. */
  lemma {:induction false} KeepAll(s: seq<nat>)
    ensures Seqs.Keep(s, Keeps(None)) == s
    decreases |s|
  {
    if s != [] {
      KeepAll(s[1..]);
      assert s == [s[0]] + s[1..];
    }
  }

  /** Reshuffle until the rows are accepted, one entry of `retries` per
      round; running out of draws ends the loop with an error instead of
      looping on. */
  function Retry(current: seq<nat>, prev: seq<Pair>, nPair: nat, retries: seq<seq<nat>>): (r: Result<seq<Pair>>)
    requires |current| == 2 * nPair
    ensures r.Ok? ==> Accepted(r.value, prev, nPair)
    ensures r.Ok? ==> |r.value| == nPair && multiset(Flatten(r.value)) == multiset(current)
    ensures r.Err? ==> r.error.kind == RetriesExhausted
    decreases |retries|
  {
    var pairs := Reshape(current);
    if Accepted(pairs, prev, nPair) then Ok(pairs)
    else if retries == [] then Fail(RetriesExhausted, "no accepted assignment within the supplied draws")
    else Retry(Shuffle(current, retries[0]), prev, nPair, retries[1..])
  }

  const NotAnInt := "n_bundle must be an int"
  const TooFew := "n_bundle must be > 1"
  const CannotReshape := "cannot reshape array into shape (n_pair, 2)"

  /** Shuffle the remaining indices into pairs, reshuffling against a
      previous assignment when there are more than three bundles. */
  function Arrange(n: nat, index: seq<nat>, prev: Option<seq<Pair>>, draws: Draws): (r: Result<seq<Pair>>)
    ensures r.Ok? ==> |index| == 2 * (n / 2)
    ensures r.Ok? ==> |r.value| == n / 2 && multiset(Flatten(r.value)) == multiset(index)
    ensures r.Ok? && prev.Some? && n > 3 ==> Accepted(r.value, prev.value, n / 2)
    ensures |index| == 2 * (n / 2) && (prev.None? || n <= 3) ==> r.Ok?
    ensures r.Err? ==> r.error.kind in {ValueError, RetriesExhausted}
  {
    if |index| != 2 * (n / 2) then
      Fail(ValueError, CannotReshape)
    else
      var first := Shuffle(index, draws.first);
      if prev.None? || n <= 3 then Ok(Reshape(first))
      else Retry(first, prev.value, n / 2, draws.retries)
  }

  /** `get_unique_pairs` once `n_bundle` is known to be an int above 1. */
  function PairUp(n: nat, prev: Option<seq<Pair>>, draws: Draws): (r: Result<(seq<Pair>, Option<nat>)>)
    ensures r.Ok? ==> |r.value.0| == n / 2
    ensures r.Ok? ==> (r.value.1.Some? <==> n % 2 == 1)
    ensures r.Ok? && r.value.1.Some? ==> r.value.1.value < n
    ensures r.Ok? && r.value.1.Some? && prev.Some? ==> r.value.1.value in Flatten(prev.value)
    ensures r.Ok? ==> multiset(Flatten(r.value.0)) == multiset(Remaining(n, r.value.1))
    ensures r.Ok? && prev.Some? && n > 3 ==> Accepted(r.value.0, prev.value, n / 2)
    ensures prev.None? ==> r.Ok?
    ensures r.Err? ==> r.error.kind in {ValueError, RetriesExhausted}
  {
    var ex :- Exclude(n, prev, draws.pick);
    RemainingFacts(n, ex.1);
    var pairs :- Arrange(n, ex.0, prev, draws);
    Ok((pairs, ex.1))
  }

  /** `get_unique_pairs(n_bundle, pairs=prev)`: the new pairs and the
      excluded index. */
  function GetUniquePairs(count: Count, prev: Option<seq<Pair>>, draws: Draws): (r: Result<(seq<Pair>, Option<nat>)>)
    ensures count.NotInt? ==> r.Err? && r.error.kind == TypeError
    ensures count.IntCount? && count.n <= 1 ==> r.Err? && r.error.kind == ValueError
    ensures r.Ok? ==> count.IntCount? && count.n > 1
    ensures r.Ok? ==> |r.value.0| == count.n / 2
    ensures r.Ok? ==> (r.value.1.Some? <==> count.n % 2 == 1)
    ensures r.Ok? && r.value.1.Some? ==> r.value.1.value < count.n
    ensures r.Ok? && r.value.1.Some? && prev.Some? ==> r.value.1.value in Flatten(prev.value)
    ensures r.Ok? ==> multiset(Flatten(r.value.0)) == multiset(Remaining(count.n, r.value.1))
    ensures r.Ok? && prev.Some? && count.n > 3 ==> Accepted(r.value.0, prev.value, count.n / 2)
    ensures count.IntCount? && count.n > 1 && prev.None? ==> r.Ok?
    ensures r.Err? ==> r.error.kind in {TypeError, ValueError, RetriesExhausted}
  {
    if count.NotInt? then Fail(TypeError, NotAnInt)
    else if count.n <= 1 then Fail(ValueError, TooFew)
    else PairUp(count.n, prev, draws)
  }

  /** A sequence has no repeated element iff its multiset counts every
      element at most once. */
  lemma {:induction false} DistinctIffSingleCounts(s: seq<nat>)
    ensures Seqs.Distinct(s) <==> forall x :: multiset(s)[x] <= 1
    decreases |s|
  {
    if s != [] {
      var t := s[1..];
      DistinctIffSingleCounts(t);
      assert s == [s[0]] + t;
      assert multiset(s) == multiset{s[0]} + multiset(t);
      if Seqs.Distinct(s) {
        assert Seqs.Distinct(t) by {
          forall a, b | 0 <= a < b < |t| ensures t[a] != t[b] {
            assert t[a] == s[a + 1] && t[b] == s[b + 1];
          }
        }
        assert s[0] !in t;
        assert multiset(t)[s[0]] == 0;
      } else {
        var a, b :| 0 <= a < b < |s| && s[a] == s[b];
        if a == 0 {
          assert t[b - 1] == s[0];
          assert multiset(t)[s[0]] >= 1;
          assert multiset(s)[s[0]] >= 2;
        } else {
          assert t[a - 1] == t[b - 1];
          assert !Seqs.Distinct(t);
          var x :| multiset(t)[x] > 1;
          assert multiset(s)[x] > 1;
        }
      }
    }
  }

  /** Pairs holding the same indices as the remaining ones, counted with
      multiplicity, hold each remaining index exactly once and nothing else. */
  lemma SameMultisetPartitions(pairs: seq<Pair>, n: nat, excluded: Option<nat>)
    requires multiset(Flatten(pairs)) == multiset(Remaining(n, excluded))
    ensures forall v: nat :: v in Flatten(pairs) <==> v < n && excluded != Some(v)
    ensures Seqs.Distinct(Flatten(pairs))
  {
    var flat, rem := Flatten(pairs), Remaining(n, excluded);
    RemainingFacts(n, excluded);
    forall v: nat ensures v in flat <==> v < n && excluded != Some(v) {
      assert v in flat <==> v in multiset(flat);
      assert v in rem <==> v in multiset(rem);
      assert v in rem <==> v < n && excluded != Some(v);
    }
    DistinctIffSingleCounts(rem);
    DistinctIffSingleCounts(flat);
    assert forall x :: multiset(flat)[x] == multiset(rem)[x];
  }

  /** The pairs of a successful call partition the indices below `n` other
      than the excluded one: each of them occurs in exactly one pair, in
      exactly one position. */
  lemma PairsPartitionIndices(count: Count, prev: Option<seq<Pair>>, draws: Draws)
    requires GetUniquePairs(count, prev, draws).Ok?
    ensures var (pairs, excluded) := GetUniquePairs(count, prev, draws).value;
      && (forall v: nat :: v in Flatten(pairs) <==> v < count.n && excluded != Some(v))
      && Seqs.Distinct(Flatten(pairs))
  {
    var r := GetUniquePairs(count, prev, draws);
    SameMultisetPartitions(r.value.0, count.n, r.value.1);
  }

  /** Two different positions of a sequence without repetitions hold
      different elements. */
  lemma DistinctAt(f: seq<nat>, a: nat, b: nat)
    requires Seqs.Distinct(f) && a < |f| && b < |f| && a != b
    ensures f[a] != f[b]
  {
    if b < a {
      assert f[b] != f[a];
    }
  }

  /** Pairs whose entries never repeat are made of two different indices
      and share no index with each other. */
  lemma PairsDisjoint(pairs: seq<Pair>)
    requires Seqs.Distinct(Flatten(pairs))
    ensures forall i :: 0 <= i < |pairs| ==> pairs[i].0 != pairs[i].1
    ensures forall i, j :: 0 <= i < |pairs| && 0 <= j < |pairs| && i != j ==>
              pairs[i].0 != pairs[j].0 && pairs[i].0 != pairs[j].1
  {
    var f := Flatten(pairs);
    forall i | 0 <= i < |pairs| ensures pairs[i].0 != pairs[i].1 {
      DistinctAt(f, 2 * i, 2 * i + 1);
    }
    forall i, j | 0 <= i < |pairs| && 0 <= j < |pairs| && i != j
      ensures pairs[i].0 != pairs[j].0 && pairs[i].0 != pairs[j].1
    {
      DistinctAt(f, 2 * i, 2 * j);
      DistinctAt(f, 2 * i, 2 * j + 1);
    }
  }

  /** Once the retry condition holds against a previous assignment of as
      many pairs, no new pair equals a previous pair in either order. */
  lemma NoRepeatedPair(pairs: seq<Pair>, prev: seq<Pair>)
    requires |pairs| == |prev|
    requires Accepted(pairs, prev, |pairs|)
    ensures forall i, j :: 0 <= i < |pairs| && 0 <= j < |prev| ==>
              pairs[i] != prev[j] && pairs[i] != (prev[j].1, prev[j].0)
  {
    var rows := AllRows(pairs, prev);
    var n := |pairs|;
    Seqs.ElementsBound(rows);
    forall i, j | 0 <= i < n && 0 <= j < n
      ensures pairs[i] != prev[j] && pairs[i] != (prev[j].1, prev[j].0)
    {
      assert rows[i] == pairs[i];
      assert rows[2 * n + j] == prev[j];
      assert rows[3 * n + j] == (prev[j].1, prev[j].0);
    }
  }
}

=== FILE: paths.dfy ===
/** The part of `pathlib.PurePosixPath` the output-path logic relies on:
    parsing a string into a root flag and its components, joining with
    `/`, `parent`, `name`, and the `suffixes` that `concatenate_inputs`
    strips from a file name. */
module Paths {
  import Seqs

  /** A parsed path: whether it starts at the root, and its components. */
  datatype Path = Path(absolute: bool, parts: seq<string>)

  /** A component pathlib keeps: empty components (from repeated slashes)
      and `.` are dropped when a path is parsed; `..` is kept. */
  predicate Meaningful(c: string) {
    c != "" && c != "."
  }

  function IsMeaningful(): string -> bool {
    (c: string) => Meaningful(c)
  }

  /** A component as a parsed path holds it: meaningful, without a slash. */
  predicate Component(c: string) {
    Meaningful(c) && '/' !in c
  }

  /** Every component is one pathlib could have produced. */
  predicate Normal(p: Path) {
    forall i :: 0 <= i < |p.parts| ==> Component(p.parts[i])
  }

  /** `s.split("/")`: the pieces between slashes, empty pieces included. */
  function Split(s: string): (r: seq<string>)
    ensures |r| >= 1
    ensures forall i :: 0 <= i < |r| ==> '/' !in r[i]
    decreases |s|
  {
    if s == [] then [""]
    else
      var rest := Split(s[1..]);
      if s[0] == '/' then [""] + rest
      else [[s[0]] + rest[0]] + rest[1..]
  }

  /** `PurePosixPath(s)`. */
  function Parse(s: string): (p: Path)
    ensures Normal(p)
    ensures p.absolute <==> |s| > 0 && s[0] == '/'
  {
    var parts := Seqs.Keep(Split(s), IsMeaningful());
    assert forall i :: 0 <= i < |parts| ==> parts[i] in Split(s);
    Path(|s| > 0 && s[0] == '/', parts)
  }

  /** The components joined by single slashes. */
  function JoinParts(ps: seq<string>): string
    requires |ps| > 0
  {
    if |ps| == 1 then ps[0] else ps[0] + "/" + JoinParts(ps[1..])
  }

  /** `str(path)`: `.` for the empty relative path, `/` for the root. */
  function Render(p: Path): string {
    if p.parts == [] then (if p.absolute then "/" else ".")
    else (if p.absolute then "/" else "") + JoinParts(p.parts)
  }

  /** `a / b`: an absolute right-hand side replaces the left one. */
  function Join(a: Path, b: Path): (r: Path)
    ensures Normal(a) && Normal(b) ==> Normal(r)
  {
    if b.absolute then b else Path(a.absolute, a.parts + b.parts)
  }

  /** `path.parent`: the root and the empty path are their own parents. */
  function Parent(p: Path): (r: Path)
    ensures Normal(p) ==> Normal(r)
  {
    if p.parts == [] then p else Path(p.absolute, p.parts[..|p.parts| - 1])
  }

  /** `path.name`: the last component, or "" when there is none. */
  function Name(p: Path): string {
    if p.parts == [] then "" else p.parts[|p.parts| - 1]
  }

  lemma {:induction false} SplitPlain(a: string)
    requires '/' !in a
    ensures Split(a) == [a]
    decreases |a|
  {
    if a != [] {
      SplitPlain(a[1..]);
      assert [a[0]] + a[1..] == a;
    }
  }

  lemma {:induction false} SplitAfter(a: string, t: string)
    requires '/' !in a
    ensures Split(a + "/" + t) == [a] + Split(t)
    decreases |a|
  {
    var s := a + "/" + t;
    if a == [] {
      assert s[1..] == t;
    } else {
      assert s[1..] == a[1..] + "/" + t;
      SplitAfter(a[1..], t);
      assert [a[0]] + a[1..] == a;
    }
  }

  lemma {:induction false} SplitJoin(ps: seq<string>)
    requires |ps| > 0 && forall i :: 0 <= i < |ps| ==> '/' !in ps[i]
    ensures Split(JoinParts(ps)) == ps
    decreases |ps|
  {
    if |ps| == 1 {
      SplitPlain(ps[0]);
    } else {
      SplitJoin(ps[1..]);
      SplitAfter(ps[0], JoinParts(ps[1..]));
    }
  }

  lemma {:induction false} KeepMeaningful(ps: seq<string>)
    requires forall i :: 0 <= i < |ps| ==> Meaningful(ps[i])
    ensures Seqs.Keep(ps, IsMeaningful()) == ps
    decreases |ps|
  {
    if ps != [] {
      KeepMeaningful(ps[1..]);
      assert [ps[0]] + ps[1..] == ps;
    }
  }

  lemma ParseRoot()
    ensures Parse("/") == Path(true, [])
  {
    assert "/"[1..] == "";
    assert Split("/") == ["", ""];
  }

  lemma ParseDot()
    ensures Parse(".") == Path(false, [])
  {
    SplitPlain(".");
  }

  lemma ParseRooted(ps: seq<string>)
    requires |ps| > 0 && forall i :: 0 <= i < |ps| ==> Component(ps[i])
    ensures Parse("/" + JoinParts(ps)) == Path(true, ps)
  {
    var j := JoinParts(ps);
    var s := "/" + j;
    SplitJoin(ps);
    KeepMeaningful(ps);
    assert s[1..] == j;
    assert Split(s) == [""] + ps;
  }

  lemma ParseRelative(ps: seq<string>)
    requires |ps| > 0 && forall i :: 0 <= i < |ps| ==> Component(ps[i])
    ensures Parse(JoinParts(ps)) == Path(false, ps)
  {
    SplitJoin(ps);
    KeepMeaningful(ps);
    JoinPartsStarts(ps);
  }

  lemma {:induction false} JoinPartsStarts(ps: seq<string>)
    requires |ps| > 0
    ensures ps[0] <= JoinParts(ps)
  {
    if |ps| > 1 {
      assert JoinParts(ps) == ps[0] + ("/" + JoinParts(ps[1..]));
    }
  }

  /** Printing a parsed path and parsing it again gives the same path:
      `PurePosixPath(str(p)) == p`. */
  lemma ParseRender(p: Path)
    requires Normal(p)
    ensures Parse(Render(p)) == p
  {
    if p.parts == [] {
      if p.absolute { ParseRoot(); } else { ParseDot(); }
    } else if p.absolute {
      ParseRooted(p.parts);
    } else {
      assert Render(p) == JoinParts(p.parts);
      ParseRelative(p.parts);
    }
  }

  /** Parsing is idempotent on printed paths, so a path is determined by
      its printed form. */
  lemma RenderInjective(p: Path, q: Path)
    requires Normal(p) && Normal(q) && Render(p) == Render(q)
    ensures p == q
  {
    ParseRender(p);
    ParseRender(q);
  }

  /** Joining a single plain file name onto a directory gives a path whose
      parent is that directory and whose name is that file name. */
  lemma JoinName(dir: Path, name: string)
    requires Component(name)
    ensures Parse(name) == Path(false, [name])
    ensures Parent(Join(dir, Parse(name))) == dir
    ensures Name(Join(dir, Parse(name))) == name
  {
    SplitPlain(name);
    KeepMeaningful([name]);
    var j := Join(dir, Parse(name));
    assert j.parts[..|j.parts| - 1] == dir.parts;
  }

  // ---------------------------------------------------------------------
  // suffixes

  /** The number of leading dots, which `suffixes` skips. */
  function LeadingDots(s: string): (k: nat)
    ensures k <= |s|
    ensures forall i :: 0 <= i < k ==> s[i] == '.'
    ensures k < |s| ==> s[k] != '.'
    decreases |s|
  {
    if s != [] && s[0] == '.' then 1 + LeadingDots(s[1..]) else 0
  }

  /** The position of the first dot at or after `from`, if any. */
  function DotFrom(s: string, from: nat): (r: nat)
    requires from <= |s|
    ensures from <= r <= |s|
    ensures r < |s| ==> s[r] == '.'
    ensures forall i :: from <= i < r ==> s[i] != '.'
    decreases |s| - from
  {
    if from == |s| || s[from] == '.' then from else DotFrom(s, from + 1)
  }

  /** `name.removesuffix("".join(Path(name).suffixes))`: the name up to the
      first dot after its leading dots; a name ending in a dot has no
      suffixes and is kept whole. */
  function Stem(name: string): (r: string)
    ensures r <= name
    ensures |name| > 0 && name[|name| - 1] == '.' ==> r == name
    ensures |r| < |name| ==> name[|r|] == '.'
    ensures !(|name| > 0 && name[|name| - 1] == '.') ==>
              forall i :: LeadingDots(name) <= i < |r| ==> name[i] != '.'
  {
    if |name| > 0 && name[|name| - 1] == '.' then name
    else name[..DotFrom(name, LeadingDots(name))]
  }

  /** The stem keeps every leading dot, and cuts at the first later dot:
      `a.nii.gz` becomes `a`, `.bashrc` stays `.bashrc`, `a.` stays `a.`. */
  lemma StemExamples()
    ensures Stem("a.nii.gz") == "a"
    ensures Stem(".bashrc") == ".bashrc"
    ensures Stem("a.") == "a."
  {
    assert LeadingDots("a.nii.gz") == 0;
    assert DotFrom("a.nii.gz", 0) == 1;
    assert LeadingDots(".bashrc") == 1;
  }

  /** Stripping the suffixes twice strips nothing more. */
  lemma StemIdempotent(name: string)
    requires !(|name| > 0 && name[|name| - 1] == '.')
    ensures Stem(Stem(name)) == Stem(name)
  {
    var s := Stem(name);
    LeadingDotsPrefix(name, s);
    assert LeadingDots(name) <= |s|;
    assert DotFrom(s, LeadingDots(s)) == |s|;
  }

  lemma {:induction false} LeadingDotsPrefix(name: string, s: string)
    requires s <= name
    ensures LeadingDots(s) == if LeadingDots(name) <= |s| then LeadingDots(name) else |s|
    decreases |s|
  {
    if s != [] && s[0] == '.' {
      assert name[0] == '.';
      LeadingDotsPrefix(name[1..], s[1..]);
    }
  }
}

=== FILE: progressive.dfy ===
/** `progressive_slr`: registration in stages of growing freedom —
    translation, rigid, similarity, scaling, affine — each stage seeded with
    the result of the one before, up to and including the named target. */
module Progressive {
  import opened Wrappers
  import opened External
  import Seqs
  import Codec
  import Engine

  datatype Stage = Translation | Rigid | Similarity | Scaling | Affine

  /** Position of a stage in the fixed order. */
  function Index(s: Stage): (i: nat)
    ensures i < 5
  {
    match s
    case Translation => 0
    case Rigid => 1
    case Similarity => 2
    case Scaling => 3
    case Affine => 4
  }

  /** The stage at a position of the fixed order. */
  function StageAt(i: nat): (s: Stage)
    requires i < 5
    ensures Index(s) == i
  {
    if i == 0 then Translation
    else if i == 1 then Rigid
    else if i == 2 then Similarity
    else if i == 3 then Scaling
    else Affine
  }

  /** The number of parameters a stage optimizes. */
  function Dim(s: Stage): (n: int)
    ensures Codec.ValidSize(n)
  {
    match s
    case Translation => 3
    case Rigid => 6
    case Similarity => 7
    case Scaling => 9
    case Affine => 12
  }

  /** The stage a target name selects; the match is exact (letter case
      included), unlike the family names `_set_x0` accepts. */
  function StageNamed(name: string): (r: Option<Stage>)
    ensures r.Some? ==> Engine.FamilySize(Engine.Lower(name)) == Some(Dim(r.value))
  {
    if name == "translation" then Some(Translation)
    else if name == "rigid" then Some(Rigid)
    else if name == "similarity" then Some(Similarity)
    else if name == "scaling" then Some(Scaling)
    else if name == "affine" then Some(Affine)
    else None
  }

  /** Later stages have strictly more parameters. */
  lemma StagesGrow(i: nat, j: nat)
    requires i < j < 5
    ensures Dim(StageAt(i)) < Dim(StageAt(j))
  {
  }

  /** The seed of stage `s` built from the `xopt` of the stage before it:
      rotation 0 appended after translation, scale 1 after rigid, the one
      similarity scale copied to three axes, shear 0 after scaling. A
      previous result of the wrong length makes numpy's slice assignment
      fail (`ValueError`), or its read of `x[6]` (`IndexError`). */
  function Seed(s: Stage, x: Vector): (r: Result<Vector>)
    requires s != Translation
    requires Codec.ValidSize(|x|)
    ensures r.Ok? ==> |r.value| == Dim(s)
    ensures |x| == Dim(StageAt(Index(s) - 1)) ==> r.Ok?
    ensures r.Ok? ==> r.value[..3] == x[..3]
    ensures r.Ok? && s != Rigid ==> |x| >= 6 && r.value[3..6] == x[3..6]
    ensures r.Err? ==> r.error.kind in {ValueError, IndexError}
  {
    match s
    case Rigid =>
      if |x| == 3 then Ok(x + [0.0, 0.0, 0.0])
      else Fail(ValueError, "could not broadcast input array into shape (3,)")
    case Similarity =>
      if |x| == 6 then Ok(x + [1.0])
      else Fail(ValueError, "could not broadcast input array into shape (6,)")
    case Scaling =>
      if |x| < 6 then Fail(ValueError, "could not broadcast input array into shape (6,)")
      else if |x| == 6 then Fail(IndexError, "index 6 is out of bounds for axis 0 with size 6")
      else Ok(x[..6] + [x[6], x[6], x[6]])
    case Affine =>
      if |x| < 9 then Fail(ValueError, "could not broadcast input array into shape (9,)")
      else Ok(x[..9] + [0.0, 0.0, 0.0])
  }

  /** A stage starts exactly where the previous one ended: when the previous
      stage returned a vector of its own length, the seed denotes the same
      transformation, with the new parameters at their identity values. */
  lemma SeedDenotesSameTransform(s: Stage, x: Vector)
    requires s != Translation
    requires |x| == Dim(StageAt(Index(s) - 1))
    ensures Seed(s, x).Ok? && Codec.ComposeArgs(Seed(s, x).value).Ok?
    ensures Codec.Denoted(Codec.ComposeArgs(Seed(s, x).value).value) == Codec.Denoted(Codec.ComposeArgs(x).value)
  {
    var y := Seed(s, x).value;
    assert y[..3] == x[..3];
    if s == Scaling {
      assert y[6..9] == [x[6], x[6], x[6]];
    } else if s == Affine {
      assert y[6..9] == x[6..9];
    }
  }

  /** The optimizer returns a vector as long as the start it was given. */
  ghost predicate SizePreserving(env: Env) {
    forall p :: |env.minimize(p).xopt| == |p.x0|
  }

  /** One stage: a registration with the given start and the bounds cut to
      the stage's length, optimized on the two bundles. */
  datatype StageRun = StageRun(stage: Stage, reg: Engine.Registration, result: Engine.RegMap)

  function RunStage(s: Stage, start: Engine.X0, metric: Option<MetricKind>, bounds: seq<Bound>, optMethod: string,
                    staticBundle: Bundle, moving: Bundle, env: Env): (r: Result<StageRun>)
    ensures r.Ok? ==> r.value.stage == s && Engine.SetX0(start) == Ok(r.value.reg.x0)
    ensures r.Ok? ==> r.value.reg.bounds == Some(Seqs.Take(bounds, Dim(s)))
    ensures r.Ok? ==> r.value.reg.metric == metric.GetOr(BundleMin)
    ensures r.Ok? ==> (r.value.result.JointMap? <==> metric.GetOr(BundleMin) == JointBundleMin)
    ensures r.Ok? && r.value.result.PlainMap? ==> Codec.ValidSize(|r.value.result.xopt|)
    ensures r.Ok? && r.value.result.PlainMap? && SizePreserving(env) ==> |r.value.result.xopt| == |r.value.reg.x0|
    ensures r.Ok? ==> Engine.SamePointCounts(staticBundle, moving)
  {
    var reg :- Engine.NewRegistration(metric, start, optMethod, Some(Seqs.Take(bounds, Dim(s))), None, false);
    var m :- Engine.Optimize(reg, staticBundle, moving, None, env);
    Ok(StageRun(s, reg, m))
  }

  /** The `i`-th run of a chain is the stage at position `i`, with that
      stage's bounds, length and metric. */
  ghost predicate RunAt(run: StageRun, i: nat, metric: Option<MetricKind>, bounds: seq<Bound>, env: Env)
    requires i < 5
  {
    && run.stage == StageAt(i)
    && run.reg.bounds == Some(Seqs.Take(bounds, Dim(StageAt(i))))
    && |run.reg.x0| == Dim(StageAt(i))
    && run.reg.metric == metric.GetOr(BundleMin)
    && (run.result.JointMap? <==> metric.GetOr(BundleMin) == JointBundleMin)
    && (run.result.PlainMap? ==> Codec.ValidSize(|run.result.xopt|))
    && (run.result.PlainMap? && SizePreserving(env) ==> |run.result.xopt| == Dim(StageAt(i)))
  }

  /** Run `i + 1` starts from the seed of run `i`'s result. */
  predicate Linked(prev: StageRun, next: StageRun, i: nat)
    requires i + 1 < 5
  {
    && prev.result.PlainMap?
    && Codec.ValidSize(|prev.result.xopt|)
    && Seed(StageAt(i + 1), prev.result.xopt) == Ok(next.reg.x0)
  }

  /** The runs of a chain: each at its place, the first from the identity
      translation, each later one seeded by the one before. */
  ghost predicate ChainShape(runs: seq<StageRun>, metric: Option<MetricKind>, bounds: seq<Bound>, env: Env) {
    && 0 < |runs| <= 5
    && (forall i :: 0 <= i < |runs| ==> RunAt(runs[i], i, metric, bounds, env))
    && runs[0].reg.x0 == Codec.IdentityParams(3)
    && (forall i :: 0 <= i < |runs| - 1 ==> Linked(runs[i], runs[i + 1], i))
  }

  /** Extending a chain by one stage keeps its shape. */
  lemma ExtendChain(runs: seq<StageRun>, run: StageRun, metric: Option<MetricKind>, bounds: seq<Bound>, env: Env)
    requires ChainShape(runs, metric, bounds, env) && |runs| < 5
    requires RunAt(run, |runs|, metric, bounds, env)
    requires Linked(runs[|runs| - 1], run, |runs| - 1)
    ensures ChainShape(runs + [run], metric, bounds, env)
  {
    var ext := runs + [run];
    assert forall i :: 0 <= i < |runs| ==> ext[i] == runs[i];
  }

  /** The translation stage, started from the named family. */
  function FirstRun(metric: Option<MetricKind>, bounds: seq<Bound>, optMethod: string,
                    staticBundle: Bundle, moving: Bundle, env: Env): (r: Result<StageRun>)
    ensures r.Ok? ==> RunAt(r.value, 0, metric, bounds, env) && r.value.reg.x0 == Codec.IdentityParams(3)
  {
    Engine.LowerOfLowerCase("translation");
    assert Engine.SetX0(Engine.Name("translation")) == Ok(Codec.IdentityParams(3));
    RunStage(Translation, Engine.Name("translation"), metric, bounds, optMethod, staticBundle, moving, env)
  }

  /** The stage `target`, seeded by the last run of the chain before it. */
  function NextRun(target: Stage, before: seq<StageRun>, metric: Option<MetricKind>, bounds: seq<Bound>,
                   optMethod: string, staticBundle: Bundle, moving: Bundle, env: Env): (r: Result<StageRun>)
    requires target != Translation
    requires ChainShape(before, metric, bounds, env) && |before| == Index(target)
    ensures r.Ok? ==> RunAt(r.value, Index(target), metric, bounds, env)
    ensures r.Ok? ==> Linked(before[|before| - 1], r.value, |before| - 1)
    ensures metric.GetOr(BundleMin) == JointBundleMin ==> r.Err? && r.error.kind == AttributeError
  {
    var last := before[|before| - 1];
    assert RunAt(last, |before| - 1, metric, bounds, env);
    if last.result.JointMap? then
      Fail(AttributeError, "'JointStreamlineRegistrationMap' object has no attribute 'xopt'")
    else
      var seed :- Seed(target, last.result.xopt);
      RunStage(target, Engine.Array([|seed|], seed), metric, bounds, optMethod, staticBundle, moving, env)
  }

  /** Every stage up to and including `target`, in order. The first starts
      from the named translation family; each later one from the seed of
      the previous stage's `xopt` (a joint map has no `xopt`). */
  function Chain(target: Stage, metric: Option<MetricKind>, bounds: seq<Bound>, optMethod: string,
                 staticBundle: Bundle, moving: Bundle, env: Env): (r: Result<seq<StageRun>>)
    ensures r.Ok? ==> |r.value| == Index(target) + 1 && ChainShape(r.value, metric, bounds, env)
    ensures metric.GetOr(BundleMin) == JointBundleMin && target != Translation ==> r.Err?
    decreases Index(target)
  {
    if target == Translation then
      var run :- FirstRun(metric, bounds, optMethod, staticBundle, moving, env);
      Ok([run])
    else
      var before :- Chain(StageAt(Index(target) - 1), metric, bounds, optMethod, staticBundle, moving, env);
      var run :- NextRun(target, before, metric, bounds, optMethod, staticBundle, moving, env);
      ExtendChain(before, run, metric, bounds, env);
      Ok(before + [run])
  }

  /** `progressive_slr(static, moving, metric, x0, bounds, method=method)`:
      the map of the last stage, or `ValueError` for a name that is not a
      stage. */
  function ProgressiveSlr(staticBundle: Bundle, moving: Bundle, metric: Option<MetricKind>, target: string,
                          bounds: seq<Bound>, optMethod: string, env: Env): (r: Result<Engine.RegMap>)
    ensures StageNamed(target).None? ==> r.Err? && r.error.kind == ValueError
    ensures r.Ok? ==> StageNamed(target).Some? && Engine.SamePointCounts(staticBundle, moving)
    ensures r.Ok? ==> (r.value.JointMap? <==> metric.GetOr(BundleMin) == JointBundleMin)
    ensures r.Ok? ==>
      var runs := Chain(StageNamed(target).value, metric, bounds, optMethod, staticBundle, moving, env);
      runs.Ok? && r.value == runs.value[|runs.value| - 1].result
  {
    match StageNamed(target)
    case None => Fail(ValueError, "Incorrect SLR transform")
    case Some(t) =>
      var runs :- Chain(t, metric, bounds, optMethod, staticBundle, moving, env);
      Ok(runs[|runs| - 1].result)
  }

  /** Every stage after the first starts from the transformation the stage
      before it found. */
  lemma ChainContinues(target: Stage, metric: Option<MetricKind>, bounds: seq<Bound>, optMethod: string,
                       staticBundle: Bundle, moving: Bundle, env: Env, i: nat)
    requires SizePreserving(env)
    requires Chain(target, metric, bounds, optMethod, staticBundle, moving, env).Ok?
    requires 1 <= i <= Index(target)
    ensures var runs := Chain(target, metric, bounds, optMethod, staticBundle, moving, env).value;
      && runs[i - 1].result.PlainMap?
      && Codec.ComposeArgs(runs[i].reg.x0).Ok?
      && Codec.Denoted(Codec.ComposeArgs(runs[i].reg.x0).value) == Codec.Denoted(Codec.ComposeArgs(runs[i - 1].result.xopt).value)
  {
    var runs := Chain(target, metric, bounds, optMethod, staticBundle, moving, env).value;
    assert RunAt(runs[i - 1], i - 1, metric, bounds, env) && Linked(runs[i - 1], runs[i], i - 1);
    SeedDenotesSameTransform(StageAt(i), runs[i - 1].result.xopt);
  }

  /** The first stage of a chain is an ordinary translation registration
      with the first three bounds. */
  lemma TranslationStageIsPlainRegistration(metric: Option<MetricKind>, bounds: seq<Bound>, optMethod: string,
                                            staticBundle: Bundle, moving: Bundle, env: Env)
    ensures var reg := Engine.NewRegistration(metric, Engine.Name("translation"), optMethod, Some(Seqs.Take(bounds, 3)), None, false);
      ProgressiveSlr(staticBundle, moving, metric, "translation", bounds, optMethod, env)
        == (if reg.Err? then Err(reg.error) else Engine.Optimize(reg.value, staticBundle, moving, None, env))
  {
  }
}

=== FILE: qbx.dfy ===
/** `slr_with_qbx` (also known as `whole_brain_slr`): register two large
    tractograms on the centroids of their clusters, after dropping
    streamlines outside a length window and clusters that are too small,
    then move the whole moving tractogram. */
module Qbx {
  import opened Wrappers
  import opened External
  import Seqs
  import Engine
  import Progressive

  /** A cluster of `qbx_and_merge`: its centroid and the number of
      streamlines it holds (`len(cluster)`). */
  datatype Cluster = Cluster(centroid: Streamline, size: nat)

  /** The streamline utilities and the clustering used here, none of whose
      code is part of this model: `length`, `set_number_of_points` (with
      `nb_pts` fixed inside), `select_random_set_of_streamlines` (with its
      random generator) and `qbx_and_merge` (with its thresholds). */
  datatype Tools = Tools(
    length: Streamline -> real,
    resample: Bundle -> Bundle,
    selectRandom: (Bundle, nat) -> Bundle,
    cluster: Bundle -> seq<Cluster>)

  /** The bounds `slr_with_qbx` hands to the progressive registration:
      translation within 35, angles within 45 degrees, scales in
      [0.6, 1.4], shears within 10. */
  const DefaultBounds: seq<Bound> := [
    (-35.0, 35.0), (-35.0, 35.0), (-35.0, 35.0),
    (-45.0, 45.0), (-45.0, 45.0), (-45.0, 45.0),
    (0.6, 1.4), (0.6, 1.4), (0.6, 1.4),
    (-10.0, 10.0), (-10.0, 10.0), (-10.0, 10.0)]

  function LargeEnough(minSize: int): Cluster -> bool {
    (c: Cluster) => c.size >= minSize
  }

  function CentroidOf(c: Cluster): Streamline {
    c.centroid
  }

  /** `remove_clusters_by_size(clusters, min_size)`: the centroids of the
      clusters with at least `min_size` streamlines, in cluster order. */
  function RemoveClustersBySize(clusters: seq<Cluster>, minSize: int): (r: Bundle)
    ensures |r| <= |clusters|
  {
    Seqs.Map(Seqs.Keep(clusters, LargeEnough(minSize)), CentroidOf)
  }

  /** The surviving centroids are exactly those of the large-enough
      clusters, in their original order: the `k`-th comes from cluster
      `ix[k]`, the positions `ix` increase, and a position is among them iff
      its cluster is large enough. */
  lemma RemoveClustersBySizeSelects(clusters: seq<Cluster>, minSize: int)
    ensures var ix := Seqs.KeptIndices(clusters, LargeEnough(minSize));
      && |ix| == |RemoveClustersBySize(clusters, minSize)|
      && Seqs.StrictlyIncreasing(ix)
      && (forall k :: 0 <= k < |ix| ==> ix[k] < |clusters|)
      && (forall k :: 0 <= k < |ix| ==> RemoveClustersBySize(clusters, minSize)[k] == clusters[ix[k]].centroid)
      && (forall i :: 0 <= i < |clusters| ==> (i in ix <==> clusters[i].size >= minSize))
  {
    Seqs.KeepIsOrderedSelection(clusters, LargeEnough(minSize));
  }

  /** With the default minimum of 0 every cluster survives. */
  lemma NoMinimumKeepsAll(clusters: seq<Cluster>)
    ensures |RemoveClustersBySize(clusters, 0)| == |clusters|
  {
    Seqs.KeepIsOrderedSelection(clusters, LargeEnough(0));
    var ix := Seqs.KeptIndices(clusters, LargeEnough(0));
    assert forall i :: 0 <= i < |clusters| ==> i in ix;
    IncreasingCovers(ix, |clusters|);
  }

  /** Strictly increasing positions below `n` that include every position
      below `n` are exactly `n` many. */
  lemma {:induction false} IncreasingCovers(ix: seq<nat>, n: nat)
    requires Seqs.StrictlyIncreasing(ix)
    requires forall k :: 0 <= k < |ix| ==> ix[k] < n
    requires forall i :: 0 <= i < n ==> i in ix
    ensures |ix| == n
    decreases n
  {
    if n > 0 {
      assert n - 1 in ix;
      var last := |ix| - 1;
      assert forall k :: 0 <= k < |ix| ==> ix[k] <= ix[last];
      var front := ix[..last];
      forall i | 0 <= i < n - 1 ensures i in front {
        assert i in ix;
        var k :| 0 <= k < |ix| && ix[k] == i;
        assert k != last;
        assert front[k] == i;
      }
      forall k | 0 <= k < |front| ensures front[k] < n - 1 {
        assert ix[k] < ix[last];
      }
      IncreasingCovers(front, n - 1);
    }
  }

  /** `check_range`: both bounds are strict. */
  function InRange(tools: Tools, gt: real, lt: real): Streamline -> bool {
    (s: Streamline) => gt < tools.length(s) < lt
  }

  /** The streamlines whose length lies strictly between the bounds, in
      order. */
  function LengthFilter(b: Bundle, tools: Tools, gt: real, lt: real): (r: Bundle)
    ensures |r| <= |b|
  {
    Seqs.Keep(b, InRange(tools, gt, lt))
  }

  /** A streamline survives the length filter iff its length is strictly
      inside the window; a length equal to either bound is dropped. */
  lemma LengthFilterSelects(b: Bundle, tools: Tools, gt: real, lt: real)
    ensures forall s :: s in LengthFilter(b, tools, gt, lt) <==> s in b && gt < tools.length(s) < lt
    ensures var ix := Seqs.KeptIndices(b, InRange(tools, gt, lt));
      && |ix| == |LengthFilter(b, tools, gt, lt)|
      && Seqs.StrictlyIncreasing(ix)
      && (forall k :: 0 <= k < |ix| ==> ix[k] < |b|)
      && (forall k :: 0 <= k < |ix| ==> LengthFilter(b, tools, gt, lt)[k] == b[ix[k]])
  {
    Seqs.KeepIsOrderedSelection(b, InRange(tools, gt, lt));
  }

  /** The parameters of `slr_with_qbx` other than the two tractograms. */
  datatype Settings = Settings(
    x0: Engine.X0,
    rmSmallClusters: int,
    maxiter: real,
    selectRandom: Option<nat>,
    greaterThan: real,
    lessThan: real,
    progressive: bool)

  /** The centroids one tractogram contributes: length filter, optional
      random selection, resampling, clustering, small-cluster removal. */
  function Centroids(b: Bundle, st: Settings, tools: Tools): Bundle {
    var kept := LengthFilter(b, tools, st.greaterThan, st.lessThan);
    var chosen := if st.selectRandom.Some? then tools.selectRandom(kept, st.selectRandom.value) else kept;
    RemoveClustersBySize(tools.cluster(tools.resample(chosen)), st.rmSmallClusters)
  }

  datatype QbxResult = QbxResult(moved: Bundle, matrix: Matrix44, staticCentroids: Bundle, movingCentroids: Bundle)

  /** The registration of the centroids: one L-BFGS-B registration with the
      given start and `maxiter`, or the progressive chain up to the named
      target with the default bounds. The metric is always the default. */
  function RegisterCentroids(c1: Bundle, c2: Bundle, st: Settings, env: Env): (r: Result<Engine.RegMap>)
    ensures r.Ok? ==> r.value.PlainMap?
    ensures st.progressive && !(st.x0.Name? && Progressive.StageNamed(st.x0.name).Some?) ==>
              r.Err? && r.error.kind == ValueError
  {
    if st.progressive then
      if st.x0.Name? then
        Progressive.ProgressiveSlr(c1, c2, None, st.x0.name, DefaultBounds, "L-BFGS-B", env)
      else
        Fail(ValueError, "Incorrect SLR transform")
    else
      var reg :- Engine.NewRegistration(None, st.x0, "L-BFGS-B", None, Some(map["maxiter" := st.maxiter]), false);
      Engine.Optimize(reg, c1, c2, None, env)
  }

  /** Register the two non-empty centroid sets and move the whole moving
      tractogram by the matrix found. */
  function RegisterAndMove(c1: Bundle, c2: Bundle, moving: Bundle, st: Settings, env: Env): (r: Result<QbxResult>)
    ensures r.Ok? ==> r.value.staticCentroids == c1 && r.value.movingCentroids == c2
    ensures r.Ok? ==> r.value.moved == env.transform(moving, r.value.matrix)
    ensures r.Ok? ==>
      var m := RegisterCentroids(c1, c2, st, env);
      m.Ok? && m.value.PlainMap? && r.value.matrix == m.value.matrix
  {
    var slm :- RegisterCentroids(c1, c2, st, env);
    Ok(QbxResult(Engine.TransformPlain(slm, moving, env), slm.matrix, c1, c2))
  }

  const NoStaticCentroids := "No cluster centroids found in Static Streamlines. Please decrease  the value of rm_small_clusters."
  const NoMovingCentroids := "No cluster centroids found in Moving Streamlines. Please decrease the value of rm_small_clusters."

  /** `slr_with_qbx(static, moving, ...)`: the moved tractogram, the matrix
      and both centroid sets; `ValueError` when either side has no
      centroid left, the static side being checked first. */
  function SlrWithQbx(staticBundle: Bundle, moving: Bundle, st: Settings, tools: Tools, env: Env): (r: Result<QbxResult>)
    ensures Centroids(staticBundle, st, tools) == [] ==> r.Err? && r.error.kind == ValueError
    ensures Centroids(moving, st, tools) == [] ==> r.Err? && r.error.kind == ValueError
    ensures r.Ok? ==> r.value.staticCentroids == Centroids(staticBundle, st, tools) != []
    ensures r.Ok? ==> r.value.movingCentroids == Centroids(moving, st, tools) != []
    ensures r.Ok? ==> r.value.moved == env.transform(moving, r.value.matrix)
    ensures r.Ok? ==>
      var m := RegisterCentroids(r.value.staticCentroids, r.value.movingCentroids, st, env);
      m.Ok? && m.value.PlainMap? && r.value.matrix == m.value.matrix
  {
    var c1 := Centroids(staticBundle, st, tools);
    var c2 := Centroids(moving, st, tools);
    if |c1| == 0 then
      Fail(ValueError, NoStaticCentroids)
    else if |c2| == 0 then
      Fail(ValueError, NoMovingCentroids)
    else
      RegisterAndMove(c1, c2, moving, st, env)
  }

  /** The whole moving tractogram is moved, not only the streamlines that
      passed the length filter: two moving tractograms that yield the same
      centroids come out moved by the same matrix. */
  lemma SameCentroidsSameMatrix(staticBundle: Bundle, moving1: Bundle, moving2: Bundle, st: Settings, tools: Tools, env: Env)
    requires Centroids(moving1, st, tools) == Centroids(moving2, st, tools)
    requires SlrWithQbx(staticBundle, moving1, st, tools, env).Ok?
    ensures SlrWithQbx(staticBundle, moving2, st, tools, env).Ok?
    ensures SlrWithQbx(staticBundle, moving2, st, tools, env).value.matrix == SlrWithQbx(staticBundle, moving1, st, tools, env).value.matrix
    ensures SlrWithQbx(staticBundle, moving2, st, tools, env).value.moved
              == env.transform(moving2, SlrWithQbx(staticBundle, moving1, st, tools, env).value.matrix)
  {
  }
}

=== FILE: seqs.dfy ===
/** Sequence helpers that mirror Python list idioms used by the modelled code:
    slicing that clamps at the end, and order-preserving filtering. */
module Seqs {

  /** Python's `s[lo:hi]` for 0 <= lo <= hi: both ends clamp at `len(s)`. */
  function Slice<T>(s: seq<T>, lo: nat, hi: nat): (r: seq<T>)
    requires lo <= hi
    ensures |r| == (if hi <= |s| then hi - lo else if lo <= |s| then |s| - lo else 0)
    ensures forall k :: 0 <= k < |r| ==> r[k] == s[lo + k]
  {
    var h := if hi <= |s| then hi else |s|;
    var l := if lo <= h then lo else h;
    s[l..h]
  }

  /** Python's `s[:n]`. */
  function Take<T>(s: seq<T>, n: nat): (r: seq<T>)
    ensures |r| == (if n <= |s| then n else |s|)
    ensures r <= s
  {
    if n <= |s| then s[..n] else s
  }

  /** `s` repeated `n` times, as Python's `n * s`. */
  function Repeat<T>(s: seq<T>, n: nat): (r: seq<T>)
    ensures |r| == n * |s|
  {
    if n == 0 then [] else s + Repeat(s, n - 1)
  }

  /** Python's `filter(p, s)` (or a boolean mask): the elements of `s` that
      satisfy `p`, in their original order. */
  function Keep<T>(s: seq<T>, p: T -> bool): (r: seq<T>)
    ensures |r| <= |s|
    ensures forall k :: 0 <= k < |r| ==> r[k] in s && p(r[k])
    ensures forall i :: 0 <= i < |s| && p(s[i]) ==> s[i] in r
  {
    if s == [] then []
    else if p(s[0]) then [s[0]] + Keep(s[1..], p)
    else Keep(s[1..], p)
  }

  /** The positions of `s` that `Keep` retains, in increasing order. */
  function KeptIndices<T>(s: seq<T>, p: T -> bool): seq<nat>
  {
    if s == [] then []
    else
      var rest := Shift(KeptIndices(s[1..], p));
      if p(s[0]) then [0] + rest else rest
  }

  function Shift(ix: seq<nat>): (r: seq<nat>)
    ensures |r| == |ix|
    ensures forall k :: 0 <= k < |r| ==> r[k] == ix[k] + 1
  {
    seq(|ix|, k requires 0 <= k < |ix| => ix[k] + 1)
  }

  predicate StrictlyIncreasing(ix: seq<nat>) {
    forall a, b :: 0 <= a < b < |ix| ==> ix[a] < ix[b]
  }

  /** As many positions are kept as elements. */
  lemma {:induction false} KeptIndicesCount<T>(s: seq<T>, p: T -> bool)
    ensures |KeptIndices(s, p)| == |Keep(s, p)|
    decreases |s|
  {
    if s != [] {
      KeptIndicesCount(s[1..], p);
    }
  }

  /** The kept positions are valid and strictly increasing. */
  lemma {:induction false} KeptIndicesIncreasing<T>(s: seq<T>, p: T -> bool)
    ensures StrictlyIncreasing(KeptIndices(s, p))
    ensures forall k :: 0 <= k < |KeptIndices(s, p)| ==> KeptIndices(s, p)[k] < |s|
    decreases |s|
  {
    if s != [] {
      KeptIndicesIncreasing(s[1..], p);
      var sh := Shift(KeptIndices(s[1..], p));
      var ix := KeptIndices(s, p);
      var rest := KeptIndices(s[1..], p);
      var d := if p(s[0]) then 1 else 0;
      assert ix == (if p(s[0]) then [0] + sh else sh);
      forall a, b | 0 <= a < b < |ix| ensures ix[a] < ix[b] {
        if a >= d {
          assert ix[a] == sh[a - d] == rest[a - d] + 1;
          assert ix[b] == sh[b - d] == rest[b - d] + 1;
        } else {
          assert ix[b] == rest[b - d] + 1;
        }
      }
      forall k | 0 <= k < |ix| ensures ix[k] < |s| {
        if k >= d {
          assert ix[k] == rest[k - d] + 1;
        }
      }
    }
  }

  /** The k-th kept element is the element at the k-th kept position. */
  lemma {:induction false} KeptIndicesSelect<T>(s: seq<T>, p: T -> bool)
    requires |KeptIndices(s, p)| == |Keep(s, p)|
    ensures forall k :: 0 <= k < |KeptIndices(s, p)| ==>
              KeptIndices(s, p)[k] < |s| && Keep(s, p)[k] == s[KeptIndices(s, p)[k]]
    decreases |s|
  {
    if s != [] {
      KeptIndicesCount(s[1..], p);
      KeptIndicesSelect(s[1..], p);
      var tail := s[1..];
      var rest := KeptIndices(tail, p);
      var sh := Shift(rest);
      var kt := Keep(tail, p);
      var ix := KeptIndices(s, p);
      var kp := Keep(s, p);
      if p(s[0]) {
        assert ix == [0] + sh && kp == [s[0]] + kt;
        forall k | 1 <= k < |ix| ensures ix[k] < |s| && kp[k] == s[ix[k]] {
          assert ix[k] == rest[k - 1] + 1;
          assert kp[k] == kt[k - 1] == tail[rest[k - 1]];
        }
      } else {
        assert ix == sh && kp == kt;
        forall k | 0 <= k < |ix| ensures ix[k] < |s| && kp[k] == s[ix[k]] {
          assert kp[k] == tail[rest[k]];
        }
      }
    }
  }

  /** A position is kept exactly when its element satisfies `p`. */
  lemma {:induction false} KeptIndicesExact<T>(s: seq<T>, p: T -> bool)
    ensures forall i :: 0 <= i < |s| ==> (i in KeptIndices(s, p) <==> p(s[i]))
    decreases |s|
  {
    if s != [] {
      var tail := s[1..];
      KeptIndicesExact(tail, p);
      var rest := KeptIndices(tail, p);
      var sh := Shift(rest);
      var ix := KeptIndices(s, p);
      assert ix == (if p(s[0]) then [0] + sh else sh);
      assert forall j :: 0 <= j < |sh| ==> sh[j] > 0;
      forall i | 1 <= i < |s| ensures i in ix <==> p(s[i]) {
        assert s[i] == tail[i - 1];
        if i - 1 in rest {
          var k :| 0 <= k < |rest| && rest[k] == i - 1;
          assert sh[k] == i;
        }
        if i in sh {
          var k :| 0 <= k < |sh| && sh[k] == i;
          assert rest[k] == i - 1;
        }
      }
    }
  }

  /** `Keep` is exactly an order-preserving selection: the kept positions
      increase, they are precisely the positions whose element satisfies
      `p`, and the k-th kept element is the element at the k-th kept
      position. */
  lemma KeepIsOrderedSelection<T>(s: seq<T>, p: T -> bool)
    ensures |KeptIndices(s, p)| == |Keep(s, p)|
    ensures StrictlyIncreasing(KeptIndices(s, p))
    ensures forall k :: 0 <= k < |KeptIndices(s, p)| ==>
              KeptIndices(s, p)[k] < |s| && Keep(s, p)[k] == s[KeptIndices(s, p)[k]]
    ensures forall i :: 0 <= i < |s| ==> (i in KeptIndices(s, p) <==> p(s[i]))
  {
    KeptIndicesCount(s, p);
    KeptIndicesIncreasing(s, p);
    KeptIndicesSelect(s, p);
    KeptIndicesExact(s, p);
  }

  /** Every element occurs once. */
  predicate Distinct<T(==)>(s: seq<T>) {
    forall a, b :: 0 <= a < b < |s| ==> s[a] != s[b]
  }

  /** The set of elements of a sequence never has more members than the
      sequence has positions, and strictly fewer when two positions hold the
      same element. */
  lemma {:induction false} ElementsBound<T>(s: seq<T>)
    ensures |set x | x in s| <= |s|
    ensures !Distinct(s) ==> |set x | x in s| < |s|
    decreases |s|
  {
    if s != [] {
      var tail := s[1..];
      ElementsBound(tail);
      var st := set x | x in tail;
      assert (set x | x in s) == {s[0]} + st;
      if !Distinct(s) && Distinct(tail) {
        HeadRepeats(s);
        assert (set x | x in s) == st;
      }
    }
  }

  /** When the tail has no repetition but the whole does, the head recurs. */
  lemma HeadRepeats<T>(s: seq<T>)
    requires s != [] && !Distinct(s) && Distinct(s[1..])
    ensures s[0] in s[1..]
  {
    var tail := s[1..];
    var a, b :| 0 <= a < b < |s| && s[a] == s[b];
    assert a == 0;
    assert s[0] == tail[b - 1];
  }

  /** A sequence without repetitions has exactly as many elements as positions. */
  lemma {:induction false} DistinctElementsCount<T>(s: seq<T>)
    requires Distinct(s)
    ensures |set x | x in s| == |s|
    decreases |s|
  {
    if s != [] {
      var tail := s[1..];
      assert Distinct(tail) by {
        forall a, b | 0 <= a < b < |tail| ensures tail[a] != tail[b] {
          assert tail[a] == s[a + 1] && tail[b] == s[b + 1];
        }
      }
      DistinctElementsCount(tail);
      var st := set x | x in tail;
      assert (set x | x in s) == {s[0]} + st;
      assert s[0] !in st;
    }
  }

  /** Apply `f` to every element, keeping positions. */
  function Map<A, B>(s: seq<A>, f: A -> B): (r: seq<B>)
    ensures |r| == |s| && forall i :: 0 <= i < |s| ==> r[i] == f(s[i])
  {
    seq(|s|, i requires 0 <= i < |s| => f(s[i]))
  }

  /** A prefix of a prefix is a prefix. */
  lemma PrefixOfPrefix<T>(s: seq<T>, j: nat, k: nat)
    requires k <= j <= |s|
    ensures s[..j][..k] == s[..k]
  {
  }

  /** Cancelling the head of `a` against an equal element of `b` keeps the
      two multisets equal. */
  lemma CancelHead<T>(a: seq<T>, b: seq<T>, k: nat)
    requires multiset(a) == multiset(b)
    requires |a| > 0 && k < |b| && b[k] == a[0]
    ensures multiset(a[1..]) == multiset(b[..k] + b[k + 1..])
  {
    assert a == [a[0]] + a[1..];
    assert b == b[..k] + [b[k]] + b[k + 1..];
    calc {
      multiset(a[1..]) + multiset{a[0]};
      multiset(a);
      multiset(b);
      multiset(b[..k] + b[k + 1..]) + multiset{a[0]};
    }
    var x, y, e := multiset(a[1..]), multiset(b[..k] + b[k + 1..]), multiset{a[0]};
    assert x == (x + e) - e;
    assert y == (y + e) - e;
  }

  /** Mapping commutes with removing one position. */
  lemma MapRemove<A, B>(b: seq<A>, f: A -> B, k: nat)
    requires k < |b|
    ensures Map(b[..k] + b[k + 1..], f) == Map(b, f)[..k] + Map(b, f)[k + 1..]
  {
  }

  /** Rearranging the input rearranges the output the same way. */
  lemma {:induction false} MapPermutation<A, B>(a: seq<A>, b: seq<A>, f: A -> B)
    requires multiset(a) == multiset(b)
    ensures multiset(Map(a, f)) == multiset(Map(b, f))
    decreases |a|
  {
    if a == [] {
      assert |b| == |multiset(a)| == 0;
    } else {
      assert a[0] in multiset(b);
      var k :| 0 <= k < |b| && b[k] == a[0];
      CancelHead(a, b, k);
      MapPermutation(a[1..], b[..k] + b[k + 1..], f);
      MapRemove(b, f, k);
      var ma, mb := Map(a, f), Map(b, f);
      assert ma == [ma[0]] + Map(a[1..], f);
      assert mb == mb[..k] + [mb[k]] + mb[k + 1..];
      assert multiset(mb) == multiset(mb[..k] + mb[k + 1..]) + multiset{mb[k]};
    }
  }
}

=== FILE: wrappers.dfy ===
/** Failure-compatible result types shared by every module of the model.

    The Python code raises exceptions; the model returns `Err` with the
    exception class the source raises and the message it attaches. */
module Wrappers {

  /** The Python exception classes the modelled code raises, plus two
      outcomes the model has to name explicitly:
      - `NonFinite`: numpy would silently produce an IEEE infinity here;
      - `RetriesExhausted`: the random retry loop of `get_unique_pairs` ran
        out of the random draws it was given (the source loops unboundedly). */
  datatype ErrorKind =
    | ValueError
    | TypeError
    | IndexError
    | ImportError
    | AttributeError
    | NonFinite
    | RetriesExhausted

  datatype Error = Error(kind: ErrorKind, message: string)

  datatype Option<+T> = None | Some(value: T) {
    function GetOr(default: T): T {
      match this
      case Some(v) => v
      case None => default
    }
  }

  datatype Result<+T> = Ok(value: T) | Err(error: Error) {
    predicate IsFailure() {
      Err?
    }

    function PropagateFailure<U>(): Result<U>
      requires Err?
    {
      Err(error)
    }

    function Extract(): T
      requires Ok?
    {
      value
    }
  }

  function Fail<T>(kind: ErrorKind, message: string): Result<T> {
    Err(Error(kind, message))
  }
}
